=== FILE: README.md ===
# PeerHost core in Dafny

PeerHost elects one player as the host of a shared Minecraft world and keeps the world
files in step between players. This project models the decisions under its HTTP,
filesystem and subprocess plumbing, and proves what they guarantee.

- **Coordinator (server).**
  - The per-world session lock: create, update, delete, reset, the holder check, and the claim, view and stop endpoints.
  - Upload admission: restricted names, ignored globs, traversal, then `meta`.
  - The hash-gated, all-or-nothing commit, the download lookup and the HTTP status mapping.
  - The path-keyed file index.
  - The world manifest.
  - The client-distribution manifest and its file lookup.
- **Client.**
  - The pre-host sync diff and the is-fully-synced check.
  - The upload skip rule, the watcher's queue / debounce bookkeeping, and the initial and final scans.
  - The session manager's reply classification and its 409-resume claim rule.
  - The host-election state machine.
  - The heartbeat failure counter, the username check, and the start and stop order of the hosting services.
  - The game-server Java choice, command rewrite and log detection.
  - The process tracker.
- **Launcher.** The Java version check and setup priority, the update diff with its path-safety test, and the three-try download.

## How it is modelled

- Storage is a map from path components to bytes: `Bytes.Files = map<seq<string>, Content>`. A path that is a strict prefix of a stored key is a directory.
- SHA-256 is the parameter `hash: Content -> Digest`. No property depends on what it computes.
- A Python dict is `map<string, Json>`, with Python truthiness (`JsonData`). A session record is such a map, so `update_session`'s shallow merge is modelled as it is written.
- Every HTTP exchange, file read and process check becomes an input. Examples:
  - a `Reply` (a status and a body, or the kind of exception raised);
  - a `fetch` or `attempt` function giving each download's outcome;
  - whether a process is alive;
  - the log lines read.
- A raised exception becomes an error value: `Result`, `Option`, or `SessionManager.Escape`.
- One Dafny module per source file. Shared modules:
  - `Wrappers` (Option/Result);
  - `Bytes`: file contents, digests, and the loop that receives an upload stream;
  - `Strings`;
  - `Glob`: `fnmatch` with `*` and literals, which are the only patterns used;
  - `Paths`: lexical POSIX paths, with `..` resolved without symlinks;
  - `JsonData`.

## Model

| member | source | states |
|---|---|---|
| HostService.CreateSession | app/services/host_service.py:6-44 | Fails with world-not-found or session-exists, and then writes nothing. Otherwise it stores exactly the new record: the given lock flag and host fields, all timestamps null, and the config timing. |
| HostService.UpdateSession | app/services/host_service.py:65-92 | Refuses an update naming `config` or `world_id`. It needs an existing session. It is a shallow merge: the supplied keys are replaced, every other key is kept, and there are no other keys. |
| HostService.DeleteSession | app/services/host_service.py:94-112 | True iff a session existed. Afterwards the session reads as absent, the set of worlds is the same, and every other world's session is untouched. |
| HostService.ResetSession | app/services/host_service.py:114-138 | Succeeds iff a session exists. The result is unlocked, with every host field and timestamp null, and every other key (world_id, config) is preserved. |
| HostService.AuthClaimSession | app/services/host_service.py:153-167 | True iff a session exists and both host_id and ip_address equal the holder's. A missing session gives false. Only a malformed record errors. |
| HostService.CreatedSessionAuth | app/services/host_service.py:6-44 | A session created for (host, ip) authorises exactly that caller. |
| HostsRouter.Lock | app/routers/hosts.py:19-35 | Locking an existing session sets the requester as holder with the new token. It keeps every key other than the lock and host, and touches no other world. |
| HostsRouter.ClaimSession | app/routers/hosts.py:8-35 | Grants a token iff the world exists and its session is absent or unlocked. A missing world gives 404. A locked session gives 409 with nothing changed. After a grant the session is locked by the requester. |
| HostsRouter.GetSessionRoute | app/routers/hosts.py:37-46 | 404 iff there is no (or an empty) session. Otherwise the view holds exactly is_locked and the holder's host_id. |
| HostsRouter.StopSession | app/routers/hosts.py:48-56 | 204 iff the caller is the holder, and then the session is unlocked with null host fields. Any other caller gets 401 and nothing changes. |
| HostsRouter.ClaimExcludesClaim | app/routers/hosts.py:17-34 | After a successful claim, any second claim gets 409 and changes nothing (mutual exclusion). |
| HostsRouter.ClaimThenStop | app/routers/hosts.py:17-56 | After a claim, the claimant can stop it, and any other host_id gets 401 with the lock still held. |
| HostsRouter.EndpointsKeepConsistent | app/routers/hosts.py:8-56 | Claim and stop preserve the invariant that a locked session has a holder. |
| FileService.CheckUpload | app/services/file_service.py:53-90 | Accepts iff the path is not restricted, not ignored, not traversal and has no `meta` component. Each rejection reason is reported only when every earlier check passed. |
| FileService.IgnoredNames | app/services/file_service.py:20-29 | The ignored test is exactly the listed suffixes, the two names and the `__pycache__/` prefix. |
| FileService.TempOf | app/services/file_service.py:100 | The temp name never coincides with the target. |
| FileService.SaveFile | app/services/file_service.py:53-136 | A rejected path writes nothing. Success iff the path is admitted, the parent is not a file, the temp name is not a directory, the digest matches and the target is writable. The target then holds the streamed bytes and nothing else changes. A digest mismatch is reported exactly when the path is admitted and the parent and temp name are usable. On any error the target is unchanged and no temp file is left. |
| FileService.GetFile | app/services/file_service.py:138-151 | Returns bytes iff the path has no `meta` component, is not traversal and is stored. The bytes are the stored ones and lie inside the storage root. |
| FileService.GetFileEscapesStorage | app/services/file_service.py:138-151 | As written, `../x` reads a file outside the storage root. The corrected GetFile refuses it. |
| FileService.SaveThenGet | app/services/file_service.py:53-151 | After a successful save, get_file returns exactly the uploaded bytes. |
| FileService.GetSyncConfig | app/services/file_service.py:34-49 | Always returns the restricted and ignored sets. start_command comes from readable settings, and is null otherwise. |
| FileService.ConfigAgreesWithUploadCheck | app/services/file_service.py:34-80 | A name the configuration lists as restricted is refused by the upload check as restricted. Any other path an ignored pattern matches is refused as ignored. |
| Bytes.ReceiveStream | app/services/file_service.py:103-106 | The received body is the concatenation of the chunks, and the size counts its bytes. |
| FilesRouter.UploadFile | app/routers/files.py:8-44 | 201 iff the caller holds the lock, the hash header is present and the save succeeds. A non-holder gets 401 and a missing header 400, both before any write. A forbidden path gets 403. On every failure the target is unchanged. |
| FilesRouter.CommitStatus | app/routers/files.py:28-44 | 201 iff the save commits. 403 exactly for a forbidden path, and then storage is unchanged. On any refusal the target is unchanged. |
| FilesRouter.StatusOf | app/routers/files.py:35-42 | PermissionError is answered with 403, ValueError with 400, anything else with 500. |
| FilesRouter.RefusalKeepsTarget | app/services/file_service.py:129-136 | A refused save leaves the target file as it was. |
| FilesRouter.RefusalClass | app/services/file_service.py:67-90 | A save raises PermissionError exactly for a restricted, ignored or `meta` path, and such a refusal writes nothing. |
| FilesRouter.DownloadFile | app/routers/files.py:47-63 | Built on the corrected FileService.GetFile. 404 exactly when get_file yields nothing. Otherwise the stored bytes are sent. |
| FilesRouter.UploadThenDownload | app/routers/files.py:8-63 | A 201 upload is downloadable with the same bytes. |
| FileIndexService.GetFile | app/services/file_index_service.py:47-60 | The lookup finds a record iff one is stored under the path, and returns that record. |
| FileIndexService.CreateFileRecord | app/services/file_index_service.py:5-45 | An existing path returns the stored record with nothing changed. A new path adds exactly one record with the given fields, and every other record is kept. |
| FileIndexService.DeleteRecord | app/services/file_index_service.py:62-80 | True iff the path was stored. Exactly that key is removed. |
| FileIndexService.DeleteMissingRaises | app/services/file_index_service.py:75-80 | As written, deleting a missing path raises. The corrected DeleteRecord returns false. |
| FileIndexService.DeleteAgrees | app/services/file_index_service.py:62-80 | The as-written delete succeeds iff the path is stored, and then agrees with DeleteRecord. |
| FileIndexService.ListFileRecord | app/services/file_index_service.py:82-90 | Lists exactly the stored records, one per key. |
| FileIndexService.KeyedRowsCount | app/services/file_index_service.py:82-90 | In a store keyed by path, there are as many distinct records as keys. |
| FileIndexService.CreateThenGet | app/services/file_index_service.py:5-60 | A created record can be looked up and is listed. |
| FileIndexService.CreateIdempotent | app/services/file_index_service.py:28-29 | A second create on the same path changes nothing, whatever its fields. |
| ManifestService.ScanFiles | app/services/manifest_service.py:26-72 | Lists exactly the readable files outside `meta` that are not lock, temp or log files, each with its path, hash and size. |
| ManifestService.ScanWorldFiles | app/services/manifest_service.py:26-72 | A missing root yields an empty list. |
| ManifestService.ScannedPathsClean | app/services/manifest_service.py:44-49 | No entry has a `meta` component or a `.lock`/`.tmp`/`.log` name. |
| ManifestService.GetManifest | app/services/manifest_service.py:75-90 | total_files is the number of entries and total_size the sum of their sizes. |
| ManifestService.ScanSplits | app/services/manifest_service.py:26-72 | Scanning two lists of files is scanning each in turn. |
| DistributionService.ScanClient | app/services/distribution_service.py:26-56 | Lists exactly the files not excluded by directory substring, name or suffix. |
| DistributionService.FindFile | app/services/distribution_service.py:69-85 | Finds content iff a file with those components exists. |
| DistributionService.GetClientManifest | app/services/distribution_service.py:26-67 | Version "1.0.0". The scanned entries are followed by a requirements entry exactly when that file exists. |
| DistributionService.GetClientFilePath | app/services/distribution_service.py:69-85 | requirements.txt resolves iff it exists. Any other path resolves iff it stays inside the client directory and names an existing file. |
| DistributionService.ListedFilesServable | app/services/distribution_service.py:69-85 | Every plain existing path is served from the client directory. |
| DistributionService.EscapeRefused | app/services/distribution_service.py:74-85 | A path that resolves outside the client directory is refused. |
| DistributionService.RequirementsListedTwice | app/services/distribution_service.py:26-67 | When requirements.txt also passes the scan, the manifest lists it twice. |
| SyncService.DownloadList | client/services/sync_service.py:119-134 | The download set is exactly the server paths missing locally or with a different local hash. A server path that is a local directory makes the read fail. |
| SyncService.KnownHashes | client/services/sync_service.py:136-168 | The path→hash map covers exactly the server paths. |
| SyncService.KnownHashesLast | client/services/sync_service.py:136-168 | A path listed twice keeps its last hash. |
| SyncService.WithSuffix | client/services/sync_service.py:82 | `with_suffix` keeps the directory, makes the name end in the suffix, and is the identity when the suffix is already there. |
| SyncService.WriteDownload | client/services/sync_service.py:64-95 | A download is written iff a body arrived and the target and its temp are not blocked. The target then holds the body, and only it and its temp change. |
| SyncService.TouchedShape | client/services/sync_service.py:64-95 | Only downloaded targets and `.tmp` names are touched. |
| SyncService.DownloadAll | client/services/sync_service.py:140-160 | The count of downloads is at most the list length. All are counted only when every fetch succeeded, and then every download that no later one overwrites or removes holds its fetched body. When every fetch succeeds and the downloads are clear and independent, all are counted. Only touched paths change. |
| SyncService.SyncFromServer | client/services/sync_service.py:97-168 | No manifest gives (False, 0, 0, None). An empty diff gives (True, 0, 0, map). Success iff every needed file was downloaded. On success each needed file that no later download overwrites holds its fetched body. Clear, independent downloads that all fetch succeed. The map covers all server entries. Local files outside the diff are kept. The synced flag is set on success. |
| SyncService.SyncKeepsLocalExtras | client/services/sync_service.py:119-168 | A local file not named by the server is neither overwritten nor deleted. |
| SyncService.AllMatch | client/services/sync_service.py:173-199 | True iff every server entry exists locally with an equal hash. |
| SyncService.IsFullySynced | client/services/sync_service.py:173-199 | The cached flag answers true. Without a manifest the answer is false. Otherwise every entry must match. The flag afterwards is set exactly when it was set or the answer is true. |
| SyncService.AllMatchIffNothingNeeded | client/services/sync_service.py:119-199 | Everything matches iff the download set is empty. |
| SyncService.FullySyncedIffNothingToDownload | client/services/sync_service.py:119-199 | is_fully_synced agrees with an empty sync_from_server diff. |
| SyncService.SyncedStaysSynced | client/services/sync_service.py:173-199 | After a check answers true, the next check answers true and keeps the flag, for any manifest and any local files. |
| SyncService.RelativePathRoundTrip | client/services/sync_service.py:212-217 | The relative path of a file under the watch dir joins back to that file. |
| SyncService.UploadFile | client/services/sync_service.py:219-261 | Uploads iff the file exists and its hash differs from the known server hash. It sends the relative path and that hash, and reports true iff the response is 201. |
| SyncService.SentDigestPassesIntegrity | client/services/sync_service.py:219-261 | The digest an upload sends passes the server's integrity check for the same bytes. |
| SyncService.IsIgnored | client/services/sync_service.py:334-339 | True iff some ignore pattern matches the name. |
| SyncService.Enqueue | client/services/sync_service.py:322-332 | Events for paths in the processing context or with ignored names are dropped. Any other path is queued at the end. |
| SyncService.Consume | client/services/sync_service.py:341-358 | Restricted names are sent to revert and never uploaded. Any other path supersedes its pending upload with a new tracked one, and other tasks are kept. |
| SyncService.Finish | client/services/sync_service.py:360-369 | A finished task is removed. Its pending entry is dropped only if it still points to that task. |
| SyncService.TrackedAtMostOne | client/services/sync_service.py:352-369 | Under the tracking invariant, at most one active upload exists per path, and each is pending. |
| SyncService.InitialTracked | client/services/sync_service.py:311-320 | The empty watcher is tracked. |
| SyncService.StepsKeepTracked | client/services/sync_service.py:322-369 | Enqueue, consume and finish preserve the tracking invariant. |
| SyncService.StaleFinallyLosesTrack | client/services/sync_service.py:360-369 | As written, a cancelled task's `finally` removes the newer task's entry, and two uploads of one path end up active. |
| SyncService.ScanCandidates | client/services/sync_service.py:468-475 | The scan keeps exactly the files that are neither ignored nor restricted. |
| SyncService.Accepted | client/services/sync_service.py:219-261 | Exactly the uploads answered with 201 count as uploaded. |
| SyncService.UploadEach | client/services/sync_service.py:536-553 | Every candidate is counted once, as uploaded or skipped. Exactly the candidates whose hash differs from the known one are sent. |
| SyncService.FinalSync | client/services/sync_service.py:512-553 | Given the `rglob` listing of the watch dir, every file below it that is neither ignored nor restricted and whose hash differs from the fetched manifest's is sent. Nothing else is sent. |
| SyncService.InitialScan | client/services/sync_service.py:453-486 | Given the `rglob` listing of the watch dir, counts every scan candidate. Every file below it that is neither ignored nor restricted, and whose hash differs from the given map (or else the fetched manifest), is sent. With neither, every such file is sent. Nothing else is sent. |
| SyncService.InitialMatchesFinal | client/services/sync_service.py:453-553 | Without a given map, the initial scan and the final sync compare each path against the same hash. |
| SyncService.FinalSyncSkipsSynced | client/services/sync_service.py:521-546 | A file whose hash equals the server's is not re-uploaded by the final sync. |
| SessionManager.HeartbeatInterval | client/session_manager.py:18-24 | 5 before any grant, then the granted interval. |
| SessionManager.LockTimeout | client/session_manager.py:18-24 | 15 before any grant, then the granted timeout. |
| SessionManager.ErrorMsg | client/session_manager.py:45-51 | Gives the `detail` value, or else the whole document. A non-JSON body gives its first 100 characters. Fails exactly on JSON that is not an object. |
| SessionManager.HeartbeatSession | client/session_manager.py:100-121 | Data with 200 exactly for a 200 JSON reply. 503 for a lost connection, 500 for any other exception. Otherwise the status. |
| SessionManager.CheckConnection | client/session_manager.py:142-157 | True iff the status is 200 and the body parses as JSON. |
| SessionManager.GetSession | client/session_manager.py:124-139 | The document iff the status is 200 with a JSON body. |
| SessionManager.ClassifiersAgree | client/session_manager.py:100-157 | Heartbeat, ping and session read succeed on exactly the same replies. |
| SessionManager.StopSession | client/session_manager.py:85-97 | True iff 204. A lost connection or readable error is false. Any other exception escapes. |
| SessionManager.ErrorRepliesAgree | client/session_manager.py:45-121 | For an error status, the stop escapes exactly when the heartbeat reports 500, which is exactly when the body is JSON but not an object. A text body is a readable error to both. |
| SessionManager.ParseInfo | client/session_manager.py:75-79 | Validates exactly when the body is JSON with a string `token` and integer `heartbeat_interval` and `lock_timeout`, extra keys allowed. The info then holds those values. |
| SessionManager.ClaimSession | client/session_manager.py:54-82 | A claim holds iff 200/201, or 409 with a passing ping and a 200 heartbeat. 200/201 stores the info and saves its token. A lost connection is false and leaves the info unchanged. |
| SessionManager.GrantedClaimSetsTiming | client/session_manager.py:18-79 | After a grant, the heartbeat runs on the granted timing with the saved token. |
| SessionManager.ConflictNeedsHeartbeat | client/session_manager.py:61-73 | A 409 is resumed only when the server accepts a heartbeat, and it keeps the old info. |
| StateMachine.HandleDiscovery | client/state_machine.py:89-129 | No connection stays in DISCOVERY. No session, or a JSON null session, goes to PRE_HOST_SYNC. Locked by another host goes to PARTICIPANT, otherwise PRE_HOST_SYNC. Never straight to HOSTING or CLAIM_HOST. |
| StateMachine.HandleParticipant | client/state_machine.py:131-148 | No or unlocked session goes to DISCOVERY. Locked stays PARTICIPANT. A failed sync raises. |
| StateMachine.HostingVerdict | client/state_machine.py:185-214 | A dead heartbeat or tunnel goes to DISCOVERY. A dead game restarts (HOSTING) iff a start command is known and the restart did not raise. Healthy stays HOSTING. |
| StateMachine.ClearCache | client/state_machine.py:173-184 | A non-empty cached manifest is dropped. An empty one is kept. |
| StateMachine.Step | client/state_machine.py:33-214 | A raising handler leaves the machine unchanged. INIT→DISCOVERY. PRE_HOST_SYNC→CLAIM_HOST iff the sync succeeded, caching its map. CLAIM_HOST→HOSTING iff claimed. HOSTING is entered only from CLAIM_HOST. |
| StateMachine.Run | client/state_machine.py:33-50 | The run is the start followed by one Step per handler run. |
| StateMachine.EnteredAt | client/state_machine.py:33-50 | A run that reaches a state it did not start in entered it at some step. |
| StateMachine.HostingOnlyAfterSyncedClaim | client/state_machine.py:150-171 | Hosting from a fresh start requires an earlier successful claim, which itself follows a successful pre-host sync that cached the known hashes. |
| Client.CheckUsername | client/client.py:88-114 | Accepted iff longer than 5 characters and matching `^[a-zA-Z0-9_-]+$`, with Python's `$` also taking one final newline. |
| Client.UsernameWithoutNewline | client/client.py:95-101 | For input without a newline, valid iff longer than 5 characters and every character is a letter, digit, `_` or `-`. |
| Client.TrailingNewlinePasses | client/client.py:95-101 | `$` accepts "player\n" and rejects an inner newline. |
| Client.PromptUsername | client/client.py:88-114 | The prompt returns the first valid answer, and none exists when it returns nothing. |
| Client.Beat | client/client.py:144-192 | 200 resets the counter; another host_id stops with the host tunnel only and ends the loop. 401 stops offline without a session stop and ends the loop. Other statuses count up, and stop offline from the third on. |
| Client.HeartbeatLoop | client/client.py:144-192 | The loop stops at most once per heartbeat. |
| Client.CounterCountsTrailingFailures | client/client.py:146-190 | The counter equals the number of failed heartbeats since the last success. |
| Client.EndedLoopStays | client/client.py:157-172 | After the loop ended, further replies change nothing. |
| Client.ThreeFailuresStopOffline | client/client.py:175-190 | Two failures do not stop; the third stops offline. |
| Client.FailureAfterReconnectStopsAgain | client/client.py:175-190 | The counter is not reset after reconnecting, so the next failure stops again. |
| Client.StartHeartbeatMonitor | client/client.py:129-135 | A new task is created iff none is running. |
| Client.StopHeartbeatMonitor | client/client.py:137-142 | No task remains. |
| Client.StartMonitorIdempotent | client/client.py:129-135 | Starting twice creates one task. |
| Client.StartHostingServices | client/client.py:195-232 | Nothing starts if sync already exists or there is no token. Otherwise: sync first, the game iff a non-empty command is known, the host tunnel last, in order. |
| Client.RisingIsOrdered | client/client.py:234-284 | Steps with rising ranks are in shutdown order. |
| Client.ThenIf | client/client.py:234-284 | Adding a step conditionally keeps the order. |
| Client.StopHostingServices | client/client.py:234-284 | Exactly the planned steps, in shutdown order. Offline skips the wait, the final sync and the session stop. |
| Client.HeartbeatStopsStayOffline | client/client.py:169-284 | A heartbeat-triggered stop shuts the tunnel, game and heartbeat but neither syncs nor stops the session. |
| ProcessTracker.Register | client/common/process_tracker.py:56-74 | Empty key or pid 0 changes nothing. Otherwise key ↦ (pid, name, "active"), and other keys are untouched. |
| ProcessTracker.Unregister | client/common/process_tracker.py:76-81 | The key is gone, and other keys are untouched. |
| ProcessTracker.CleanupOrphans | client/common/process_tracker.py:83-128 | Kills exactly the live pids whose name contains the tracked name (case-insensitively), then empties the map. An empty map kills nothing. |
| ProcessTracker.CleanupKillsOnlyMatches | client/common/process_tracker.py:116-128 | Every killed pid is live and matches a tracked entry's name. |
| ProcessTracker.RegisterUnregister | client/common/process_tracker.py:56-81 | Unregistering a fresh key restores the registry. |
| GameServer.GetJavaExecutable | client/services/game_server.py:30-57 | The system java if its marker exists and it runs; else the portable path if it exists and runs; else "java". |
| GameServer.LauncherChoiceHolds | client/services/game_server.py:30-57 | When the launcher accepted the system Java and it runs, the game server starts "java". When the launcher fell back to a portable runtime and it runs, the game server starts that runtime. |
| GameServer.RewriteCommand | client/services/game_server.py:85-87 | A leading `java ` is replaced by the quoted executable and the rest is kept verbatim. Other commands are unchanged. |
| GameServer.RewriteOnce | client/services/game_server.py:85-87 | Rewriting a rewritten command changes nothing. |
| GameServer.StartServer | client/services/game_server.py:73-125 | A no-op while running. A spawn runs the rewritten command and registers the pid. |
| GameServer.MonitorLines | client/services/game_server.py:208-249 | Reading lines never clears ready or saved and never touches the process. |
| GameServer.MonitorDetects | client/services/game_server.py:236-243 | Ready iff some line has "Done" and "For help, type". Saved iff some line has the all-saved message. |
| GameServer.StopServer | client/services/game_server.py:127-171 | Waits for saved only if ready. Clears the process. Unregisters only on a forced kill. |
| GameServer.StopThenStart | client/services/game_server.py:73-171 | A stopped server is not running and can be started again. |
| Launcher.LeadingDigits | client_launcher/launcher.py:54-59 | The maximal run of digits at the start. |
| Launcher.VersionNumber | client_launcher/launcher.py:54-59 | The parsed version is a non-empty run of digits. |
| Launcher.VersionAtStart | client_launcher/launcher.py:54-59 | Output starting `version "` followed by digits parses to those digits. |
| Launcher.DigitsPrefix | client_launcher/launcher.py:54-59 | Digits followed by a non-digit are read exactly. |
| Launcher.CheckSystemJava | client_launcher/launcher.py:38-67 | Accepted iff the parsed version equals the required one. |
| Launcher.SetupJava | client_launcher/launcher.py:69-160 | Matching system Java is used first. Next a portable runtime with the same marker. Else download. A stale marker removes the old runtime. |
| Launcher.SafeImpliesTextSafe | client_launcher/launcher.py:188-200 | Component-wise containment implies the string-prefix test. |
| Launcher.SiblingPassesTextTest | client_launcher/launcher.py:246-282 | As written, `../cx` from client dir `c` passes the prefix test but leaves the directory. |
| Launcher.NeededFiles | client_launcher/launcher.py:220-268 | Exactly the safe entries that are missing or stale. A target that is a local directory raises. Built on the corrected component-wise containment. |
| Launcher.DownloadWithRetry | client_launcher/launcher.py:294-332 | At most 3 tries. Retries only after a request failure, and succeeds iff the last try fetched. |
| Launcher.OutcomeSucceeds | client_launcher/launcher.py:294-332 | Succeeds iff some try within the limit fetched after only request failures. |
| Launcher.WriteUpdate | client_launcher/launcher.py:284-335 | Written iff a body arrived, the target is not blocked and its `.tmp` name is not a directory. A `.tmp` directory leaves everything unchanged. Only the target and its `.tmp` change. |
| Launcher.ApplyOne | client_launcher/launcher.py:277-335 | A success writes the fetched body to the target. The write succeeds whenever the download succeeds and neither the target nor its `.tmp` is in the way. Only the target and its `.tmp` change, all inside the client dir. |
| Launcher.ApplyUpdates | client_launcher/launcher.py:277-335 | Success only if every file downloaded, and then every file that no later entry overwrites holds its fetched body. Conversely, it succeeds when every download succeeds, no target has a file above it or is a directory, no `.tmp` name is a directory, and no entry writes below another's paths. A failed download fails the pass, and every path written only by later entries is kept, because the pass stops there. Paths no entry writes are kept. Nothing outside the client dir changes. Built on the corrected component-wise containment. |
| Launcher.CheckForUpdates | client_launcher/launcher.py:202-339 | No manifest or an empty diff gives false and no change. True only after all needed files downloaded, each not later overwritten holding its fetched body. Conversely, true when the diff is non-empty, every needed file is ready and none writes below another's paths. A failed download gives false and keeps every path only later files write. Nothing outside the client dir changes. Built on the corrected component-wise containment. |
| Launcher.ReadySurvives | client_launcher/launcher.py:277-335 | Writing one entry leaves another entry, whose paths are not nested with it, as ready as it was. |
| Launcher.AbortAfterFirst | client_launcher/launcher.py:277-335 | After a successful first write, a failed download later in the pass fails the whole pass, and paths only later entries write are kept. |
| Launcher.DistinctTargetsAllLanded | client_launcher/launcher.py:277-335 | When no entry's target is written by a later entry, every entry of a successful update holds its fetched body. |
| Launcher.SameOutsideDirTrans | client_launcher/launcher.py:277-335 | Staying unchanged outside the directory composes across writes. |
| Launcher.WriteStaysInside | client_launcher/launcher.py:284-335 | A write to a target and temp inside the directory changes nothing outside it. |
| Launcher.TargetInside | client_launcher/launcher.py:188-288 | A safe target and its temp name lie inside the client dir. |

## Left out

- Network, file and process I/O (requests, aiohttp, anyio, json_storage, psutil, taskkill, subprocess) become inputs. The Cloudflare tunnels and `shlex.split` are left out.
- SHA-256 is an uninterpreted `hash` parameter.
- `Path.resolve` is lexical: symlinks are not followed.
- `fnmatch` is modelled for `*` and literal characters only. These are the only patterns the source uses.
- `Lower` folds ASCII only, and the username class and `\d` are ASCII only.
- Concurrency is not modelled. This covers asyncio scheduling, debounce sleeps, timeouts, `revert_file`'s processing-context timing, `wait_for_pending_uploads`, the FileMonitor and watchfiles. The watcher keeps only the per-path pending-upload map.
- Client.StopHostingServices: lists the steps as written. When it is called from inside the heartbeat task, it cancels that very task via stop_heartbeat_monitor, and asyncio would cut the later awaited steps short.
- Several crashes across files are modelled by their evident intent:
  - hosts.py reads `payload.ip_address`, which the claim schema does not declare;
  - files.py calls `auth_claim_session` with two arguments;
  - host_service.py calls the async `json_storage` synchronously;
  - client.py and state_machine.py import `fetch_server_config` from the sync service (client.py:10, state_machine.py:5), which defines no such name, so as written both modules fail to load;
  - state_machine.py calls that `fetch_server_config` and the undefined `PreSyncManager.sync_priority` in its INIT handler (state_machine.py:60 and :83); INIT is modelled as going straight to DISCOVERY;
  - client.py awaits the synchronous `SyncService.stop`;
  - sync_service.py calls `diff_manager.cancel_all`, which is not defined;
  - the settings model has no `watch_dir`.
- StateMachine.HostingVerdict: the restart leading back to HOSTING is the evident intent. As written, state_machine.py:205 (and client.py:226) pass `port=` to `start_server`, which takes only the command (game_server.py:77), so every restart raises, the handler catches it, and a dead game always ends in DISCOVERY. The model reaches HOSTING only when its `restartRaised` input is false.
- FileIndexService.CreateFileRecord: the table model declares `by_client`, while the service and its tests write and read `update_by_host` and `host_ip`. The record is modelled with the service's fields, as evidently intended. As written the table has no column for either, and `by_client` is never set.
- SyncService.SyncFromServer: success is promised only for downloads that are clear in the starting files and independent of each other. A later download can be blocked by an earlier one (a file written where a later path needs a directory), so success for every list with working fetches is not promised.
- SyncService.DownloadAll: the same condition as SyncFromServer applies to the promise that every download is counted.
- ManifestService.ScanWorldFiles: manifest_service.py:9 imports `WORLD_DATA_PATH`, which the config module does not define, so as written the manifest service fails to import. The scanned root is a parameter instead.
- Client.StartHostingServices: the game start and the host tunnel after it are the evident intent. As written, client.py:226 passes `port=` to `start_server`, which takes only the command (game_server.py:77). So whenever there is a start command the first start raises, and the host tunnel is never started. The model lists the steps as intended.
- HostService.CreateSession: `HEARTBEAT_INTERVAL` and `LOCK_TIMEOUT` are not defined in the config module, so they are a `Config` parameter.
- SessionManager.ParseInfo: strict. Pydantic's lax coercion (for example "5" for an int) is not modelled.
- SessionManager.ClaimSession: assumes `save_token` succeeds. A failing token write is not modelled.
- StateMachine.Step: ERROR has no handler, and the model leaves it unchanged. The sleeps between handler runs, tunnel configuration and starting the services are inputs (`raised`, health flags).
- Client.CheckUsername: follows the regex as written, so one trailing newline is accepted. `PromptUsername`'s answers are the values rich's `Prompt.ask` returns (client.py:93), which are already stripped of surrounding whitespace, so no answer ends in a newline.
- GameServer.StopServer: a graceful stop does not unregister the tracked pid, as written.
- SyncService.WithSuffix: `with_suffix(".tmp")` replaces an existing suffix, so `a.dat` and `a.dat2` would share a temp name. This collision is inherited as written.
- SyncService.WriteDownload: a failing `os.replace` leaves the temp file behind. The model only bounds what may change.
- SyncService.IsIgnored: the client filters by file name while the server filters by relative path. Both are modelled as written.
- SyncService.IsIgnored: matching follows POSIX `fnmatch`, which is case-sensitive. On Windows, where the client runs, `fnmatch` first applies `os.path.normcase`, which folds case, so `*.LOG` also matches `a.log` there. That case folding is not modelled.
- DistributionService.RequirementsListedTwice: records that requirements.txt is listed twice when it also passes the scan. This is as written.
- Left out entirely: `fetch_config`, `revert_file`, `wait_for_pending_uploads`, bootstrap, the CLI, loggers, world NBT reading, JWT generation, the thin routers, and the database engine.
- Lease expiry, generation counters and deletion of local extras do not exist in the source and are not invented.

## Findings

| source | as written | input that shows it | evidently intended | confidence | as-written member | corrected member |
|---|---|---|---|---|---|---|
| app/services/file_service.py:138-151 | get_file checks only for a `meta` component before reading `root/rel` | rel `../x` with a file `x` next to the storage root | refuse traversal as save_file does | medium, not executed | FileService.GetFileEscapesStorage | FileService.GetFile |
| client_launcher/launcher.py:246-249 | containment is a string-prefix test on resolved paths | client dir `c`, entry `../cx` resolves to `cx`, which starts with `c` | component-wise containment | high, not executed | Launcher.SiblingPassesTextTest | Launcher.NeededFiles |
| app/services/file_index_service.py:75-80 | `session.delete` runs on the lookup result before the `if not db_file` test | delete of a path with no record | return false for a missing path | high, not executed | FileIndexService.DeleteMissingRaises | FileIndexService.DeleteRecord |
| client/services/sync_service.py:360-369 | the cancelled task's `finally` deletes the path's pending entry unconditionally | three events for one path, then the first task finishes | delete only the entry that is still this task's | medium, not executed | SyncService.StaleFinallyLosesTrack | SyncService.Finish |

=== FILE: bytes.dfy ===
/** Raw file contents and the digests computed over them. */
module Bytes {

  newtype Byte = x: int | 0 <= x < 256

  /** The bytes of one file or one upload body. */
  type Content = seq<Byte>

  /** A hex digest as produced by `hashlib.sha256().hexdigest()`; the hash itself is never modelled. */
  type Digest = string

  /** The regular files of a disk, by absolute component path. */
  type Files = map<seq<string>, Content>

  /** The bytes of a stream of chunks, in arrival order. */
  function Concat(chunks: seq<Content>): Content
  {
    if |chunks| == 0 then [] else Concat(chunks[..|chunks| - 1]) + chunks[|chunks| - 1]
  }

  /** Receives an upload stream chunk by chunk, as the writer loop does; the body is the concatenation. */
  method ReceiveStream(chunks: seq<Content>) returns (body: Content, size: nat)
    ensures body == Concat(chunks)
    ensures size == |body|
    ensures forall i :: 0 <= i < |chunks| ==> |chunks[i]| <= size
  {
    body := [];
    size := 0;
    var i := 0;
    while i < |chunks|
      invariant 0 <= i <= |chunks|
      invariant body == Concat(chunks[..i])
      invariant size == |body|
      invariant forall j :: 0 <= j < i ==> |chunks[j]| <= size
    {
      assert chunks[..i + 1][..i] == chunks[..i];
      body := body + chunks[i];
      size := size + |chunks[i]|;
      i := i + 1;
    }
    assert chunks[..i] == chunks;
  }
}

=== FILE: client.dfy ===
/**
 * The client's own bookkeeping around hosting: the first-run username check, the
 * heartbeat loop with its failure counter, the guard on the heartbeat task, and the
 * order in which hosting services are started and stopped.
 */
module Client {
  import opened Wrappers
  import opened JsonData
  import SessionManager

  /** A username must be longer than this. */
  const MIN_USERNAME_LENGTH: nat := 5

  /** Consecutive failed heartbeats before hosting is stopped. */
  const MAX_RETRIES: nat := 3

  /** The host id a fresh settings file carries, and the placeholder shown when there is none. */
  const UNKNOWN_HOST: string := "Unknown"

  // ---------------------------------------------------------------- username

  /** The class `[a-zA-Z0-9_-]`. */
  predicate UsernameChar(c: char)
  {
    ('a' <= c <= 'z') || ('A' <= c <= 'Z') || ('0' <= c <= '9') || c == '_' || c == '-'
  }

  /**
   * `re.match(r'^[a-zA-Z0-9_-]+$', s)`: one or more characters of the class, where `$`
   * also matches just before a single final newline.
   */
  predicate MatchesPattern(s: string)
  {
    || (|s| > 0 && forall i :: 0 <= i < |s| ==> UsernameChar(s[i]))
    || (|s| > 1 && s[|s| - 1] == '\n' && forall i :: 0 <= i < |s| - 1 ==> UsernameChar(s[i]))
  }

  /** The username accepted by `start`: longer than five characters, and matching the pattern. */
  predicate ValidUsername(s: string)
  {
    |s| > MIN_USERNAME_LENGTH && MatchesPattern(s)
  }

  /** The two checks of `start`'s prompt loop, scanning the characters once. */
  method CheckUsername(s: string) returns (ok: bool)
    ensures ok <==> ValidUsername(s)
  {
    if |s| <= MIN_USERNAME_LENGTH {
      return false;
    }
    var i := 0;
    while i < |s| && UsernameChar(s[i])
      invariant 0 <= i <= |s|
      invariant forall k :: 0 <= k < i ==> UsernameChar(s[k])
    {
      i := i + 1;
    }
    ok := i == |s| || (i == |s| - 1 && s[i] == '\n');
    if !ok {
      assert !UsernameChar(s[i]);
      assert !(forall k :: 0 <= k < |s| ==> UsernameChar(s[k]));
      if s[|s| - 1] == '\n' {
        assert i < |s| - 1;
        assert !(forall k :: 0 <= k < |s| - 1 ==> UsernameChar(s[k]));
      }
    }
  }

  /** For text without newlines, which is what the prompt returns, the check is exactly length and character class. */
  lemma {:induction false} UsernameWithoutNewline(s: string)
    requires forall i :: 0 <= i < |s| ==> s[i] != '\n'
    ensures ValidUsername(s) <==> |s| > MIN_USERNAME_LENGTH && forall i :: 0 <= i < |s| ==> UsernameChar(s[i])
  {
    if |s| > 1 {
      assert s[|s| - 1] != '\n';
    }
  }

  /** The pattern's `$` lets one trailing newline through. */
  lemma TrailingNewlinePasses()
    ensures ValidUsername("player\n") && !ValidUsername("play\ner")
  {
    assert !UsernameChar("play\ner"[4]);
  }

  /** The prompt runs only when no usable host id is configured. */
  predicate NeedsUsername(hostId: Option<string>)
  {
    hostId.None? || hostId.value == "" || hostId.value == UNKNOWN_HOST
  }

  /** `start`'s prompt loop over the answers typed: the first valid one, and how many answers were read. */
  function PromptUsername(answers: seq<string>): (r: Option<(string, nat)>)
    ensures r.Some? ==>
      && r.value.1 < |answers| && answers[r.value.1] == r.value.0
      && ValidUsername(r.value.0)
      && forall k :: 0 <= k < r.value.1 ==> !ValidUsername(answers[k])
    ensures r.None? <==> forall k :: 0 <= k < |answers| ==> !ValidUsername(answers[k])
    decreases |answers|
  {
    if |answers| == 0 then None
    else if ValidUsername(answers[0]) then Some((answers[0], 0))
    else
      match PromptUsername(answers[1..])
      case None => None
      case Some((name, n)) => Some((name, n + 1))
  }

  // ---------------------------------------------------------------- heartbeat loop

  /** The arguments of a `stop_hosting_services` call. */
  datatype StopOptions = StopOptions(shutdownAccess: bool, shutdownHost: bool, offline: bool, skipSessionStop: bool)

  /** `stop()`: everything, online. */
  const FULL_STOP: StopOptions := StopOptions(true, true, false, false)
  /** Another host holds the session: keep the access tunnel, release normally. */
  const LOST_HOST_STOP: StopOptions := StopOptions(false, true, false, false)
  /** The session was revoked (401): offline, and no session stop. */
  const REVOKED_STOP: StopOptions := StopOptions(false, true, true, true)
  /** Too many failed heartbeats: offline, but the session stop is not skipped by flag. */
  const OFFLINE_STOP: StopOptions := StopOptions(false, true, true, false)

  /** The loop's state: consecutive failures, the stops it requested, and whether it has ended. */
  datatype Loop = Loop(failures: nat, stops: seq<StopOptions>, ended: bool)

  const LOOP_START: Loop := Loop(0, [], false)

  /** A heartbeat that counts as a failure: neither 200 nor 401. */
  predicate Failed(reply: SessionManager.Reply)
  {
    var status := SessionManager.HeartbeatSession(reply).1;
    status != 200 && status != 401
  }

  /**
   * One pass of `_run_heartbeat_loop`. A 200 resets the counter and ends the loop with a
   * stop when the session names another host; a document without `.get` ends it through
   * the loop's exception handler. A 401 stops offline without a session stop and ends it.
   * Any other answer counts a failure; from the third on, hosting is stopped offline and the
   * loop goes on once the connection is back, with the counter as it was.
   */
  function Beat(l: Loop, reply: SessionManager.Reply, ownHostId: string): (r: Loop)
    requires !l.ended
    ensures Failed(reply) ==> !r.ended && r.failures == l.failures + 1
    ensures !Failed(reply) ==> r.failures == 0
    ensures r.ended ==> !Failed(reply)
    ensures SessionManager.HeartbeatSession(reply).1 == 401 ==> r == Loop(0, l.stops + [REVOKED_STOP], true)
    ensures |l.stops| <= |r.stops| <= |l.stops| + 1 && r.stops[..|l.stops|] == l.stops
    ensures r.stops == l.stops + [OFFLINE_STOP] <==> Failed(reply) && l.failures + 1 >= MAX_RETRIES
    ensures r.stops == l.stops + [LOST_HOST_STOP] <==>
      && SessionManager.HeartbeatSession(reply).1 == 200
      && SessionManager.HeartbeatSession(reply).0.value.JObj?
      && Get(SessionManager.HeartbeatSession(reply).0.value.fields, "host_id") != JStr(ownHostId)
  {
    var (updated, status) := SessionManager.HeartbeatSession(reply);
    if status == 200 then
      var doc := updated.value;
      if !doc.JObj? then Loop(0, l.stops, true)
      else if Get(doc.fields, "host_id") != JStr(ownHostId) then Loop(0, l.stops + [LOST_HOST_STOP], true)
      else Loop(0, l.stops, false)
    else if status == 401 then Loop(0, l.stops + [REVOKED_STOP], true)
    else
      var failures := l.failures + 1;
      if failures >= MAX_RETRIES then Loop(failures, l.stops + [OFFLINE_STOP], false)
      else Loop(failures, l.stops, false)
  }

  /** The loop after the heartbeats answered so far; answers after it ended are never asked for. */
  function HeartbeatLoop(replies: seq<SessionManager.Reply>, ownHostId: string): (r: Loop)
    ensures |r.stops| <= |replies|
    decreases |replies|
  {
    if |replies| == 0 then LOOP_START
    else
      var l := HeartbeatLoop(replies[..|replies| - 1], ownHostId);
      if l.ended then l else Beat(l, replies[|replies| - 1], ownHostId)
  }

  /** The number of failed heartbeats at the end of the answers, after the last 200 or 401. */
  function TrailingFailures(replies: seq<SessionManager.Reply>): nat
    decreases |replies|
  {
    if |replies| == 0 || !Failed(replies[|replies| - 1]) then 0
    else TrailingFailures(replies[..|replies| - 1]) + 1
  }

  /** While the loop runs, its counter is the number of consecutive failures since the last good answer. */
  lemma {:induction false} CounterCountsTrailingFailures(replies: seq<SessionManager.Reply>, ownHostId: string)
    requires !HeartbeatLoop(replies, ownHostId).ended
    ensures HeartbeatLoop(replies, ownHostId).failures == TrailingFailures(replies)
    decreases |replies|
  {
    if |replies| > 0 {
      CounterCountsTrailingFailures(replies[..|replies| - 1], ownHostId);
    }
  }

  /** A loop that has ended never changes again, whatever comes after. */
  lemma {:induction false} EndedLoopStays(replies: seq<SessionManager.Reply>, more: seq<SessionManager.Reply>, ownHostId: string)
    requires HeartbeatLoop(replies, ownHostId).ended
    ensures HeartbeatLoop(replies + more, ownHostId) == HeartbeatLoop(replies, ownHostId)
    decreases |more|
  {
    if |more| == 0 {
      assert replies + more == replies;
    } else {
      assert (replies + more)[..|replies + more| - 1] == replies + more[..|more| - 1];
      EndedLoopStays(replies, more[..|more| - 1], ownHostId);
    }
  }

  /** Three failures in a row from a fresh loop stop hosting offline exactly once, on the third. */
  lemma ThreeFailuresStopOffline(a: SessionManager.Reply, b: SessionManager.Reply, c: SessionManager.Reply, ownHostId: string)
    requires Failed(a) && Failed(b) && Failed(c)
    ensures HeartbeatLoop([a, b], ownHostId) == Loop(2, [], false)
    ensures HeartbeatLoop([a, b, c], ownHostId) == Loop(3, [OFFLINE_STOP], false)
  {
    assert [a][..0] == [];
    assert HeartbeatLoop([a], ownHostId) == Loop(1, [], false);
    assert [a, b][..1] == [a];
    assert [a, b, c][..2] == [a, b];
  }

  /**
   * After the offline stop the counter is not reset when the connection returns, so the
   * next failure stops hosting again at once instead of after three more. This holds only
   * when the loop survives its own cancellation by the stop: when a sync service was
   * running, its shutdown absorbs the `CancelledError`; without one, the first
   * `asyncio.sleep(2)` of the waiting loop raises it and the loop ends.
   */
  lemma FailureAfterReconnectStopsAgain(replies: seq<SessionManager.Reply>, d: SessionManager.Reply, ownHostId: string)
    requires !HeartbeatLoop(replies, ownHostId).ended && HeartbeatLoop(replies, ownHostId).failures >= MAX_RETRIES
    requires Failed(d)
    ensures HeartbeatLoop(replies + [d], ownHostId).stops == HeartbeatLoop(replies, ownHostId).stops + [OFFLINE_STOP]
  {
    assert (replies + [d])[..|replies|] == replies;
  }

  // ---------------------------------------------------------------- heartbeat task

  /** The heartbeat task as `_heartbeat_task` holds it. */
  datatype Task = NoTask | Running | Done

  /** `start_heartbeat_monitor`: a new task unless one is still running; returns the task and whether it was created. */
  function StartHeartbeatMonitor(t: Task): (r: (Task, bool))
    ensures r.0 == Running
    ensures r.1 <==> !t.Running?
  {
    if t.Running? then (t, false) else (Running, true)
  }

  /** `stop_heartbeat_monitor`: the task is cancelled and forgotten. */
  function StopHeartbeatMonitor(t: Task): (r: Task)
    ensures r == NoTask
  {
    NoTask
  }

  /** Starting the monitor twice creates at most one task. */
  lemma StartMonitorIdempotent(t: Task)
    ensures StartHeartbeatMonitor(StartHeartbeatMonitor(t).0) == (Running, false)
  {
  }

  // ---------------------------------------------------------------- starting and stopping services

  /** The steps `start_hosting_services` takes, in order. */
  datatype StartStep = CreateSync | InitializeSync | StartSyncLoop | StartGame(command: string) | StartHostTunnel

  /** The order the start steps are meant to follow: sync, then the game server, then the tunnel. */
  function StartRank(s: StartStep): nat
  {
    match s
    case CreateSync => 0
    case InitializeSync => 1
    case StartSyncLoop => 2
    case StartGame(_) => 3
    case StartHostTunnel => 4
  }

  /**
   * `start_hosting_services`: nothing when a sync service exists or no token is stored.
   * Otherwise the sync service is created, initialised (which yields the start command)
   * and its loop started; the game server is started when there is a start command, and
   * finally the host tunnel.
   */
  method StartHostingServices(syncExists: bool, token: Option<string>, startCommand: Option<string>)
    returns (steps: seq<StartStep>)
    ensures |steps| > 0 <==> !syncExists && token.Some? && token.value != ""
    ensures |steps| > 0 ==> steps[0] == CreateSync && steps[|steps| - 1] == StartHostTunnel
    ensures forall c :: StartGame(c) in steps <==>
      !syncExists && token.Some? && token.value != "" && startCommand == Some(c) && c != ""
    ensures forall i, j :: 0 <= i < j < |steps| ==> StartRank(steps[i]) < StartRank(steps[j])
  {
    if syncExists || token.None? || token.value == "" {
      return [];
    }
    steps := [CreateSync, InitializeSync, StartSyncLoop];
    if startCommand.Some? && startCommand.value != "" {
      steps := steps + [StartGame(startCommand.value)];
    }
    steps := steps + [StartHostTunnel];
  }

  /** The steps `stop_hosting_services` takes, in order. */
  datatype StopStep =
    | CancelUploads
    | StopHostTunnel
    | StopAccessTunnel
    | StopGame
    | WaitUploads
    | FinalSync
    | StopHeartbeat
    | StopSession
    | CleanupSync

  /**
   * The intended shutdown order: stop uploads from piling up, close the tunnels, let the
   * game server save, drain and sync, stop heartbeating, then release the session.
   */
  function StopRank(s: StopStep): nat
  {
    match s
    case CancelUploads => 0
    case StopHostTunnel => 1
    case StopAccessTunnel => 2
    case StopGame => 3
    case WaitUploads => 4
    case FinalSync => 5
    case StopHeartbeat => 6
    case StopSession => 7
    case CleanupSync => 8
  }

  /** Steps listed in strictly increasing rank. */
  predicate InStopOrder(steps: seq<StopStep>)
  {
    forall i, j :: 0 <= i < j < |steps| ==> StopRank(steps[i]) < StopRank(steps[j])
  }

  /** Each step ranks above the one before it. */
  predicate RisingRanks(steps: seq<StopStep>)
  {
    forall i :: 0 < i < |steps| ==> StopRank(steps[i - 1]) < StopRank(steps[i])
  }

  /** The last step listed, if any, ranks below `bound`. */
  predicate EndsBelow(steps: seq<StopStep>, bound: nat)
  {
    |steps| == 0 || StopRank(steps[|steps| - 1]) < bound
  }

  /** Ranks that rise from each step to the next rise between any two steps. */
  lemma {:induction false} RisingIsOrdered(steps: seq<StopStep>)
    requires RisingRanks(steps)
    ensures InStopOrder(steps)
    decreases |steps|
  {
    if |steps| > 1 {
      var init := steps[..|steps| - 1];
      assert RisingRanks(init) by {
        forall i | 0 < i < |init|
          ensures StopRank(init[i - 1]) < StopRank(init[i])
        {
          assert init[i - 1] == steps[i - 1] && init[i] == steps[i];
        }
      }
      RisingIsOrdered(init);
      forall i, j | 0 <= i < j < |steps|
        ensures StopRank(steps[i]) < StopRank(steps[j])
      {
        if j < |steps| - 1 {
          assert steps[i] == init[i] && steps[j] == init[j];
        } else if i < j - 1 {
          assert steps[i] == init[i] && steps[j - 1] == init[j - 1];
          assert StopRank(steps[j - 1]) < StopRank(steps[j]);
        }
      }
    }
  }

  /** Taking a step, when `c` holds, after steps of lower rank keeps the ranks rising. */
  method ThenIf(steps: seq<StopStep>, c: bool, s: StopStep) returns (r: seq<StopStep>)
    requires RisingRanks(steps) && EndsBelow(steps, StopRank(s))
    ensures forall x :: x in r <==> x in steps || (c && x == s)
    ensures RisingRanks(r) && EndsBelow(r, StopRank(s) + 1)
  {
    r := if c then steps + [s] else steps;
  }

  /** Which steps a stop with these options takes, step by step. */
  predicate Planned(o: StopOptions, syncExists: bool, s: StopStep)
  {
    match s
    case CancelUploads => o.offline && syncExists
    case StopHostTunnel => o.shutdownHost
    case StopAccessTunnel => o.shutdownAccess
    case StopGame => true
    case WaitUploads => syncExists && !o.offline
    case FinalSync => syncExists && !o.offline
    case StopHeartbeat => true
    case StopSession => !o.offline && !o.skipSessionStop
    case CleanupSync => syncExists
  }

  /**
   * `stop_hosting_services` with the given options, with or without a running sync
   * service: exactly the planned steps, in the intended order, with uploads cancelled
   * first when going offline.
   */
  method StopHostingServices(o: StopOptions, syncExists: bool) returns (steps: seq<StopStep>)
    ensures forall x :: x in steps <==> Planned(o, syncExists, x)
    ensures InStopOrder(steps)
  {
    var s0 := ThenIf([], o.offline && syncExists, CancelUploads);
    var s1 := ThenIf(s0, o.shutdownHost, StopHostTunnel);
    var s2 := ThenIf(s1, o.shutdownAccess, StopAccessTunnel);
    var s3 := ThenIf(s2, true, StopGame);
    var s4 := ThenIf(s3, syncExists && !o.offline, WaitUploads);
    var s5 := ThenIf(s4, syncExists && !o.offline, FinalSync);
    var s6 := ThenIf(s5, true, StopHeartbeat);
    var s7 := ThenIf(s6, !o.offline && !o.skipSessionStop, StopSession);
    steps := ThenIf(s7, syncExists, CleanupSync);
    RisingIsOrdered(steps);
  }

  /**
   * The stops the heartbeat loop requests: the tunnel is stopped before the game server,
   * the heartbeat is stopped, and nothing waits for uploads, syncs or releases the session.
   */
  lemma HeartbeatStopsStayOffline(stop: StopOptions, syncExists: bool, steps: seq<StopStep>)
    requires stop == REVOKED_STOP || stop == OFFLINE_STOP
    requires forall x :: x in steps <==> Planned(stop, syncExists, x)
    ensures StopHostTunnel in steps && StopGame in steps && StopHeartbeat in steps
    ensures WaitUploads !in steps && FinalSync !in steps && StopSession !in steps && StopAccessTunnel !in steps
  {
    assert Planned(stop, syncExists, StopHostTunnel);
    assert !Planned(stop, syncExists, StopSession);
  }
}

=== FILE: distribution_service.dfy ===
/**
 * The client distribution served to launchers: the manifest of the client source
 * directory with user data and build debris excluded, and the lookup of a requested
 * file that refuses anything outside that directory.
 */
module DistributionService {
  import opened Wrappers
  import opened Bytes
  import opened Strings
  import opened Paths

  /** A relative path containing any of these is excluded. */
  const EXCLUDED_SUBSTRINGS: seq<string> := ["__pycache__", ".git", ".venv", "world", "logs", ".pytest_cache"]

  /** File names that are never distributed. */
  const EXCLUDED_NAMES: set<string> := {"settings.json", "launcher.py"}

  /** Suffixes that are never distributed. */
  const EXCLUDED_SUFFIXES: set<string> := {".tmp", ".log"}

  const VERSION: string := "1.0.0"

  const REQUIREMENTS: string := "requirements.txt"

  /** A regular file of the client source directory: its components below it, and its bytes. */
  datatype ClientFile = ClientFile(parts: seq<string>, content: Content)

  datatype DistEntry = DistEntry(path: string, hash: Digest)

  datatype ClientManifest = ClientManifest(version: string, files: seq<DistEntry>)

  /** The exclusion rules of `get_client_manifest`, in terms of the file's components. */
  predicate Excluded(parts: seq<string>)
  {
    || (exists x :: x in EXCLUDED_SUBSTRINGS && Contains(Join(parts, '/'), x))
    || Name(parts) in EXCLUDED_NAMES
    || Suffix(Name(parts)) in EXCLUDED_SUFFIXES
  }

  /** The entry a file contributes. */
  function EntryOf(f: ClientFile, hash: Content -> Digest): DistEntry
  {
    DistEntry(Join(f.parts, '/'), hash(f.content))
  }

  /** The scanned files that survive the exclusions, in scan order. */
  function ScanClient(files: seq<ClientFile>, hash: Content -> Digest): (r: seq<DistEntry>)
    ensures |r| <= |files|
    ensures forall e :: e in r ==> exists f :: f in files && !Excluded(f.parts) && e == EntryOf(f, hash)
    ensures forall f :: f in files && !Excluded(f.parts) ==> EntryOf(f, hash) in r
    decreases |files|
  {
    if |files| == 0 then []
    else
      var f := files[|files| - 1];
      var init := ScanClient(files[..|files| - 1], hash);
      assert files == files[..|files| - 1] + [f];
      if Excluded(f.parts) then init else init + [EntryOf(f, hash)]
  }

  /** The file at these components, if the scan has one. */
  function FindFile(files: seq<ClientFile>, parts: seq<string>): (r: Option<Content>)
    ensures r.Some? <==> exists f :: f in files && f.parts == parts
    ensures r.Some? ==> ClientFile(parts, r.value) in files
    decreases |files|
  {
    if |files| == 0 then None
    else if files[0].parts == parts then Some(files[0].content)
    else FindFile(files[1..], parts)
  }

  /**
   * `get_client_manifest`: the version, the surviving scanned files, and then a
   * `requirements.txt` entry whenever that file exists.
   */
  function GetClientManifest(files: seq<ClientFile>, hash: Content -> Digest): (r: ClientManifest)
    ensures r.version == VERSION
    ensures FindFile(files, [REQUIREMENTS]).None? ==> r.files == ScanClient(files, hash)
    ensures FindFile(files, [REQUIREMENTS]).Some? ==>
      && |r.files| >= 1
      && r.files[..|r.files| - 1] == ScanClient(files, hash)
      && r.files[|r.files| - 1] == DistEntry(REQUIREMENTS, hash(FindFile(files, [REQUIREMENTS]).value))
  {
    var scanned := ScanClient(files, hash);
    match FindFile(files, [REQUIREMENTS])
    case None => ClientManifest(VERSION, scanned)
    case Some(requirements) =>
      var all := scanned + [DistEntry(REQUIREMENTS, hash(requirements))];
      assert all[..|all| - 1] == scanned;
      ClientManifest(VERSION, all)
  }

  /**
   * `get_client_file_path`: `requirements.txt` is served iff it exists; any other path is
   * resolved under the client directory and served only if it stays inside and names a file.
   */
  function GetClientFilePath(clientDir: seq<string>, files: seq<ClientFile>, rel: string): (r: Option<seq<string>>)
    ensures rel == REQUIREMENTS ==>
      (r.Some? <==> FindFile(files, [REQUIREMENTS]).Some?) && (r.Some? ==> r.value == clientDir + [REQUIREMENTS])
    ensures rel != REQUIREMENTS ==>
      (r.Some? <==>
        Within(clientDir, Resolve(clientDir, rel))
        && FindFile(files, Resolve(clientDir, rel)[|clientDir|..]).Some?)
    ensures r.Some? ==> Within(clientDir, r.value) && FindFile(files, r.value[|clientDir|..]).Some?
  {
    if rel == REQUIREMENTS then
      assert (clientDir + [REQUIREMENTS])[|clientDir|..] == [REQUIREMENTS];
      if FindFile(files, [REQUIREMENTS]).Some? then Some(clientDir + [REQUIREMENTS]) else None
    else
      var target := Resolve(clientDir, rel);
      if !Within(clientDir, target) then None
      else if FindFile(files, target[|clientDir|..]).Some? then Some(target)
      else None
  }

  /** Every scanned file the manifest lists can be fetched by its listed path. */
  lemma ListedFilesServable(clientDir: seq<string>, files: seq<ClientFile>, f: ClientFile)
    requires f in files && ValidParts(f.parts) && ".." !in f.parts
    requires Join(f.parts, '/') != REQUIREMENTS
    ensures GetClientFilePath(clientDir, files, Join(f.parts, '/')) == Some(clientDir + f.parts)
  {
    var rel := Join(f.parts, '/');
    ComponentsOfJoin(f.parts);
    assert !IsAbsolute(rel) by {
      if |f.parts| > 1 {
        assert rel == f.parts[0] + ['/'] + Join(f.parts[1..], '/');
      }
      assert rel[0] == f.parts[0][0];
    }
    ResolveInside(clientDir, rel);
    assert (clientDir + f.parts)[|clientDir|..] == f.parts;
  }

  /** A requested path that climbs out of the client directory is never served. */
  lemma EscapeRefused(clientDir: seq<string>, files: seq<ClientFile>, rel: string)
    requires rel != REQUIREMENTS && !Within(clientDir, Resolve(clientDir, rel))
    ensures GetClientFilePath(clientDir, files, rel) == None
  {
  }

  /**
   * The requirements file lives in the scanned directory and passes the exclusions, so the
   * manifest lists it twice: once from the scan and once as the appended entry.
   */
  lemma RequirementsListedTwice(files: seq<ClientFile>, hash: Content -> Digest)
    requires FindFile(files, [REQUIREMENTS]).Some? && !Excluded([REQUIREMENTS])
    ensures var m := GetClientManifest(files, hash).files;
      exists i, j :: 0 <= i < j < |m| && m[i] == m[j] && m[i].path == REQUIREMENTS
  {
    var c := FindFile(files, [REQUIREMENTS]).value;
    var m := GetClientManifest(files, hash).files;
    var e := EntryOf(ClientFile([REQUIREMENTS], c), hash);
    assert e == DistEntry(REQUIREMENTS, hash(c));
    assert e in m[..|m| - 1];
    var i :| 0 <= i < |m| - 1 && m[..|m| - 1][i] == e;
    assert m[i] == m[|m| - 1];
  }
}

=== FILE: file_index_service.dfy ===
/**
 * The Coordinator's file index: one record per world file, keyed by its path. The
 * database is a map from primary key to row; a session's commit is the new map.
 */
module FileIndexService {
  import opened Wrappers

  /** One `FileIndex` row. `updateAt` is the clock reading taken at insertion. */
  datatype FileRecord = FileRecord(
    path: string,
    fileName: string,
    hash: string,
    size: int,
    updateAt: int,
    updateByHost: string,
    hostIp: Option<string>)

  /** The table, by primary key. */
  type Index = map<string, FileRecord>

  /** Every row is stored under its own path. */
  predicate Keyed(db: Index)
  {
    forall p :: p in db ==> db[p].path == p
  }

  /** `get_file`: lookup by primary key. */
  function GetFile(db: Index, path: string): (r: Option<FileRecord>)
    ensures r.Some? <==> path in db
    ensures r.Some? ==> r.value == db[path]
  {
    if path in db then Some(db[path]) else None
  }

  /**
   * `create_file_record`: an existing path returns its stored row and writes nothing;
   * a new path inserts a row with the given fields. `now` is the clock reading.
   */
  function CreateFileRecord(db: Index, path: string, fileName: string, hash: string, size: int,
                            updateByHost: string, hostIp: Option<string>, now: int): (r: (Index, FileRecord))
    ensures path in db ==> r == (db, db[path])
    ensures path !in db ==>
      && r.1 == FileRecord(path, fileName, hash, size, now, updateByHost, hostIp)
      && r.0.Keys == db.Keys + {path}
      && r.0[path] == r.1
      && (forall p :: p in db ==> r.0[p] == db[p])
    ensures Keyed(db) ==> Keyed(r.0)
  {
    match GetFile(db, path)
    case Some(existing) => (db, existing)
    case None =>
      var row := FileRecord(path, fileName, hash, size, now, updateByHost, hostIp);
      (db[path := row], row)
  }

  /** The failure the database session raises. */
  datatype DbError = UnmappedInstance  // `session.delete(None)`

  /**
   * `delete_record` as written: the lookup result is passed to `session.delete` before the
   * `None` check, so a missing path raises instead of returning `False`.
   */
  function DeleteRecordAsWritten(db: Index, path: string): Result<(Index, bool), DbError>
  {
    match GetFile(db, path)
    case None => Err(UnmappedInstance)
    case Some(_) => Ok((db - {path}, true))
  }

  /** On an empty index, the as-written deletion raises rather than reporting `False`. */
  lemma DeleteMissingRaises()
    ensures DeleteRecordAsWritten(map[], "region/r.0.0.mca") == Err(UnmappedInstance)
    ensures DeleteRecord(map[], "region/r.0.0.mca") == (map[], false)
  {
  }

  /** `delete_record` as intended: the row is removed when present, and the result says whether it was. */
  function DeleteRecord(db: Index, path: string): (r: (Index, bool))
    ensures r.1 <==> path in db
    ensures path !in r.0
    ensures r.0.Keys == db.Keys - {path}
    ensures forall p :: p in r.0 ==> r.0[p] == db[p]
    ensures Keyed(db) ==> Keyed(r.0)
  {
    match GetFile(db, path)
    case None => (db, false)
    case Some(_) => (db - {path}, true)
  }

  /** The intended deletion agrees with the written one wherever the written one does not raise. */
  lemma DeleteAgrees(db: Index, path: string)
    ensures DeleteRecordAsWritten(db, path).Ok? <==> path in db
    ensures DeleteRecordAsWritten(db, path).Ok? ==> DeleteRecordAsWritten(db, path).value == DeleteRecord(db, path)
  {
  }

  /** `list_file_record`: every stored row, each once. */
  function ListFileRecord(db: Index): (r: set<FileRecord>)
    ensures forall row :: row in r <==> exists p :: p in db && db[p] == row
    ensures Keyed(db) ==> |r| == |db|
  {
    KeyedRowsCount(db);
    db.Values
  }

  /** In a keyed index distinct paths hold distinct rows, so there are as many rows as keys. */
  lemma {:induction false} KeyedRowsCount(db: Index)
    ensures Keyed(db) ==> |db.Values| == |db|
    decreases |db|
  {
    if Keyed(db) && |db| > 0 {
      var p :| p in db;
      var rest := db - {p};
      KeyedRowsCount(rest);
      forall v | v in db.Values
        ensures v in rest.Values + {db[p]}
      {
        var q :| q in db && db[q] == v;
        if q != p {
          assert q in rest;
        }
      }
      assert db.Values == rest.Values + {db[p]};
      assert db[p] !in rest.Values;
      assert db.Keys == rest.Keys + {p};
    }
  }

  /** A created row is then found by lookup, and listed. */
  lemma CreateThenGet(db: Index, path: string, fileName: string, hash: string, size: int,
                      updateByHost: string, hostIp: Option<string>, now: int)
    ensures var (after, row) := CreateFileRecord(db, path, fileName, hash, size, updateByHost, hostIp, now);
      GetFile(after, path) == Some(row) && row in ListFileRecord(after)
  {
  }

  /** Creating twice is the same as creating once. */
  lemma CreateIdempotent(db: Index, path: string, fileName: string, hash: string, size: int,
                         updateByHost: string, hostIp: Option<string>, now: int,
                         fileName': string, hash': string, size': int, updateByHost': string,
                         hostIp': Option<string>, now': int)
    ensures var (once, row) := CreateFileRecord(db, path, fileName, hash, size, updateByHost, hostIp, now);
      CreateFileRecord(once, path, fileName', hash', size', updateByHost', hostIp', now') == (once, row)
  {
  }
}

=== FILE: file_service.dfy ===
/**
 * Server-side storage of uploaded world files: the upload admission pipeline
 * (restricted names, ignored globs, traversal, the `meta` folder), the hash-gated
 * commit through a temporary file, the read used for downloads, and the sync config.
 *
 * The file system is a map from absolute component paths to file contents; a
 * directory is any proper prefix of a stored path.
 */
module FileService {
  import opened Wrappers
  import opened Bytes
  import opened Strings
  import opened Paths
  import opened JsonData
  import Glob

  /** Files a client may never write (`RESTRICTED_PATTERNS`). */
  const RESTRICTED_PATTERNS: set<string> := {
    "server.properties", "permissions.json", "ops.json", "whitelist.json",
    "banned-players.json", "banned-ips.json", "eula.txt", "server.jar"
  }

  /** Garbage, temporary and executable names the server refuses (`IGNORED_PATTERNS`). */
  const IGNORED_PATTERNS: set<string> := {
    "*.tmp", "*.log", "*.lock", "desktop.ini", ".DS_Store", "__pycache__/*", "*.bak", "*~"
  }

  /** The suffix appended to the target path for the temporary upload file. */
  const TEMP_SUFFIX: string := ".upload_tmp"

  /** Why an upload was refused, in the order the checks run. */
  datatype Rejection =
    | Restricted         // PermissionError: a restricted name
    | Ignored            // PermissionError: matches an ignored glob
    | Traversal          // ValueError: `..` or a leading `/`
    | MetaAccess         // PermissionError: a `meta` component
    | IntegrityMismatch  // ValueError: digest of the received bytes differs from the client's
    | WriteFailure       // any other exception while writing

  /** The Python exception class each refusal is raised as. */
  datatype ErrorClass = PermissionError | ValueError | OtherError

  function ClassOf(r: Rejection): ErrorClass
  {
    match r
    case Restricted => PermissionError
    case Ignored => PermissionError
    case MetaAccess => PermissionError
    case Traversal => ValueError
    case IntegrityMismatch => ValueError
    case WriteFailure => OtherError
  }

  /** Some ignored glob matches the whole relative path. */
  predicate IgnoredByServer(rel: string)
  {
    exists p :: p in IGNORED_PATTERNS && Glob.Match(p, rel)
  }

  /** The path climbs with `..` anywhere in it, or is absolute. */
  predicate IsTraversal(rel: string)
  {
    Contains(rel, "..") || StartsWith(rel, "/")
  }

  /** The admission pipeline of `save_file`, run before anything is written. */
  function CheckUpload(rel: string): (r: Option<Rejection>)
    ensures r == None <==>
      rel !in RESTRICTED_PATTERNS && !IgnoredByServer(rel) && !IsTraversal(rel) && !HasComponent(rel, "meta")
    ensures rel in RESTRICTED_PATTERNS ==> r == Some(Restricted)
    ensures r == Some(Ignored) <==> rel !in RESTRICTED_PATTERNS && IgnoredByServer(rel)
    ensures r == Some(Traversal) <==> rel !in RESTRICTED_PATTERNS && !IgnoredByServer(rel) && IsTraversal(rel)
    ensures r == Some(MetaAccess) <==>
      rel !in RESTRICTED_PATTERNS && !IgnoredByServer(rel) && !IsTraversal(rel) && HasComponent(rel, "meta")
  {
    if rel in RESTRICTED_PATTERNS then Some(Restricted)
    else if IgnoredByServer(rel) then Some(Ignored)
    else if IsTraversal(rel) then Some(Traversal)
    else if HasComponent(rel, "meta") then Some(MetaAccess)
    else None
  }

  /** The ignored globs in plain terms: which names the server refuses as garbage. */
  lemma IgnoredNames(rel: string)
    ensures IgnoredByServer(rel) <==>
      || EndsWith(rel, ".tmp") || EndsWith(rel, ".log") || EndsWith(rel, ".lock")
      || rel == "desktop.ini" || rel == ".DS_Store" || StartsWith(rel, "__pycache__/")
      || EndsWith(rel, ".bak") || EndsWith(rel, "~")
  {
    assert "*.tmp" == "*" + ".tmp" && "*.log" == "*" + ".log" && "*.lock" == "*" + ".lock";
    assert "*.bak" == "*" + ".bak" && "*~" == "*" + "~" && "__pycache__/*" == "__pycache__/" + "*";
    Glob.StarSuffixMatch(".tmp", rel);
    Glob.StarSuffixMatch(".log", rel);
    Glob.StarSuffixMatch(".lock", rel);
    Glob.StarSuffixMatch(".bak", rel);
    Glob.StarSuffixMatch("~", rel);
    Glob.PrefixStarMatch("__pycache__/", rel);
    Glob.LiteralMatch("desktop.ini", rel);
    Glob.LiteralMatch(".DS_Store", rel);
  }

  /** The temporary file of an upload: `str(target) + ".upload_tmp"`. */
  function TempOf(target: seq<string>): (t: seq<string>)
    ensures t != target
  {
    AppendToName(target, TEMP_SUFFIX)
  }

  /** The upload target under the storage root. */
  function Target(root: seq<string>, rel: string): seq<string>
  {
    root + Components(rel)
  }

  /** The target can be replaced by a file: it names something below the root that is not a directory. */
  predicate Writable(fs: Files, root: seq<string>, rel: string)
  {
    |Components(rel)| > 0 && !IsDirectory(fs, Target(root, rel))
  }

  datatype SaveResult = SaveResult(fs: Files, error: Option<Rejection>)

  /**
   * `save_file`: admission checks, then the parent directory, then the body is streamed into
   * the temporary file (whose open fails when that name is a directory) and hashed; only a matching digest lets the temporary file replace
   * the target. The temporary file never survives the call.
   */
  function SaveFile(fs: Files, root: seq<string>, rel: string, chunks: seq<Content>, clientHash: Digest,
                    hash: Content -> Digest): (r: SaveResult)
    ensures CheckUpload(rel).Some? ==> r == SaveResult(fs, CheckUpload(rel))
    ensures CheckUpload(rel).None? ==> r.error in {None, Some(IntegrityMismatch), Some(WriteFailure)}
    ensures r.error == None <==>
      && CheckUpload(rel) == None && !ParentBlocked(fs, Target(root, rel))
      && !IsDirectory(fs, TempOf(Target(root, rel)))
      && hash(Concat(chunks)) == clientHash && Writable(fs, root, rel)
    ensures r.error == Some(IntegrityMismatch) <==>
      && CheckUpload(rel) == None && !ParentBlocked(fs, Target(root, rel))
      && !IsDirectory(fs, TempOf(Target(root, rel))) && hash(Concat(chunks)) != clientHash
    ensures r.error == None ==>
      && Target(root, rel) in r.fs && r.fs[Target(root, rel)] == Concat(chunks)
      && TempOf(Target(root, rel)) !in r.fs
      && SameOutside(fs, r.fs, {Target(root, rel), TempOf(Target(root, rel))})
    ensures r.error.Some? ==>
      r.fs == fs || (SameOutside(fs, r.fs, {TempOf(Target(root, rel))}) && TempOf(Target(root, rel)) !in r.fs)
  {
    match CheckUpload(rel)
    case Some(rejection) => SaveResult(fs, Some(rejection))
    case None =>
      var target := Target(root, rel);
      if ParentBlocked(fs, target) then SaveResult(fs, Some(WriteFailure))
      else
        var temp := TempOf(target);
        if IsDirectory(fs, temp) then SaveResult(fs, Some(WriteFailure))
        else
          var body := Concat(chunks);
          if hash(body) != clientHash then SaveResult(fs - {temp}, Some(IntegrityMismatch))
          else if !Writable(fs, root, rel) then SaveResult(fs - {temp}, Some(WriteFailure))
          else SaveResult((fs - {temp})[target := body], None)
  }

  /**
   * `get_file`: `None` for a `meta` path or a missing file, the bytes otherwise; a directory
   * cannot be opened and raises. Paths that climb out with `..` or are absolute yield `None`,
   * as they are refused on upload.
   */
  function GetFile(fs: Files, root: seq<string>, rel: string): (r: Result<Option<Content>, ErrorClass>)
    ensures HasComponent(rel, "meta") || IsTraversal(rel) ==> r == Ok(None)
    ensures r.Ok? && r.value.Some? <==>
      !HasComponent(rel, "meta") && !IsTraversal(rel) && Target(root, rel) in fs
    ensures r.Ok? && r.value.Some? ==> r.value.value == fs[Target(root, rel)] && Within(root, Target(root, rel))
  {
    if HasComponent(rel, "meta") || IsTraversal(rel) then Ok(None)
    else
      var target := Target(root, rel);
      if target in fs then Ok(Some(fs[target]))
      else if target == root || IsDirectory(fs, target) then Err(OtherError)
      else Ok(None)
  }

  /** `get_file` as written: no traversal check, and the target is resolved by the operating system. */
  function GetFileAsWritten(fs: Files, root: seq<string>, rel: string): Result<Option<Content>, ErrorClass>
  {
    if HasComponent(rel, "meta") then Ok(None)
    else
      var target := Resolve(root, rel);
      if target in fs then Ok(Some(fs[target]))
      else if target == root || IsDirectory(fs, target) then Err(OtherError)
      else Ok(None)
  }

  /** With storage root `/s`, the as-written read of `../x` returns the file `/x` outside storage; the corrected read refuses it. */
  lemma GetFileEscapesStorage()
    ensures GetFileAsWritten(map[["x"] := [7]], ["s"], "../x") == Ok(Some([7]))
    ensures !Within(["s"], ["x"])
    ensures GetFile(map[["x"] := [7]], ["s"], "../x") == Ok(None)
  {
    ClimbComponents("x");
    assert "../" + "x" == "../x";
    assert !HasComponent("../x", "meta");
    assert Resolve(["s"], "../x") == ["x"] by {
      assert !IsAbsolute("../x");
      assert Step(["s"], "..") == [];
      assert ["..", "x"][1..] == ["x"] && ["x"][1..] == [];
      assert Walk([], ["x"]) == Walk([] + ["x"], []);
    }
    assert StartsWith("../x", "/") || Contains("../x", "..") by {
      assert "../x"[..2] == "..";
      OccursImpliesContains("../x", "..", 0);
    }
  }

  /** A committed upload reads back: the download of the same path returns exactly the streamed bytes. */
  lemma SaveThenGet(fs: Files, root: seq<string>, rel: string, chunks: seq<Content>, clientHash: Digest,
                    hash: Content -> Digest)
    requires SaveFile(fs, root, rel, chunks, clientHash, hash).error == None
    ensures GetFile(SaveFile(fs, root, rel, chunks, clientHash, hash).fs, root, rel) == Ok(Some(Concat(chunks)))
  {
  }

  /** Where `get_sync_config` finds the server settings. */
  datatype Settings = SettingsMissing | SettingsUnreadable | SettingsLoaded(doc: Json)

  datatype SyncConfig = SyncConfig(restricted: set<string>, ignored: set<string>, startCommand: Json)

  /** `get_sync_config`: the two name sets and the configured start command, `None` when unavailable. */
  function GetSyncConfig(settings: Settings): (r: SyncConfig)
    ensures r.restricted == RESTRICTED_PATTERNS && r.ignored == IGNORED_PATTERNS
    ensures r.startCommand != JNull ==>
      settings.SettingsLoaded? && settings.doc.JObj? && "start_command" in settings.doc.fields
      && r.startCommand == settings.doc.fields["start_command"]
    ensures settings.SettingsLoaded? && settings.doc.JObj? ==> r.startCommand == Get(settings.doc.fields, "start_command")
  {
    var startCommand :=
      match settings
      case SettingsLoaded(JObj(fields)) => Get(fields, "start_command")
      case _ => JNull;
    SyncConfig(RESTRICTED_PATTERNS, IGNORED_PATTERNS, startCommand)
  }

  /**
   * A relative path the configuration tells clients to skip is one the upload check
   * refuses: a restricted name as restricted, and any other path an ignored pattern
   * matches as ignored.
   */
  lemma ConfigAgreesWithUploadCheck(settings: Settings, rel: string)
    ensures rel in GetSyncConfig(settings).restricted ==> CheckUpload(rel) == Some(Restricted)
    ensures rel !in GetSyncConfig(settings).restricted && (exists p :: p in GetSyncConfig(settings).ignored && Glob.Match(p, rel))
      ==> CheckUpload(rel) == Some(Ignored)
  {
  }
}

=== FILE: files_router.dfy ===
/**
 * The `/world/files` endpoints: the holder-only upload, whose refusals map to HTTP
 * statuses by exception class, and the public download.
 */
module FilesRouter {
  import opened Wrappers
  import opened Bytes
  import opened HostService
  import opened FileService
  import opened Paths

  /** The refusals raised as `PermissionError`, answered with 403. */
  predicate Forbidden(rel: string)
  {
    CheckUpload(rel) in {Some(Restricted), Some(Ignored), Some(MetaAccess)}
  }

  /** The caller's token names the current holder of the configured world. */
  predicate Authorized(worlds: Worlds, worldId: string, hostId: Option<string>, ip: Option<string>)
  {
    AuthClaimSession(worlds, worldId, hostId, ip) == Ok(true)
  }

  /** `X-File-Hash` is present and non-empty. */
  predicate HasDigest(fileHash: Option<string>)
  {
    fileHash.Some? && |fileHash.value| > 0
  }

  /**
   * `upload_file`: the holder check, then the digest header, then the save whose exception
   * class picks the status. Returns the file system after the call and the status.
   */
  function UploadFile(worlds: Worlds, worldId: string, hostId: Option<string>, ip: Option<string>,
                      fs: Files, root: seq<string>, rel: string, chunks: seq<Content>, fileHash: Option<string>,
                      hash: Content -> Digest): (r: (Files, int))
    ensures r.1 in {201, 400, 401, 403, 500}
    ensures r.1 == 201 <==>
      Authorized(worlds, worldId, hostId, ip) && HasDigest(fileHash)
      && SaveFile(fs, root, rel, chunks, fileHash.value, hash).error == None
    ensures AuthClaimSession(worlds, worldId, hostId, ip) == Ok(false) ==> r == (fs, 401)
    ensures AuthClaimSession(worlds, worldId, hostId, ip).Err? ==> r == (fs, 500)
    ensures Authorized(worlds, worldId, hostId, ip) && !HasDigest(fileHash) ==> r == (fs, 400)
    ensures r.1 == 403 <==> Authorized(worlds, worldId, hostId, ip) && HasDigest(fileHash) && Forbidden(rel)
    ensures r.1 == 403 ==> r.0 == fs
    ensures r.1 == 201 ==> Target(root, rel) in r.0 && r.0[Target(root, rel)] == Concat(chunks)
    ensures r.1 != 201 ==>
      var t := Target(root, rel);
      (t in r.0 <==> t in fs) && (t in fs && t in r.0 ==> r.0[t] == fs[t])
  {
    match AuthClaimSession(worlds, worldId, hostId, ip)
    case Err(_) => (fs, 500)
    case Ok(authorized) =>
      if !authorized then (fs, 401)
      else if !HasDigest(fileHash) then (fs, 400)
      else CommitStatus(fs, root, rel, chunks, fileHash.value, hash)
  }

  /**
   * The `save_file` call inside `upload_file` and the status its outcome is answered with:
   * 201 for a commit, otherwise the status of the refusal's exception class.
   */
  function CommitStatus(fs: Files, root: seq<string>, rel: string, chunks: seq<Content>, digest: Digest,
                        hash: Content -> Digest): (r: (Files, int))
    ensures r.1 in {201, 400, 403, 500}
    ensures r.1 == 201 <==> SaveFile(fs, root, rel, chunks, digest, hash).error == None
    ensures r.1 == 403 <==> Forbidden(rel)
    ensures r.1 == 403 ==> r.0 == fs
    ensures r.1 == 201 ==> Target(root, rel) in r.0 && r.0[Target(root, rel)] == Concat(chunks)
    ensures r.1 != 201 ==>
      var t := Target(root, rel);
      (t in r.0 <==> t in fs) && (t in fs && t in r.0 ==> r.0[t] == fs[t])
  {
    var saved := SaveFile(fs, root, rel, chunks, digest, hash);
    match saved.error
    case None => (saved.fs, 201)
    case Some(rejection) =>
      RefusalKeepsTarget(fs, root, rel, chunks, digest, hash);
      RefusalClass(fs, root, rel, chunks, digest, hash);
      (saved.fs, StatusOf(rejection))
  }

  /** A refused save leaves the target as it was. */
  lemma RefusalKeepsTarget(fs: Files, root: seq<string>, rel: string, chunks: seq<Content>, digest: Digest,
                           hash: Content -> Digest)
    requires SaveFile(fs, root, rel, chunks, digest, hash).error.Some?
    ensures var after := SaveFile(fs, root, rel, chunks, digest, hash).fs;
      var t := Target(root, rel);
      (t in after <==> t in fs) && (t in fs && t in after ==> after[t] == fs[t])
  {
    var t := Target(root, rel);
    assert TempOf(t) != t;
  }

  /** A save is refused with a `PermissionError` exactly when the path is forbidden. */
  lemma RefusalClass(fs: Files, root: seq<string>, rel: string, chunks: seq<Content>, digest: Digest,
                     hash: Content -> Digest)
    requires SaveFile(fs, root, rel, chunks, digest, hash).error.Some?
    ensures ClassOf(SaveFile(fs, root, rel, chunks, digest, hash).error.value) == PermissionError <==> Forbidden(rel)
    ensures Forbidden(rel) ==> SaveFile(fs, root, rel, chunks, digest, hash).fs == fs
  {
  }

  /** The status each refusal's exception class is answered with. */
  function StatusOf(rejection: Rejection): (code: int)
    ensures code == 403 <==> ClassOf(rejection) == PermissionError
    ensures code in {400, 403, 500}
  {
    match ClassOf(rejection)
    case PermissionError => 403
    case ValueError => 400
    case OtherError => 500
  }

  /** The download answer: the bytes, or an error status. */
  datatype Download = Sent(body: Content) | Failed(code: int)

  /** `download_file`: public; 404 exactly when the read finds nothing, 500 when it raises. */
  function DownloadFile(fs: Files, root: seq<string>, rel: string): (r: Download)
    ensures r == Failed(404) <==> GetFile(fs, root, rel) == Ok(None)
    ensures r.Sent? <==> !HasComponent(rel, "meta") && !IsTraversal(rel) && Target(root, rel) in fs
    ensures r.Sent? ==> r.body == fs[Target(root, rel)]
    ensures r.Failed? ==> r.code == 404 || r.code == 500
  {
    match GetFile(fs, root, rel)
    case Err(_) => Failed(500)
    case Ok(None) => Failed(404)
    case Ok(Some(content)) => Sent(content)
  }

  /** A holder's successful upload is what a later download of the same path returns. */
  lemma UploadThenDownload(worlds: Worlds, worldId: string, hostId: Option<string>, ip: Option<string>,
                           fs: Files, root: seq<string>, rel: string, chunks: seq<Content>, fileHash: Option<string>,
                           hash: Content -> Digest)
    requires UploadFile(worlds, worldId, hostId, ip, fs, root, rel, chunks, fileHash, hash).1 == 201
    ensures DownloadFile(UploadFile(worlds, worldId, hostId, ip, fs, root, rel, chunks, fileHash, hash).0, root, rel)
            == Sent(Concat(chunks))
  {
    SaveThenGet(fs, root, rel, chunks, fileHash.value, hash);
  }
}

=== FILE: game_server.dfy ===
/**
 * The client's Minecraft server manager: the choice of Java executable, the rewrite of
 * the start command, the readiness and saved signals read from the server log, and the
 * graceful stop. Spawning, pipes and timers are inputs: the spawned pid, the log lines,
 * and whether each wait finished in time.
 */
module GameServer {
  import opened Wrappers
  import opened Strings
  import opened ProcessTracker
  import Launcher

  const SYSTEM_JAVA: string := "java"

  /** The registry key and expected process name of the server process. */
  const TRACKER_KEY: string := "game_server"
  const TRACKED_NAME: string := "java.exe"

  /** The log markers the monitor looks for. */
  const DONE_MARKER: string := "Done"
  const HELP_MARKER: string := "For help, type"
  const SAVED_MARKER: string := "ThreadedAnvilChunkStorage: All dimensions are saved"

  /**
   * `get_java_executable`: the system Java when the launcher's marker exists and it runs;
   * else the portable Java when present and it runs; else the system Java anyway.
   * `runs(path)` is the outcome of `verify_java_exists(path)`.
   */
  function GetJavaExecutable(markerExists: bool, portableExists: bool, portablePath: string,
                             runs: string -> bool): (r: string)
    ensures r == SYSTEM_JAVA || r == portablePath
    ensures markerExists && runs(SYSTEM_JAVA) ==> r == SYSTEM_JAVA
    ensures !(markerExists && runs(SYSTEM_JAVA)) && portableExists && runs(portablePath) ==> r == portablePath
    ensures r != SYSTEM_JAVA ==> portableExists && runs(portablePath)
  {
    if markerExists && runs(SYSTEM_JAVA) then SYSTEM_JAVA
    else if portableExists && runs(portablePath) then portablePath
    else SYSTEM_JAVA
  }

  /**
   * The launcher's choice carries over to the game server: when the launcher accepted the
   * system Java (writing the marker) and it runs, the server starts `java`; when it fell
   * back to a portable runtime it had ready, the server starts that runtime if it runs.
   */
  lemma LauncherChoiceHolds(rt: Launcher.Runtime, systemOutput: Option<string>, required: string, downloadOk: bool,
                            portablePath: string, runs: string -> bool)
    ensures var after := Launcher.SetupJava(rt, systemOutput, required, downloadOk).0;
      Launcher.CheckSystemJava(systemOutput, required) && runs(SYSTEM_JAVA) ==>
        GetJavaExecutable(after.useSystemMarker, after.portableExe, portablePath, runs) == SYSTEM_JAVA
    ensures var (after, ok) := Launcher.SetupJava(rt, systemOutput, required, downloadOk);
      !Launcher.CheckSystemJava(systemOutput, required) && ok && runs(portablePath) ==>
        GetJavaExecutable(after.useSystemMarker, after.portableExe, portablePath, runs) == portablePath
  {
  }

  /** The `java ` prefix replaced by the quoted executable; every other command is kept. */
  function RewriteCommand(command: string, javaExe: string): (r: string)
    ensures StartsWith(command, "java ") ==>
      StartsWith(r, "\"" + javaExe + "\" ") && EndsWith(r, command[5..]) && |r| == |command| + |javaExe| - 2
    ensures !StartsWith(command, "java ") ==> r == command
  {
    if StartsWith(command, "java ") then
      var r := "\"" + javaExe + "\"" + command[4..];
      assert r[..|javaExe| + 3] == "\"" + javaExe + "\" ";
      assert r[|r| - |command[5..]|..] == command[5..];
      r
    else command
  }

  /** A rewritten command starts with a quote, so rewriting again changes nothing. */
  lemma RewriteOnce(command: string, javaExe: string, javaExe': string)
    ensures RewriteCommand(RewriteCommand(command, javaExe), javaExe') == RewriteCommand(command, javaExe)
  {
    var r := RewriteCommand(command, javaExe);
    if StartsWith(command, "java ") {
      assert r[0] == '"';
    }
  }

  /** The server subprocess: its pid and its return code once it has exited. */
  datatype Proc = Proc(pid: int, returnCode: Option<int>)

  datatype ServerState = ServerState(process: Option<Proc>, ready: bool, saved: bool, tracked: Registry)

  /** `is_running`: a process exists and has no return code yet. */
  predicate IsRunning(s: ServerState)
  {
    s.process.Some? && s.process.value.returnCode.None?
  }

  /**
   * `start_server`: nothing while running; otherwise the command is rewritten for the
   * chosen Java and spawned. `spawned` is the new pid, or `None` when spawning raised.
   * Returns the new state and the command line that was spawned.
   */
  function StartServer(s: ServerState, command: string, javaExe: string, spawned: Option<int>)
    : (r: (ServerState, Option<string>))
    ensures IsRunning(s) ==> r == (s, None)
    ensures !IsRunning(s) && spawned.None? ==> r.0 == s
    ensures !IsRunning(s) && spawned.Some? ==>
      && r.1 == Some(RewriteCommand(command, javaExe))
      && r.0.process == Some(Proc(spawned.value, None)) && IsRunning(r.0)
      && !r.0.ready && !r.0.saved
      && r.0.tracked == Register(s.tracked, TRACKER_KEY, spawned.value, TRACKED_NAME)
  {
    if IsRunning(s) then (s, None)
    else
      var line := RewriteCommand(command, javaExe);
      match spawned
      case None => (s, Some(line))
      case Some(pid) =>
        (ServerState(Some(Proc(pid, None)), false, false, Register(s.tracked, TRACKER_KEY, pid, TRACKED_NAME)), Some(line))
  }

  /** A log line that announces the server is up. */
  predicate ReadyLine(line: string)
  {
    Contains(line, DONE_MARKER) && Contains(line, HELP_MARKER)
  }

  /** A log line that confirms every dimension was saved. */
  predicate SavedLine(line: string)
  {
    Contains(line, SAVED_MARKER)
  }

  /** `_monitor_output`: reads the log lines in order, setting the two signals. */
  function MonitorLines(s: ServerState, lines: seq<string>): (r: ServerState)
    ensures r.process == s.process && r.tracked == s.tracked
    ensures s.ready ==> r.ready
    ensures s.saved ==> r.saved
    decreases |lines|
  {
    if |lines| == 0 then s
    else
      var line := lines[0];
      var s' := s.(ready := s.ready || ReadyLine(line), saved := s.saved || SavedLine(line));
      MonitorLines(s', lines[1..])
  }

  /** The signals after the monitor: set exactly when they were set before or some line carries the marker. */
  lemma {:induction false} MonitorDetects(s: ServerState, lines: seq<string>)
    ensures MonitorLines(s, lines).ready <==> s.ready || exists i :: 0 <= i < |lines| && ReadyLine(lines[i])
    ensures MonitorLines(s, lines).saved <==> s.saved || exists i :: 0 <= i < |lines| && SavedLine(lines[i])
    decreases |lines|
  {
    if |lines| > 0 {
      var s' := s.(ready := s.ready || ReadyLine(lines[0]), saved := s.saved || SavedLine(lines[0]));
      MonitorDetects(s', lines[1..]);
      forall i | 1 <= i < |lines|
        ensures lines[i] == lines[1..][i - 1]
      {
      }
      if exists i :: 0 <= i < |lines| && ReadyLine(lines[i]) {
        var i :| 0 <= i < |lines| && ReadyLine(lines[i]);
        if i > 0 {
          assert ReadyLine(lines[1..][i - 1]);
        }
      }
      if exists i :: 0 <= i < |lines| && SavedLine(lines[i]) {
        var i :| 0 <= i < |lines| && SavedLine(lines[i]);
        if i > 0 {
          assert SavedLine(lines[1..][i - 1]);
        }
      }
    }
  }

  /** How the shutdown went: `stop` could be written, and the process exited within 15 seconds. */
  datatype StopOutcome = StopOutcome(pipeOk: bool, exitedInTime: bool)

  /**
   * `stop_server`: without a process nothing happens. Otherwise `stop` is sent, the saved
   * signal is awaited only when the server had become ready, and the process is awaited;
   * a broken pipe or a timeout forces a kill, which also stops tracking the process.
   * Returns the new state, whether the save was awaited, and whether a kill was forced.
   */
  function StopServer(s: ServerState, o: StopOutcome): (r: (ServerState, bool, bool))
    ensures s.process.None? ==> r == (s, false, false)
    ensures s.process.Some? ==> r.0.process.None?
    ensures r.1 <==> s.process.Some? && s.ready && o.pipeOk
    ensures r.2 <==> s.process.Some? && !(o.pipeOk && o.exitedInTime)
    ensures r.2 ==> r.0.tracked == Unregister(s.tracked, TRACKER_KEY) && TRACKER_KEY !in r.0.tracked
    ensures !r.2 ==> r.0.tracked == s.tracked
  {
    if s.process.None? then (s, false, false)
    else
      var waitSave := o.pipeOk && s.ready;
      var forceKill := !(o.pipeOk && o.exitedInTime);
      var tracked := if forceKill then Unregister(s.tracked, TRACKER_KEY) else s.tracked;
      (s.(process := None, tracked := tracked), waitSave, forceKill)
  }

  /** After a stop the server is not running, so the next start spawns again. */
  lemma StopThenStart(s: ServerState, o: StopOutcome, command: string, javaExe: string, pid: int)
    requires s.process.Some?
    ensures var stopped := StopServer(s, o).0;
      !IsRunning(stopped) && IsRunning(StartServer(stopped, command, javaExe, Some(pid)).0)
  {
  }
}

=== FILE: glob.dfy ===
/**
 * `fnmatch.fnmatch` for the patterns this system uses: literal characters and `*`.
 * As in `fnmatch`, `*` matches any run of characters, `/` included.
 */
module Glob {
  import opened Strings

  /** The pattern has no wildcard, so it only matches itself. */
  predicate Literal(p: string)
  {
    '*' !in p
  }

  /** Whole-string match of `name` against `pattern`. */
  predicate Match(pattern: string, name: string)
    decreases |pattern| + |name|
  {
    if |pattern| == 0 then |name| == 0
    else if pattern[0] == '*' then
      Match(pattern[1..], name) || (|name| > 0 && Match(pattern, name[1..]))
    else
      |name| > 0 && pattern[0] == name[0] && Match(pattern[1..], name[1..])
  }

  /** A literal pattern matches exactly the string it spells. */
  lemma {:induction false} LiteralMatch(p: string, s: string)
    requires Literal(p)
    ensures Match(p, s) <==> s == p
    decreases |p|
  {
    if |p| == 0 {
    } else {
      assert p[0] != '*';
      if |s| > 0 {
        LiteralMatch(p[1..], s[1..]);
        if s[0] == p[0] && s[1..] == p[1..] {
          assert s == [s[0]] + s[1..];
          assert p == [p[0]] + p[1..];
        }
      }
    }
  }

  /** The pattern `*` + `suffix` matches exactly the names ending with `suffix`. */
  lemma {:induction false} StarSuffixMatch(suffix: string, s: string)
    requires Literal(suffix)
    ensures Match("*" + suffix, s) <==> EndsWith(s, suffix)
    decreases |s|
  {
    var p := "*" + suffix;
    assert p[0] == '*' && p[1..] == suffix;
    LiteralMatch(suffix, s);
    if |s| == 0 {
    } else {
      StarSuffixMatch(suffix, s[1..]);
      if |suffix| <= |s[1..]| {
        assert s[1..][|s[1..]| - |suffix|..] == s[|s| - |suffix|..];
      }
      if EndsWith(s, suffix) && s != suffix {
        assert |suffix| < |s|;
      }
    }
  }

  /** The pattern `prefix` + `*` matches exactly the names starting with `prefix`. */
  lemma {:induction false} PrefixStarMatch(prefix: string, s: string)
    requires Literal(prefix)
    ensures Match(prefix + "*", s) <==> StartsWith(s, prefix)
    decreases |prefix|
  {
    var p := prefix + "*";
    if |prefix| == 0 {
      assert p == "*";
      StarAll(s);
    } else {
      assert p[0] == prefix[0] && p[1..] == prefix[1..] + "*";
      assert prefix[0] != '*';
      if |s| > 0 {
        PrefixStarMatch(prefix[1..], s[1..]);
        if StartsWith(s, prefix) {
          assert s[1..][..|prefix| - 1] == prefix[1..];
        }
        if s[0] == prefix[0] && StartsWith(s[1..], prefix[1..]) {
          assert s[..|prefix|] == [s[0]] + s[1..][..|prefix| - 1];
          assert prefix == [prefix[0]] + prefix[1..];
        }
      }
    }
  }

  /** A lone `*` matches every name. */
  lemma {:induction false} StarAll(s: string)
    ensures Match("*", s)
    decreases |s|
  {
    assert "*"[1..] == "";
    if |s| > 0 {
      StarAll(s[1..]);
    }
  }
}

=== FILE: host_service.dfy ===
/**
 * The Coordinator's per-world session record (`meta/session.json`) and the service
 * operations over it. A world directory either exists or not; when it exists it may
 * hold one session document, a JSON object updated by shallow merge.
 */
module HostService {
  import opened Wrappers
  import opened JsonData

  /** One `meta/session.json` document. */
  type Record = map<string, Json>

  /** The world directories: a world exists iff it is a key; its value is its session document, if any. */
  type Worlds = map<string, Option<Record>>

  /** The exceptions the service raises. */
  datatype HostError =
    | WorldNotFound     // FileNotFoundError: no such world directory
    | SessionExists     // FileExistsError: create on a world that already has a session
    | SessionNotFound   // FileNotFoundError: update on a world without a session
    | InvalidData       // ValueError: the update touches a protected key
    | MalformedSession  // KeyError/TypeError reading `session["host"][...]`

  /** The heartbeat interval and lock timeout written into every new session. */
  datatype Config = Config(heartbeatInterval: int, lockTimeout: int)

  /** The `timestamps` object: the three timestamps are only ever written as `None`. */
  const NullTimestamps: Json := JObj(map["started_at" := JNull, "last_heartbeat" := JNull, "expires_at" := JNull])

  /** The `host` object of a session. */
  function HostObject(hostId: Json, ip: Json, token: Json): Json
  {
    JObj(map["host_id" := hostId, "ip_address" := ip, "token" := token])
  }

  /** The `config` object of a session. */
  function ConfigObject(c: Config): Json
  {
    JObj(map["heartbeat_interval" := JInt(c.heartbeatInterval), "lock_timeout" := JInt(c.lockTimeout)])
  }

  /** `session["host"][field]`, or `None` when that lookup would raise. */
  function HostField(s: Record, field: string): Option<Json>
  {
    if "host" in s then Index(s["host"], field) else None
  }

  /** The shape every session written by this service has. */
  predicate WellFormed(s: Record)
  {
    && "world_id" in s && "is_locked" in s && "timestamps" in s && "config" in s
    && HostField(s, "host_id").Some? && HostField(s, "ip_address").Some? && HostField(s, "token").Some?
  }

  /** `session.get("is_locked")` is truthy. */
  predicate IsLocked(s: Record)
  {
    Truthy(Get(s, "is_locked"))
  }

  /** The stored holder has exactly this host id and IP address. */
  predicate HeldBy(s: Record, hostId: Option<string>, ip: Option<string>)
  {
    HostField(s, "host_id") == Some(OptStr(hostId)) && HostField(s, "ip_address") == Some(OptStr(ip))
  }

  /** Every stored session is well formed and carries only `None` timestamps. */
  predicate Consistent(worlds: Worlds)
  {
    forall w :: w in worlds && worlds[w].Some? ==>
      WellFormed(worlds[w].value) && worlds[w].value["timestamps"] == NullTimestamps
  }

  /** `get_session`: the session document, or `None` when the world or its session is missing. */
  function GetSession(worlds: Worlds, worldId: string): Option<Record>
  {
    if worldId in worlds then worlds[worldId] else None
  }

  /** The fields of a freshly created session. */
  function NewSession(worldId: string, hostId: Option<string>, ip: Option<string>, token: Option<string>,
                      isLocked: bool, c: Config): Record
  {
    map[
      "world_id" := JStr(worldId),
      "is_locked" := JBool(isLocked),
      "host" := HostObject(OptStr(hostId), OptStr(ip), OptStr(token)),
      "timestamps" := NullTimestamps,
      "config" := ConfigObject(c)
    ]
  }

  /** `create_session`: refuses a missing world and an existing session; otherwise writes a new record. */
  function CreateSession(worlds: Worlds, worldId: string, hostId: Option<string>, ip: Option<string>,
                         token: Option<string>, isLocked: bool, c: Config): (r: Result<(Worlds, Record), HostError>)
    ensures worldId !in worlds ==> r == Err(WorldNotFound)
    ensures worldId in worlds && worlds[worldId].Some? ==> r == Err(SessionExists)
    ensures r.Ok? <==> worldId in worlds && worlds[worldId].None?
    ensures r.Ok? ==>
      var s := r.value.1;
      && r.value.0 == worlds[worldId := Some(s)]
      && WellFormed(s)
      && s["world_id"] == JStr(worldId)
      && s["is_locked"] == JBool(isLocked) && IsLocked(s) == isLocked
      && HostField(s, "host_id") == Some(OptStr(hostId))
      && HostField(s, "ip_address") == Some(OptStr(ip))
      && HostField(s, "token") == Some(OptStr(token))
      && s["timestamps"] == NullTimestamps
      && s["config"] == ConfigObject(c)
  {
    if worldId !in worlds then Err(WorldNotFound)
    else if worlds[worldId].Some? then Err(SessionExists)
    else
      var s := NewSession(worldId, hostId, ip, token, isLocked, c);
      Ok((worlds[worldId := Some(s)], s))
  }

  /** The keys an update may not touch. */
  predicate Protected(data: Record)
  {
    "config" in data || "world_id" in data
  }

  /** `update_session`: a shallow merge of `data` into the stored record, refusing protected keys first. */
  function UpdateSession(worlds: Worlds, worldId: string, data: Record): (r: Result<(Worlds, Record), HostError>)
    ensures Protected(data) ==> r == Err(InvalidData)
    ensures !Protected(data) && worldId !in worlds ==> r == Err(WorldNotFound)
    ensures !Protected(data) && worldId in worlds && worlds[worldId].None? ==> r == Err(SessionNotFound)
    ensures r.Ok? <==> !Protected(data) && GetSession(worlds, worldId).Some?
    ensures r.Ok? ==>
      var before := worlds[worldId].value;
      var after := r.value.1;
      && r.value.0 == worlds[worldId := Some(after)]
      && after.Keys == before.Keys + data.Keys
      && (forall k :: k in data ==> after[k] == data[k])
      && (forall k :: k in before && k !in data ==> after[k] == before[k])
  {
    if Protected(data) then Err(InvalidData)
    else if worldId !in worlds then Err(WorldNotFound)
    else if worlds[worldId].None? then Err(SessionNotFound)
    else
      var merged := worlds[worldId].value + data;
      Ok((worlds[worldId := Some(merged)], merged))
  }

  /** `delete_session`: removes the session file if there is one, and says whether it did. */
  function DeleteSession(worlds: Worlds, worldId: string): (r: (Worlds, bool))
    ensures r.1 <==> GetSession(worlds, worldId).Some?
    ensures GetSession(r.0, worldId) == None
    ensures r.0.Keys == worlds.Keys
    ensures forall w :: w != worldId ==> GetSession(r.0, w) == GetSession(worlds, w)
    ensures !r.1 ==> r.0 == worlds
  {
    if worldId in worlds && worlds[worldId].Some? then (worlds[worldId := None], true)
    else (worlds, false)
  }

  /** The update `reset_session` applies. */
  const ResetData: Record := map[
    "is_locked" := JBool(false),
    "host" := HostObject(JNull, JNull, JNull),
    "timestamps" := NullTimestamps
  ]

  /** `reset_session`: unlocks, clears the holder and the timestamps, and keeps every other key. */
  function ResetSession(worlds: Worlds, worldId: string): (r: Result<(Worlds, Record), HostError>)
    ensures r.Ok? <==> GetSession(worlds, worldId).Some?
    ensures r.Err? ==> r == Err(WorldNotFound) || r == Err(SessionNotFound)
    ensures r.Ok? ==>
      var before := worlds[worldId].value;
      var after := r.value.1;
      && r.value.0 == worlds[worldId := Some(after)]
      && !IsLocked(after)
      && HostField(after, "host_id") == Some(JNull)
      && HostField(after, "ip_address") == Some(JNull)
      && HostField(after, "token") == Some(JNull)
      && "timestamps" in after && after["timestamps"] == NullTimestamps
      && (forall k :: k in before && k != "is_locked" && k != "host" && k != "timestamps" ==> k in after && after[k] == before[k])
  {
    assert !Protected(ResetData);
    UpdateSession(worlds, worldId, ResetData)
  }

  /** `auth_claim_session`: the stored holder's host id and then IP address equal the caller's. */
  function AuthClaimSession(worlds: Worlds, worldId: string, hostId: Option<string>, ip: Option<string>)
    : (r: Result<bool, HostError>)
    ensures r == Ok(true) <==> GetSession(worlds, worldId).Some? && HeldBy(GetSession(worlds, worldId).value, hostId, ip)
    ensures GetSession(worlds, worldId).None? ==> r == Ok(false)
    ensures GetSession(worlds, worldId).Some? && WellFormed(GetSession(worlds, worldId).value) ==> r.Ok?
    ensures r.Err? ==> r == Err(MalformedSession)
  {
    var session := GetSession(worlds, worldId);
    if session.None? || |session.value| == 0 then Ok(false)
    else
      match HostField(session.value, "host_id")
      case None => Err(MalformedSession)
      case Some(h) =>
        if h != OptStr(hostId) then Ok(false)
        else
          match HostField(session.value, "ip_address")
          case None => Err(MalformedSession)
          case Some(a) => Ok(a == OptStr(ip))
  }

  /** A session created by this service passes the holder check exactly for its own host and address. */
  lemma CreatedSessionAuth(worlds: Worlds, worldId: string, hostId: string, ip: string, c: Config,
                           callerId: Option<string>, callerIp: Option<string>)
    requires worldId in worlds && worlds[worldId].None?
    ensures var created := CreateSession(worlds, worldId, Some(hostId), Some(ip), None, false, c);
      && created.Ok?
      && (AuthClaimSession(created.value.0, worldId, callerId, callerIp) == Ok(true) <==>
          callerId == Some(hostId) && callerIp == Some(ip))
  {
  }
}

=== FILE: hosts_router.dfy ===
/**
 * The `/session` endpoints: claim the host lock, read it, and release it.
 * A reply is either an HTTP status, the issued token (201), or the session view (200).
 */
module HostsRouter {
  import opened Wrappers
  import opened JsonData
  import opened HostService

  datatype Reply =
    | Status(code: int)
    | Token(token: string)
    | SessionView(isLocked: Json, hostId: Json)

  /** The claim body: the requester's host id and address. */
  datatype ClaimRequest = ClaimRequest(hostId: string, ipAddress: string)

  /** The update a successful claim writes. */
  function LockData(req: ClaimRequest, token: string): Record
  {
    map["is_locked" := JBool(true), "host" := HostObject(JStr(req.hostId), JStr(req.ipAddress), JStr(token))]
  }

  /** Writes the lock for `req` and answers with the token. */
  function Lock(worlds: Worlds, worldId: string, req: ClaimRequest, token: string): (r: (Worlds, Reply))
    ensures r.1.Token? <==> GetSession(worlds, worldId).Some?
    ensures r.1.Token? ==> r.1 == Token(token)
    ensures !r.1.Token? ==> r == (worlds, Status(500))
    ensures r.1.Token? ==>
      var s := GetSession(r.0, worldId);
      && s.Some? && IsLocked(s.value)
      && HostField(s.value, "host_id") == Some(JStr(req.hostId))
      && HostField(s.value, "ip_address") == Some(JStr(req.ipAddress))
      && HostField(s.value, "token") == Some(JStr(token))
      && (forall k :: k in worlds[worldId].value && k != "is_locked" && k != "host" ==>
            k in s.value && s.value[k] == worlds[worldId].value[k])
    ensures r.0.Keys == worlds.Keys
    ensures forall w :: w != worldId ==> GetSession(r.0, w) == GetSession(worlds, w)
  {
    assert !Protected(LockData(req, token));
    match UpdateSession(worlds, worldId, LockData(req, token))
    case Ok(updated) => (updated.0, Token(token))
    case Err(_) => (worlds, Status(500))
  }

  /** The lock of this world is free: the world exists and its session is absent, or present and unlocked. */
  predicate Claimable(worlds: Worlds, worldId: string)
  {
    worldId in worlds &&
    (worlds[worldId].None? || (|worlds[worldId].value| > 0 && !IsLocked(worlds[worldId].value)))
  }

  /**
   * `claim_session`: with no session, one is created (404 if the world is missing); a locked
   * session answers 409; otherwise the requester becomes the holder. `token` is the token
   * the service signs for the requester.
   */
  function ClaimSession(worlds: Worlds, worldId: string, req: ClaimRequest, token: string, c: Config)
    : (r: (Worlds, Reply))
    ensures r.1 == Token(token) <==> Claimable(worlds, worldId)
    ensures r.1.Token? ==> r.1 == Token(token)
    ensures worldId !in worlds ==> r == (worlds, Status(404))
    ensures GetSession(worlds, worldId).Some? && IsLocked(GetSession(worlds, worldId).value) ==> r == (worlds, Status(409))
    ensures !r.1.Token? ==> r.0 == worlds
    ensures r.1.Token? ==>
      var s := GetSession(r.0, worldId);
      && s.Some? && IsLocked(s.value)
      && HostField(s.value, "host_id") == Some(JStr(req.hostId))
      && HostField(s.value, "ip_address") == Some(JStr(req.ipAddress))
      && HostField(s.value, "token") == Some(JStr(token))
    ensures r.0.Keys == worlds.Keys
    ensures forall w :: w != worldId ==> GetSession(r.0, w) == GetSession(worlds, w)
  {
    var session := GetSession(worlds, worldId);
    if session.None? || |session.value| == 0 then
      match CreateSession(worlds, worldId, Some(req.hostId), Some(req.ipAddress), None, false, c)
      case Ok(created) => Lock(created.0, worldId, req, token)
      case Err(WorldNotFound) => (worlds, Status(404))
      case Err(_) => (worlds, Status(500))
    else if IsLocked(session.value) then (worlds, Status(409))
    else Lock(worlds, worldId, req, token)
  }

  /**
   * `get_session` (route): 404 without a session, else the lock flag and the holder's host id.
   * The route builds `SessionResponse(is_locked: bool, host_id: str | None)`, and pydantic rejects
   * values of other types. The model passes the stored values through without that check. This only
   * matters for records the service itself never writes.
   */
  function GetSessionRoute(worlds: Worlds, worldId: string): (r: Reply)
    ensures r == Status(404) <==> GetSession(worlds, worldId).None? || |GetSession(worlds, worldId).value| == 0
    ensures GetSession(worlds, worldId).Some? && WellFormed(GetSession(worlds, worldId).value) ==>
      r == SessionView(GetSession(worlds, worldId).value["is_locked"], HostField(GetSession(worlds, worldId).value, "host_id").value)
  {
    var session := GetSession(worlds, worldId);
    if session.None? || |session.value| == 0 then Status(404)
    else if "is_locked" !in session.value || HostField(session.value, "host_id").None? then Status(500)
    else SessionView(session.value["is_locked"], HostField(session.value, "host_id").value)
  }

  /**
   * `stop_session`: a caller whose token claims are not the holder's gets 401 and changes nothing;
   * the holder's call resets the session (204).
   */
  function StopSession(worlds: Worlds, worldId: string, hostId: Option<string>, ip: Option<string>)
    : (r: (Worlds, int))
    ensures r.1 == 204 <==> GetSession(worlds, worldId).Some? && HeldBy(GetSession(worlds, worldId).value, hostId, ip)
    ensures r.1 != 204 ==> r.0 == worlds
    ensures GetSession(worlds, worldId).Some? && WellFormed(GetSession(worlds, worldId).value) ==> r.1 == 204 || r.1 == 401
    ensures GetSession(worlds, worldId).None? ==> r == (worlds, 401)
    ensures r.1 == 204 ==>
      var s := GetSession(r.0, worldId);
      && s.Some? && !IsLocked(s.value)
      && HostField(s.value, "host_id") == Some(JNull)
      && HostField(s.value, "ip_address") == Some(JNull)
      && HostField(s.value, "token") == Some(JNull)
    ensures r.0.Keys == worlds.Keys
    ensures forall w :: w != worldId ==> GetSession(r.0, w) == GetSession(worlds, w)
  {
    match AuthClaimSession(worlds, worldId, hostId, ip)
    case Err(_) => (worlds, 500)
    case Ok(authorized) =>
      if !authorized then (worlds, 401)
      else
        match ResetSession(worlds, worldId)
        case Ok(reset) => (reset.0, 204)
        case Err(_) => (worlds, 404)
  }

  /** Mutual exclusion: after a successful claim, every further claim is refused with 409 and changes nothing. */
  lemma ClaimExcludesClaim(worlds: Worlds, worldId: string, req: ClaimRequest, token: string, c: Config,
                           other: ClaimRequest, otherToken: string, c': Config)
    requires ClaimSession(worlds, worldId, req, token, c).1.Token?
    ensures var after := ClaimSession(worlds, worldId, req, token, c).0;
      ClaimSession(after, worldId, other, otherToken, c') == (after, Status(409))
  {
  }

  /** The holder that claimed can release, and a caller with another host id cannot. */
  lemma ClaimThenStop(worlds: Worlds, worldId: string, req: ClaimRequest, token: string, c: Config,
                      otherId: Option<string>, otherIp: Option<string>)
    requires ClaimSession(worlds, worldId, req, token, c).1.Token?
    ensures var after := ClaimSession(worlds, worldId, req, token, c).0;
      && StopSession(after, worldId, Some(req.hostId), Some(req.ipAddress)).1 == 204
      && (otherId != Some(req.hostId) ==> StopSession(after, worldId, otherId, otherIp) == (after, 401))
  {
  }

  /** Claims and releases keep every session well formed, with only `None` timestamps. */
  lemma EndpointsKeepConsistent(worlds: Worlds, worldId: string, req: ClaimRequest, token: string, c: Config,
                                hostId: Option<string>, ip: Option<string>)
    requires Consistent(worlds)
    ensures Consistent(ClaimSession(worlds, worldId, req, token, c).0)
    ensures Consistent(StopSession(worlds, worldId, hostId, ip).0)
  {
    var claimed := ClaimSession(worlds, worldId, req, token, c).0;
    forall w | w in claimed && claimed[w].Some?
      ensures WellFormed(claimed[w].value) && claimed[w].value["timestamps"] == NullTimestamps
    {
      if w != worldId {
        assert GetSession(claimed, w) == GetSession(worlds, w);
      }
    }
    var stopped := StopSession(worlds, worldId, hostId, ip).0;
    forall w | w in stopped && stopped[w].Some?
      ensures WellFormed(stopped[w].value) && stopped[w].value["timestamps"] == NullTimestamps
    {
      if w != worldId {
        assert GetSession(stopped, w) == GetSession(worlds, w);
      }
    }
  }
}

=== FILE: json_data.dfy ===
/** Python values decoded from JSON documents, and the truthiness rules the source branches on. */
module JsonData {
  import opened Wrappers

  datatype Json =
    | JNull
    | JBool(b: bool)
    | JInt(i: int)
    | JStr(s: string)
    | JList(items: seq<Json>)
    | JObj(fields: map<string, Json>)

  /** `bool(v)` in Python: `None`, `False`, `0`, and empty strings, lists and dicts are false. */
  predicate Truthy(v: Json)
  {
    match v
    case JNull => false
    case JBool(b) => b
    case JInt(i) => i != 0
    case JStr(s) => |s| > 0
    case JList(items) => |items| > 0
    case JObj(fields) => |fields| > 0
  }

  /** `d.get(key)` on a dict: the value, or `None` when the key is absent. */
  function Get(d: map<string, Json>, key: string): Json
  {
    if key in d then d[key] else JNull
  }

  /** `v[key]` where `v` must be a dict holding `key`; `None` stands for the KeyError/TypeError. */
  function Index(v: Json, key: string): Option<Json>
  {
    if v.JObj? && key in v.fields then Some(v.fields[key]) else None
  }

  /** A Python `str | None` as the JSON value stored for it. */
  function OptStr(o: Option<string>): Json
  {
    match o
    case Some(s) => JStr(s)
    case None => JNull
  }
}

=== FILE: launcher.dfy ===
/**
 * The client launcher: the Java runtime choice, and the self-update that compares the
 * server's client manifest with the files on disk and downloads what differs, with
 * three tries per file. Paths are resolved lexically under the client directory.
 */
module Launcher {
  import opened Wrappers
  import opened Bytes
  import opened Strings
  import opened Paths

  /** The text `java -version` prints before the version number. */
  const VERSION_TAG: string := "version \""

  const MAX_ATTEMPTS: nat := 3

  const REQUIREMENTS: string := "requirements.txt"

  /** The suffix of the temporary download file. */
  const TEMP_SUFFIX: string := ".tmp"

  predicate IsDigit(c: char)
  {
    '0' <= c <= '9'
  }

  /** The longest prefix of `s` made of digits. */
  function LeadingDigits(s: string): (r: string)
    ensures StartsWith(s, r)
    ensures forall k :: 0 <= k < |r| ==> IsDigit(r[k])
    ensures |r| < |s| ==> !IsDigit(s[|r|])
    decreases |s|
  {
    if |s| == 0 || !IsDigit(s[0]) then ""
    else
      var rest := LeadingDigits(s[1..]);
      assert s[1..][..|rest|] == rest;
      assert s == [s[0]] + s[1..];
      [s[0]] + rest
  }

  /** The digits captured by the first match of `version "(\d+)` in `output`, if any. */
  function VersionNumber(output: string): (r: Option<string>)
    ensures r.Some? ==> |r.value| > 0 && forall k :: 0 <= k < |r.value| ==> IsDigit(r.value[k])
    decreases |output|
  {
    if StartsWith(output, VERSION_TAG) && |output| > |VERSION_TAG| && IsDigit(output[|VERSION_TAG|]) then
      Some(LeadingDigits(output[|VERSION_TAG|..]))
    else if |output| == 0 then None
    else VersionNumber(output[1..])
  }

  /** A version line at the start of the output is what the search captures. */
  lemma {:induction false} VersionAtStart(digits: string, rest: string)
    requires |digits| > 0 && forall k :: 0 <= k < |digits| ==> IsDigit(digits[k])
    requires |rest| == 0 || !IsDigit(rest[0])
    ensures VersionNumber(VERSION_TAG + digits + rest) == Some(digits)
  {
    var tail := digits + rest;
    assert VERSION_TAG + digits + rest == VERSION_TAG + tail;
    StartsWithJoin(VERSION_TAG, tail);
    assert tail[0] == digits[0];
    TagAtStart(VERSION_TAG + tail);
    DigitsPrefix(digits, rest);
  }

  /** A concatenation starts with its first part, and dropping that part gives the second. */
  lemma StartsWithJoin(p: string, t: string)
    ensures StartsWith(p + t, p) && (p + t)[|p|..] == t
  {
    assert (p + t)[..|p|] == p;
  }

  /** The search stops at a tag that starts the output and is followed by a digit. */
  lemma TagAtStart(s: string)
    requires StartsWith(s, VERSION_TAG) && |s| > |VERSION_TAG| && IsDigit(s[|VERSION_TAG|])
    ensures VersionNumber(s) == Some(LeadingDigits(s[|VERSION_TAG|..]))
  {
  }

  /** The leading digits of a digit string followed by a non-digit are that string. */
  lemma {:induction false} DigitsPrefix(digits: string, rest: string)
    requires forall k :: 0 <= k < |digits| ==> IsDigit(digits[k])
    requires |rest| == 0 || !IsDigit(rest[0])
    ensures LeadingDigits(digits + rest) == digits
    decreases |digits|
  {
    if |digits| == 0 {
      assert digits + rest == rest;
    } else {
      assert (digits + rest)[1..] == digits[1..] + rest;
      DigitsPrefix(digits[1..], rest);
      assert [digits[0]] + digits[1..] == digits;
    }
  }

  /**
   * `check_system_java`: the captured major version equals the required one. `output` is
   * the standard error of `java -version`, or `None` when Java could not be run.
   */
  function CheckSystemJava(output: Option<string>, required: string): (r: bool)
    ensures r ==> output.Some? && VersionNumber(output.value) == Some(required)
    ensures output.Some? && VersionNumber(output.value) == Some(required) ==> r
  {
    output.Some? && VersionNumber(output.value) == Some(required)
  }

  /** The runtime on disk: the system-Java marker, the portable `java.exe`, and the portable version marker. */
  datatype Runtime = Runtime(useSystemMarker: bool, portableExe: bool, portableVersion: Option<string>)

  /**
   * `setup_java`: the system Java if it matches (writing the marker); else the portable JDK
   * if it is there with the same version; else a download, after removing a runtime of
   * another version. `downloadOk` is whether the download and extraction succeeded.
   * Returns the runtime afterwards and the result.
   */
  function SetupJava(rt: Runtime, systemOutput: Option<string>, required: string, downloadOk: bool)
    : (r: (Runtime, bool))
    ensures CheckSystemJava(systemOutput, required) ==> r == (rt.(useSystemMarker := true), true)
    ensures !CheckSystemJava(systemOutput, required) ==> !r.0.useSystemMarker
    ensures !CheckSystemJava(systemOutput, required) && rt.portableExe && rt.portableVersion == Some(required) ==>
      r == (rt.(useSystemMarker := false), true)
    ensures r.1 && !CheckSystemJava(systemOutput, required) ==> r.0.portableExe && r.0.portableVersion == Some(required)
    ensures !r.1 ==> !CheckSystemJava(systemOutput, required) && !downloadOk
    ensures
      (&& rt.portableVersion.Some? && rt.portableVersion.value != "" && rt.portableVersion != Some(required)
       && !CheckSystemJava(systemOutput, required) && !downloadOk)
      ==> r.0.portableVersion.None? && !r.0.portableExe
  {
    if CheckSystemJava(systemOutput, required) then (rt.(useSystemMarker := true), true)
    else
      var rt := rt.(useSystemMarker := false);
      if rt.portableExe && rt.portableVersion == Some(required) then (rt, true)
      else
        var stale := rt.portableVersion.Some? && rt.portableVersion.value != "" && rt.portableVersion != Some(required);
        var rt := if stale then rt.(portableExe := false, portableVersion := None) else rt;
        if downloadOk then (rt.(portableExe := true, portableVersion := Some(required)), true)
        else (rt, false)
  }

  /** One entry of the server's client manifest. */
  datatype RemoteEntry = RemoteEntry(path: string, hash: Digest)

  /** The manifest request: unreachable, a non-200 status, a body that is not JSON, or the entries. */
  datatype ManifestReply = Unreachable | BadStatus(code: int) | Unparsable | Listing(files: seq<RemoteEntry>)

  /** One download attempt: the body, a `RequestException`, or any other exception. */
  datatype Attempt = Fetched(body: Content) | RequestFailed | OtherFailure

  /** The containment test as written: the resolved path's text starts with the client directory's text. */
  predicate TextSafe(clientDir: seq<string>, rel: string)
  {
    StartsWith(PathString(Resolve(clientDir, rel)), PathString(clientDir))
  }

  /** The containment test as intended: the resolved path lies inside the client directory. */
  predicate Safe(clientDir: seq<string>, rel: string)
  {
    Within(clientDir, Resolve(clientDir, rel))
  }

  /** The intended test is never looser than the written one. */
  lemma SafeImpliesTextSafe(clientDir: seq<string>, rel: string)
    requires Safe(clientDir, rel)
    ensures TextSafe(clientDir, rel)
  {
    WithinImpliesTextPrefix(clientDir, Resolve(clientDir, rel));
  }

  /** With client directory `/c`, the entry `../cx` writes to the sibling `/cx`, and the text test admits it. */
  lemma SiblingPassesTextTest()
    ensures Resolve(["c"], "../cx") == ["cx"]
    ensures TextSafe(["c"], "../cx")
    ensures !Safe(["c"], "../cx")
  {
    ClimbComponents("cx");
    assert "../" + "cx" == "../cx";
    assert Walk(["c"], ["..", "cx"]) == ["cx"] by {
      assert Step(["c"], "..") == [];
      assert ["..", "cx"][1..] == ["cx"] && ["cx"][1..] == [];
      assert Walk([], ["cx"]) == Walk([] + ["cx"], []);
    }
    assert PathString(["cx"]) == "/cx";
    assert PathString(["c"]) == "/c";
    assert "/cx"[..2] == "/c";
  }

  /** The local file an entry updates (`requirements.txt` is named explicitly, at the same place). */
  function LocalTarget(clientDir: seq<string>, rel: string): seq<string>
  {
    if rel == REQUIREMENTS then clientDir + [REQUIREMENTS] else Resolve(clientDir, rel)
  }

  /** The client directory itself, or a directory below it: hashing it raises. */
  predicate DirectoryAt(local: Files, clientDir: seq<string>, p: seq<string>)
  {
    p == clientDir || IsDirectory(local, p)
  }

  /** The entry differs from what is on disk: the file is missing or its digest differs. */
  predicate Stale(local: Files, clientDir: seq<string>, e: RemoteEntry, hash: Content -> Digest)
  {
    var t := LocalTarget(clientDir, e.path);
    t !in local || hash(local[t]) != e.hash
  }

  /**
   * The first pass of `check_for_updates`: the safe entries that are missing or stale, in
   * manifest order; `None` when a safe entry names a directory, whose hashing raises.
   */
  function NeededFiles(entries: seq<RemoteEntry>, clientDir: seq<string>, local: Files, hash: Content -> Digest)
    : (r: Option<seq<RemoteEntry>>)
    ensures r.None? <==>
      exists e :: e in entries && Safe(clientDir, e.path) && DirectoryAt(local, clientDir, LocalTarget(clientDir, e.path))
    ensures r.Some? ==> forall e :: e in r.value <==> e in entries && Safe(clientDir, e.path) && Stale(local, clientDir, e, hash)
    decreases |entries|
  {
    if |entries| == 0 then Some([])
    else
      var e := entries[0];
      assert forall x :: x in entries <==> x == e || x in entries[1..];
      var rest := NeededFiles(entries[1..], clientDir, local, hash);
      if !Safe(clientDir, e.path) then rest
      else if DirectoryAt(local, clientDir, LocalTarget(clientDir, e.path)) then None
      else if rest.None? then None
      else if Stale(local, clientDir, e, hash) then Some([e] + rest.value)
      else rest
  }

  /**
   * The outcome of the retry rule from try `i` on: a fetched body ends it, a request error
   * moves to the next try, any other error or the end of the tries gives up.
   */
  function Outcome(rel: string, attempt: (string, nat) -> Attempt, i: nat): Option<Content>
    decreases MAX_ATTEMPTS - i
  {
    if i >= MAX_ATTEMPTS then None
    else
      match attempt(rel, i)
      case Fetched(body) => Some(body)
      case RequestFailed => Outcome(rel, attempt, i + 1)
      case OtherFailure => None
  }

  /**
   * The retry loop of `check_for_updates`: request errors are retried, up to three tries;
   * any other error stops at once. `attempt(rel, i)` is the outcome of try `i`. Returns
   * the body, if fetched, and the number of tries made.
   */
  method DownloadWithRetry(rel: string, attempt: (string, nat) -> Attempt) returns (body: Option<Content>, tries: nat)
    ensures body == Outcome(rel, attempt, 0)
    ensures 1 <= tries <= MAX_ATTEMPTS
    ensures forall j: nat :: j < tries - 1 ==> attempt(rel, j) == RequestFailed
    ensures body.Some? <==> attempt(rel, tries - 1).Fetched?
    ensures body.None? ==> attempt(rel, tries - 1) == OtherFailure || tries == MAX_ATTEMPTS
  {
    body := None;
    tries := 0;
    var stop := false;
    while tries < MAX_ATTEMPTS && !stop
      invariant tries <= MAX_ATTEMPTS
      invariant stop ==> tries >= 1
      invariant forall j: nat :: j < tries && !(stop && j == tries - 1) ==> attempt(rel, j) == RequestFailed
      invariant stop ==> attempt(rel, tries - 1) != RequestFailed
      invariant body.Some? <==> stop && attempt(rel, tries - 1).Fetched?
      invariant !stop ==> Outcome(rel, attempt, 0) == Outcome(rel, attempt, tries)
      invariant stop ==> body == Outcome(rel, attempt, 0)
      decreases MAX_ATTEMPTS - tries
    {
      match attempt(rel, tries) {
        case Fetched(content) =>
          body := Some(content);
          stop := true;
        case RequestFailed =>
        case OtherFailure =>
          stop := true;
      }
      tries := tries + 1;
    }
  }

  /** The retry rule in words: the download succeeds iff some try fetches and every earlier try was a request error. */
  lemma {:induction false} OutcomeSucceeds(rel: string, attempt: (string, nat) -> Attempt, i: nat)
    requires i <= MAX_ATTEMPTS
    ensures Outcome(rel, attempt, i).Some? <==>
      exists k: nat :: i <= k < MAX_ATTEMPTS && attempt(rel, k).Fetched?
                       && forall j: nat :: i <= j < k ==> attempt(rel, j) == RequestFailed
    decreases MAX_ATTEMPTS - i
  {
    if i < MAX_ATTEMPTS {
      OutcomeSucceeds(rel, attempt, i + 1);
      if attempt(rel, i).RequestFailed? {
        if Outcome(rel, attempt, i).Some? {
          var k: nat :| i + 1 <= k < MAX_ATTEMPTS && attempt(rel, k).Fetched?
                        && forall j: nat :: i + 1 <= j < k ==> attempt(rel, j) == RequestFailed;
          assert forall j: nat :: i <= j < k ==> attempt(rel, j) == RequestFailed;
        }
      } else if attempt(rel, i).Fetched? {
        assert forall j: nat :: i <= j < i ==> attempt(rel, j) == RequestFailed;
      }
    }
  }

  /**
   * Writes one fetched file: the parent directories first (a regular file in the way
   * raises), then the body goes to the temporary file, which replaces the target. The
   * temporary file is removed when the write fails; when the temporary name is a
   * directory, its open fails and so does removing it, which ends the update with
   * nothing changed. Returns the files and success.
   */
  function WriteUpdate(local: Files, clientDir: seq<string>, target: seq<string>, body: Option<Content>)
    : (r: (Files, bool))
    ensures r.1 <==>
      && body.Some? && !ParentBlocked(local, target) && !DirectoryAt(local, clientDir, target)
      && !IsDirectory(local, AppendToName(target, TEMP_SUFFIX))
    ensures r.1 ==> target in r.0 && r.0[target] == body.value
    ensures IsDirectory(local, AppendToName(target, TEMP_SUFFIX)) ==> r == (local, false)
    ensures SameOutside(local, r.0, {target, AppendToName(target, TEMP_SUFFIX)})
  {
    var temp := AppendToName(target, TEMP_SUFFIX);
    if ParentBlocked(local, target) || IsDirectory(local, temp) then (local, false)
    else if body.None? || DirectoryAt(local, clientDir, target) then (local - {temp}, false)
    else ((local - {temp})[target := body.value], true)
  }

  /** An entry the second pass may write: it is safe and names a file below the client directory. */
  predicate Applicable(clientDir: seq<string>, e: RemoteEntry)
  {
    Safe(clientDir, e.path) && LocalTarget(clientDir, e.path) != clientDir
  }

  /** The paths writing entry `e` may change: its target and the target's temporary file. */
  function WrittenBy(clientDir: seq<string>, e: RemoteEntry): set<seq<string>>
  {
    var t := LocalTarget(clientDir, e.path);
    {t, AppendToName(t, TEMP_SUFFIX)}
  }

  /** No entry of `es` writes `k`. */
  predicate Untouched(clientDir: seq<string>, es: seq<RemoteEntry>, k: seq<string>)
  {
    forall e :: e in es ==> k !in WrittenBy(clientDir, e)
  }

  /** `a` and `b` agree at `k`: both lack it, or both hold the same content. */
  predicate AgreeAt(a: Files, b: Files, k: seq<string>)
  {
    (k in a <==> k in b) && (k in a && k in b ==> a[k] == b[k])
  }

  /** The entry's download succeeds and its write would find nothing in the way. */
  predicate Ready(files: Files, clientDir: seq<string>, e: RemoteEntry, attempt: (string, nat) -> Attempt)
  {
    var t := LocalTarget(clientDir, e.path);
    && Outcome(e.path, attempt, 0).Some?
    && !ParentBlocked(files, t) && !DirectoryAt(files, clientDir, t)
    && !IsDirectory(files, AppendToName(t, TEMP_SUFFIX))
  }

  /** Every entry is ready in `files`. */
  predicate AllReady(files: Files, clientDir: seq<string>, entries: seq<RemoteEntry>, attempt: (string, nat) -> Attempt)
  {
    forall e :: e in entries ==> Ready(files, clientDir, e, attempt)
  }

  /** No path one entry writes is a proper ancestor of a path the other writes. */
  predicate ApartWrites(clientDir: seq<string>, a: RemoteEntry, b: RemoteEntry)
  {
    forall x, y :: x in WrittenBy(clientDir, a) && y in WrittenBy(clientDir, b) ==>
      !StrictlyBelow(x, y) && !StrictlyBelow(y, x)
  }

  /** No two listed entries stand in each other's way. */
  predicate Separate(clientDir: seq<string>, entries: seq<RemoteEntry>)
  {
    forall i, j :: 0 <= i < |entries| && 0 <= j < |entries| && i != j ==> ApartWrites(clientDir, entries[i], entries[j])
  }

  /** Every path no entry of `prefix` writes is the same in `a` and `b`. */
  ghost predicate KeptBeyond(a: Files, b: Files, clientDir: seq<string>, prefix: seq<RemoteEntry>)
  {
    forall k :: Untouched(clientDir, prefix, k) ==> AgreeAt(a, b, k)
  }

  /** Changing only paths `t` does not lie below leaves `t` as unblocked as it was. */
  lemma UnblockedSurvives(before: Files, after: Files, changed: set<seq<string>>, t: seq<string>)
    requires forall k :: k !in changed ==> AgreeAt(before, after, k)
    requires forall w :: w in changed ==> !StrictlyBelow(t, w)
    requires !ParentBlocked(before, t)
    ensures !ParentBlocked(after, t)
  {
    forall i | 0 < i < |t|
      ensures t[..i] !in after
    {
      assert StrictlyBelow(t, t[..i]);
      assert t[..i] !in changed;
      assert AgreeAt(before, after, t[..i]);
    }
  }

  /** Changing only paths that do not lie below `v` leaves `v` as much a non-directory as it was. */
  lemma NotDirectorySurvives(before: Files, after: Files, changed: set<seq<string>>, v: seq<string>)
    requires forall k :: k !in changed ==> AgreeAt(before, after, k)
    requires forall w :: w in changed ==> !StrictlyBelow(w, v)
    requires !IsDirectory(before, v)
    ensures !IsDirectory(after, v)
  {
    forall k | k in after && |k| > |v|
      ensures k[..|v|] != v
    {
      if k !in changed {
        assert AgreeAt(before, after, k);
      }
    }
  }

  /** Writing one entry leaves an apart entry as ready as it was. */
  lemma ReadySurvives(before: Files, after: Files, clientDir: seq<string>, first: RemoteEntry, e: RemoteEntry,
                      attempt: (string, nat) -> Attempt)
    requires forall k :: k !in WrittenBy(clientDir, first) ==> AgreeAt(before, after, k)
    requires Ready(before, clientDir, e, attempt) && ApartWrites(clientDir, first, e)
    ensures Ready(after, clientDir, e, attempt)
  {
    var t := LocalTarget(clientDir, e.path);
    var temp := AppendToName(t, TEMP_SUFFIX);
    var changed := WrittenBy(clientDir, first);
    assert t in WrittenBy(clientDir, e) && temp in WrittenBy(clientDir, e);
    UnblockedSurvives(before, after, changed, t);
    NotDirectorySurvives(before, after, changed, t);
    NotDirectorySurvives(before, after, changed, temp);
  }

  /** Fetches and writes one needed file. Returns success and the files afterwards. */
  method ApplyOne(e: RemoteEntry, clientDir: seq<string>, local: Files, current: Files,
                  attempt: (string, nat) -> Attempt) returns (ok: bool, after: Files)
    requires Applicable(clientDir, e)
    requires SameOutsideDir(local, current, clientDir)
    ensures ok ==> Outcome(e.path, attempt, 0).Some?
    ensures ok ==> LocalTarget(clientDir, e.path) in after && after[LocalTarget(clientDir, e.path)] == Outcome(e.path, attempt, 0).value
    ensures forall k :: k !in WrittenBy(clientDir, e) ==> AgreeAt(current, after, k)
    ensures Ready(current, clientDir, e, attempt) ==> ok
    ensures SameOutsideDir(local, after, clientDir)
  {
    var target := LocalTarget(clientDir, e.path);
    TargetInside(clientDir, e.path);
    var body, _ := DownloadWithRetry(e.path, attempt);
    var written := WriteUpdate(current, clientDir, target, body);
    WriteStaysInside(local, current, written.0, clientDir, target, AppendToName(target, TEMP_SUFFIX));
    ok, after := written.1, written.0;
  }

  /**
   * The second pass of `check_for_updates`: each needed file in order is fetched and
   * written; the first failure stops the pass. Returns success and the files afterwards.
   */
  method ApplyUpdates(entries: seq<RemoteEntry>, clientDir: seq<string>, local: Files,
                      attempt: (string, nat) -> Attempt) returns (ok: bool, after: Files)
    requires forall e :: e in entries ==> Applicable(clientDir, e)
    ensures ok ==> forall e :: e in entries ==> Outcome(e.path, attempt, 0).Some?
    ensures ok ==> LastWritesLanded(entries, clientDir, attempt, after)
    ensures AllReady(local, clientDir, entries, attempt) && Separate(clientDir, entries) ==> ok
    ensures forall i :: 0 <= i < |entries| && Outcome(entries[i].path, attempt, 0).None? ==>
      !ok && KeptBeyond(local, after, clientDir, entries[..i + 1])
    ensures KeptBeyond(local, after, clientDir, entries)
    ensures SameOutsideDir(local, after, clientDir)
    decreases |entries|
  {
    if |entries| == 0 {
      return true, local;
    }
    assert entries[0] in entries;
    var first;
    first, after := ApplyOne(entries[0], clientDir, local, local, attempt);
    if !first {
      FailedFirstKeeps(entries, clientDir, local, after);
      assert entries[..|entries|] == entries;
      forall i | 0 <= i < |entries| && Outcome(entries[i].path, attempt, 0).None?
        ensures KeptBeyond(local, after, clientDir, entries[..i + 1])
      {
        assert 0 < i + 1 <= |entries|;
      }
      return false, after;
    }
    var tail := entries[1..];
    assert forall e :: e in tail ==> e in entries;
    var rest, final := ApplyUpdates(tail, clientDir, after, attempt);
    SameOutsideDirTrans(local, after, final, clientDir);
    assert forall e :: e in entries ==> e == entries[0] || e in tail;
    AbortAfterFirst(entries, clientDir, attempt, local, after, final, rest);
    if rest {
      LandedAfterFirst(entries, clientDir, attempt, after, final);
    }
    if AllReady(local, clientDir, entries, attempt) && Separate(clientDir, entries) {
      ReadyTail(entries, clientDir, attempt, local, after);
    }
    ok, after := rest, final;
  }

  /**
   * A first entry that succeeded, followed by the rest of the pass: what the rest keeps,
   * the whole pass keeps, and a failing entry in the rest fails the whole pass.
   */
  lemma AbortAfterFirst(entries: seq<RemoteEntry>, clientDir: seq<string>, attempt: (string, nat) -> Attempt,
                        local: Files, after: Files, final: Files, rest: bool)
    requires |entries| > 0 && Outcome(entries[0].path, attempt, 0).Some?
    requires forall k :: k !in WrittenBy(clientDir, entries[0]) ==> AgreeAt(local, after, k)
    requires KeptBeyond(after, final, clientDir, entries[1..])
    requires forall i :: 0 <= i < |entries[1..]| && Outcome(entries[1..][i].path, attempt, 0).None? ==>
      !rest && KeptBeyond(after, final, clientDir, entries[1..][..i + 1])
    ensures forall i :: 0 <= i < |entries| && Outcome(entries[i].path, attempt, 0).None? ==>
      !rest && KeptBeyond(local, final, clientDir, entries[..i + 1])
    ensures KeptBeyond(local, final, clientDir, entries)
  {
    var tail := entries[1..];
    assert tail[..|tail|] == tail && entries[..|entries|] == entries;
    KeptAfterFirst(entries, clientDir, local, after, final, |entries| - 1);
    forall i | 0 <= i < |entries| && Outcome(entries[i].path, attempt, 0).None?
      ensures !rest && KeptBeyond(local, final, clientDir, entries[..i + 1])
    {
      assert tail[i - 1] == entries[i];
      KeptAfterFirst(entries, clientDir, local, after, final, i);
    }
  }

  /** A failing first entry changes only what that entry writes. */
  lemma FailedFirstKeeps(entries: seq<RemoteEntry>, clientDir: seq<string>, local: Files, after: Files)
    requires |entries| > 0
    requires forall k :: k !in WrittenBy(clientDir, entries[0]) ==> AgreeAt(local, after, k)
    ensures forall n :: 0 < n <= |entries| ==> KeptBeyond(local, after, clientDir, entries[..n])
  {
    forall n, k | 0 < n <= |entries| && Untouched(clientDir, entries[..n], k)
      ensures AgreeAt(local, after, k)
    {
      assert entries[..n][0] == entries[0];
      assert entries[0] in entries[..n];
    }
  }

  /** The first entry's writes followed by the rest's keep every path no entry up to `n` writes. */
  lemma KeptAfterFirst(entries: seq<RemoteEntry>, clientDir: seq<string>, local: Files, after: Files, final: Files, n: int)
    requires 0 <= n < |entries|
    requires forall k :: k !in WrittenBy(clientDir, entries[0]) ==> AgreeAt(local, after, k)
    requires KeptBeyond(after, final, clientDir, entries[1..][..n])
    ensures KeptBeyond(local, final, clientDir, entries[..n + 1])
  {
    forall k | Untouched(clientDir, entries[..n + 1], k)
      ensures AgreeAt(local, final, k)
    {
      assert entries[..n + 1][0] == entries[0];
      assert entries[0] in entries[..n + 1];
      forall e | e in entries[1..][..n]
        ensures k !in WrittenBy(clientDir, e)
      {
        var m :| 0 <= m < n && entries[1..][..n][m] == e;
        assert entries[..n + 1][m + 1] == e;
        assert e in entries[..n + 1];
      }
      assert Untouched(clientDir, entries[1..][..n], k);
      assert AgreeAt(after, final, k);
      assert AgreeAt(local, after, k);
    }
  }

  /** The first entry landing, then the rest's last writes landing, lands the whole list's last writes. */
  lemma LandedAfterFirst(entries: seq<RemoteEntry>, clientDir: seq<string>, attempt: (string, nat) -> Attempt,
                         after: Files, final: Files)
    requires |entries| > 0 && LandedAt(entries[0], clientDir, attempt, after)
    requires LastWritesLanded(entries[1..], clientDir, attempt, final)
    requires KeptBeyond(after, final, clientDir, entries[1..])
    ensures LastWritesLanded(entries, clientDir, attempt, final)
  {
    var tail := entries[1..];
    forall i | 0 <= i < |entries| && Untouched(clientDir, entries[i + 1..], LocalTarget(clientDir, entries[i].path))
      ensures LandedAt(entries[i], clientDir, attempt, final)
    {
      if i == 0 {
        assert entries[1..] == tail;
        assert AgreeAt(after, final, LocalTarget(clientDir, entries[0].path));
      } else {
        assert tail[i - 1] == entries[i];
        assert tail[i - 1 + 1..] == entries[i + 1..];
      }
    }
  }

  /** When the whole list is ready and separate, the first write leaves the rest ready and separate. */
  lemma ReadyTail(entries: seq<RemoteEntry>, clientDir: seq<string>, attempt: (string, nat) -> Attempt,
                  local: Files, after: Files)
    requires |entries| > 0 && AllReady(local, clientDir, entries, attempt) && Separate(clientDir, entries)
    requires forall k :: k !in WrittenBy(clientDir, entries[0]) ==> AgreeAt(local, after, k)
    ensures AllReady(after, clientDir, entries[1..], attempt) && Separate(clientDir, entries[1..])
  {
    var tail := entries[1..];
    forall e | e in tail
      ensures Ready(after, clientDir, e, attempt)
    {
      var j :| 0 <= j < |tail| && tail[j] == e;
      assert entries[j + 1] == e && e in entries;
      assert ApartWrites(clientDir, entries[0], entries[j + 1]);
      ReadySurvives(local, after, clientDir, entries[0], e, attempt);
    }
    forall i, j | 0 <= i < |tail| && 0 <= j < |tail| && i != j
      ensures ApartWrites(clientDir, tail[i], tail[j])
    {
      assert tail[i] == entries[i + 1] && tail[j] == entries[j + 1];
    }
  }

  /** The target of `e` holds the body its download fetched. */
  predicate LandedAt(e: RemoteEntry, clientDir: seq<string>, attempt: (string, nat) -> Attempt, files: Files)
  {
    var t := LocalTarget(clientDir, e.path);
    Outcome(e.path, attempt, 0).Some? && t in files && files[t] == Outcome(e.path, attempt, 0).value
  }

  /**
   * `check_for_updates`: true only when some file needed updating and every needed file
   * was fetched and written; a failing file stops the update at once. Returns the result
   * and the files on disk afterwards.
   */
  method CheckForUpdates(reply: ManifestReply, clientDir: seq<string>, local: Files, hash: Content -> Digest,
                         attempt: (string, nat) -> Attempt) returns (updated: bool, after: Files)
    ensures !reply.Listing? ==> !updated && after == local
    ensures reply.Listing? && NeededFiles(reply.files, clientDir, local, hash) in {None, Some([])} ==>
      !updated && after == local
    ensures updated ==>
      && reply.Listing?
      && NeededFiles(reply.files, clientDir, local, hash).Some?
      && |NeededFiles(reply.files, clientDir, local, hash).value| > 0
      && (forall e :: e in NeededFiles(reply.files, clientDir, local, hash).value ==> Outcome(e.path, attempt, 0).Some?)
      && LastWritesLanded(NeededFiles(reply.files, clientDir, local, hash).value, clientDir, attempt, after)
    ensures reply.Listing? && NeededFiles(reply.files, clientDir, local, hash).Some? ==>
      var needed := NeededFiles(reply.files, clientDir, local, hash).value;
      && (|needed| > 0 && AllReady(local, clientDir, needed, attempt) && Separate(clientDir, needed) ==> updated)
      && (forall i :: 0 <= i < |needed| && Outcome(needed[i].path, attempt, 0).None? ==>
            !updated && KeptBeyond(local, after, clientDir, needed[..i + 1]))
    ensures SameOutsideDir(local, after, clientDir)
  {
    if !reply.Listing? {
      return false, local;
    }
    var needed := NeededFiles(reply.files, clientDir, local, hash);
    if needed.None? || |needed.value| == 0 {
      return false, local;
    }
    forall e | e in needed.value
      ensures Applicable(clientDir, e)
    {
      assert e in reply.files;
    }
    updated, after := ApplyUpdates(needed.value, clientDir, local, attempt);
  }

  /** Every needed file that no later entry overwrites holds the body fetched for it. */
  predicate LastWritesLanded(entries: seq<RemoteEntry>, clientDir: seq<string>, attempt: (string, nat) -> Attempt,
                             files: Files)
  {
    forall i :: 0 <= i < |entries| && Untouched(clientDir, entries[i + 1..], LocalTarget(clientDir, entries[i].path)) ==>
      LandedAt(entries[i], clientDir, attempt, files)
  }

  /** When no entry writes over an earlier entry's target, every needed file lands. */
  lemma DistinctTargetsAllLanded(entries: seq<RemoteEntry>, clientDir: seq<string>, attempt: (string, nat) -> Attempt,
                                 files: Files)
    requires LastWritesLanded(entries, clientDir, attempt, files)
    requires forall i, j :: 0 <= i < j < |entries| ==>
      LocalTarget(clientDir, entries[i].path) !in WrittenBy(clientDir, entries[j])
    ensures forall e :: e in entries ==> LandedAt(e, clientDir, attempt, files)
  {
    forall e | e in entries
      ensures LandedAt(e, clientDir, attempt, files)
    {
      var i :| 0 <= i < |entries| && entries[i] == e;
      forall x | x in entries[i + 1..]
        ensures LocalTarget(clientDir, e.path) !in WrittenBy(clientDir, x)
      {
        var m :| 0 <= m < |entries[i + 1..]| && entries[i + 1..][m] == x;
        assert entries[i + 1 + m] == x;
      }
    }
  }

  /** Agreement outside a directory is transitive. */
  lemma SameOutsideDirTrans(a: Files, b: Files, c: Files, dir: seq<string>)
    requires SameOutsideDir(a, b, dir) && SameOutsideDir(b, c, dir)
    ensures SameOutsideDir(a, c, dir)
  {
  }

  /** Writing a target and its temporary file inside the directory keeps everything outside it unchanged. */
  lemma WriteStaysInside(local: Files, before: Files, after: Files, dir: seq<string>, target: seq<string>, temp: seq<string>)
    requires SameOutsideDir(local, before, dir)
    requires SameOutside(before, after, {target, temp})
    requires Within(dir, target) && Within(dir, temp)
    ensures SameOutsideDir(local, after, dir)
  {
  }

  /** A safe entry's target, and its temporary file, lie inside the client directory, unless it is the directory itself. */
  lemma TargetInside(clientDir: seq<string>, rel: string)
    requires Safe(clientDir, rel)
    ensures Within(clientDir, LocalTarget(clientDir, rel))
    ensures LocalTarget(clientDir, rel) != clientDir ==> Within(clientDir, AppendToName(LocalTarget(clientDir, rel), TEMP_SUFFIX))
  {
    var t := LocalTarget(clientDir, rel);
    assert (clientDir + [REQUIREMENTS])[..|clientDir|] == clientDir;
    if t != clientDir {
      var temp := AppendToName(t, TEMP_SUFFIX);
      assert |t| > |clientDir|;
      assert temp[..|clientDir|] == t[..|t| - 1][..|clientDir|];
    }
  }
}

=== FILE: manifest_service.dfy ===
/**
 * The world manifest the Coordinator serves: every regular file under the world data
 * directory, except the `meta` folder and lock, temporary and log files, with its
 * root-relative POSIX path, digest and size.
 */
module ManifestService {
  import opened Wrappers
  import opened Bytes
  import opened Strings
  import opened Paths

  /** A regular file found by the recursive scan: its components below the root, and its bytes unless unreadable. */
  datatype WorldFile = WorldFile(parts: seq<string>, content: Option<Content>)

  /** One manifest entry. */
  datatype Entry = Entry(path: string, hash: Digest, size: nat)

  datatype Manifest = Manifest(files: seq<Entry>, totalFiles: nat, totalSize: nat)

  /** A name the scan never reports. */
  predicate LockTempOrLog(name: string)
  {
    EndsWith(name, ".lock") || EndsWith(name, ".tmp") || EndsWith(name, ".log")
  }

  /** The scan keeps this file: no `meta` component in its full path, and an acceptable name. */
  predicate Kept(rootParts: seq<string>, f: WorldFile)
  {
    "meta" !in rootParts + f.parts && !LockTempOrLog(Name(f.parts))
  }

  /** The entry a readable file contributes. */
  function EntryOf(f: WorldFile, hash: Content -> Digest): Entry
    requires f.content.Some?
  {
    Entry(Join(f.parts, '/'), hash(f.content.value), |f.content.value|)
  }

  /** The files filtered, in scan order (the loop body of `scan_world_files`). */
  function ScanFiles(rootParts: seq<string>, files: seq<WorldFile>, hash: Content -> Digest): (r: seq<Entry>)
    ensures |r| <= |files|
    ensures forall e :: e in r ==>
      exists f :: f in files && Kept(rootParts, f) && f.content.Some? && e == EntryOf(f, hash)
    ensures forall f :: f in files && Kept(rootParts, f) && f.content.Some? ==> EntryOf(f, hash) in r
    decreases |files|
  {
    if |files| == 0 then []
    else
      var f := files[|files| - 1];
      var init := ScanFiles(rootParts, files[..|files| - 1], hash);
      assert files == files[..|files| - 1] + [f];
      if Kept(rootParts, f) && f.content.Some? then init + [EntryOf(f, hash)] else init
  }

  /** `scan_world_files`: nothing when the root is missing, else the kept, readable files. */
  function ScanWorldFiles(rootExists: bool, rootParts: seq<string>, files: seq<WorldFile>,
                          hash: Content -> Digest): (r: seq<Entry>)
    ensures !rootExists ==> r == []
    ensures rootExists ==> r == ScanFiles(rootParts, files, hash)
  {
    if !rootExists then [] else ScanFiles(rootParts, files, hash)
  }

  /** The paths a scan reports carry no `meta` component and no lock, temporary or log name. */
  lemma {:induction false} ScannedPathsClean(rootParts: seq<string>, files: seq<WorldFile>, hash: Content -> Digest)
    requires forall f :: f in files ==> ValidParts(f.parts)
    ensures forall e :: e in ScanFiles(rootParts, files, hash) ==>
      !HasComponent(e.path, "meta") && !LockTempOrLog(Name(Components(e.path)))
  {
    forall e | e in ScanFiles(rootParts, files, hash)
      ensures !HasComponent(e.path, "meta") && !LockTempOrLog(Name(Components(e.path)))
    {
      var f :| f in files && Kept(rootParts, f) && f.content.Some? && e == EntryOf(f, hash);
      ComponentsOfJoin(f.parts);
      assert "meta" !in f.parts;
    }
  }

  /** `sum(f["size"] for f in files)` as a reference definition. */
  function SumSizes(entries: seq<Entry>): nat
    decreases |entries|
  {
    if |entries| == 0 then 0 else SumSizes(entries[..|entries| - 1]) + entries[|entries| - 1].size
  }

  /** `get_manifest`: the scanned entries with their count and total size. */
  method GetManifest(rootExists: bool, rootParts: seq<string>, files: seq<WorldFile>, hash: Content -> Digest)
    returns (m: Manifest)
    ensures m.files == ScanWorldFiles(rootExists, rootParts, files, hash)
    ensures m.totalFiles == |m.files|
    ensures m.totalSize == SumSizes(m.files)
    ensures !rootExists ==> m == Manifest([], 0, 0)
  {
    var entries := ScanWorldFiles(rootExists, rootParts, files, hash);
    var total := 0;
    var i := 0;
    while i < |entries|
      invariant 0 <= i <= |entries|
      invariant total == SumSizes(entries[..i])
    {
      assert entries[..i + 1][..i] == entries[..i];
      total := total + entries[i].size;
      i := i + 1;
    }
    assert entries[..|entries|] == entries;
    m := Manifest(entries, |entries|, total);
  }

  /** The scan is compositional: two batches scan to the concatenation of their scans, in order. */
  lemma {:induction false} ScanSplits(rootParts: seq<string>, xs: seq<WorldFile>, ys: seq<WorldFile>, hash: Content -> Digest)
    ensures ScanFiles(rootParts, xs + ys, hash) == ScanFiles(rootParts, xs, hash) + ScanFiles(rootParts, ys, hash)
    decreases |ys|
  {
    if |ys| == 0 {
      assert xs + ys == xs;
    } else {
      var ys' := ys[..|ys| - 1];
      assert (xs + ys)[..|xs + ys| - 1] == xs + ys';
      ScanSplits(rootParts, xs, ys', hash);
    }
  }
}

=== FILE: paths.dfy ===
/**
 * Lexical POSIX paths, as `pathlib` treats them without touching the disk: components,
 * the final name and its suffix, and `..`-resolution against a base directory.
 * Symbolic links are not followed; a path is resolved by its text alone.
 */
module Paths {
  import opened Strings

  /** The components of a path: pieces between `/`, without the empty and `.` pieces. */
  function Components(p: string): (r: seq<string>)
    ensures forall k :: 0 <= k < |r| ==> r[k] != "" && r[k] != "." && '/' !in r[k]
  {
    KeepNamed(Split(p, '/'))
  }

  /** Drops the empty and `.` pieces, keeping the order of the others. */
  function KeepNamed(pieces: seq<string>): (r: seq<string>)
    ensures forall k :: 0 <= k < |r| ==> r[k] != "" && r[k] != "." && r[k] in pieces
    ensures forall x :: x in pieces && x != "" && x != "." ==> x in r
  {
    if |pieces| == 0 then []
    else if pieces[0] == "" || pieces[0] == "." then KeepNamed(pieces[1..])
    else [pieces[0]] + KeepNamed(pieces[1..])
  }

  /** `name in Path(p).parts` for a component name (the root marker `/` is never such a name). */
  predicate HasComponent(p: string, name: string)
  {
    name in Components(p)
  }

  /** `p.startswith("/")`. */
  predicate IsAbsolute(p: string)
  {
    |p| > 0 && p[0] == '/'
  }

  /** The final component (`Path.name`), or "" for a path with no components. */
  function Name(parts: seq<string>): string
  {
    if |parts| == 0 then "" else parts[|parts| - 1]
  }

  /** Position of the last `.` in `s`, or -1 (`str.rfind('.')`). */
  function LastDot(s: string): (i: int)
    ensures -1 <= i < |s|
    ensures i >= 0 ==> s[i] == '.'
    ensures forall j :: i < j < |s| ==> s[j] != '.'
    decreases |s|
  {
    if |s| == 0 then -1
    else if s[|s| - 1] == '.' then |s| - 1
    else LastDot(s[..|s| - 1])
  }

  /** `Path.suffix` of a name: from the last dot, unless that dot leads or ends the name. */
  function Suffix(name: string): (r: string)
    ensures r == "" || (r[0] == '.' && EndsWith(name, r) && '.' !in r[1..])
  {
    var i := LastDot(name);
    if 0 < i < |name| - 1 then
      assert name[|name| - |name[i..]|..] == name[i..];
      name[i..]
    else ""
  }

  /** One lexical resolution step: `..` climbs (never above the root), anything else descends. */
  function Step(dir: seq<string>, component: string): seq<string>
  {
    if component == ".." then (if |dir| == 0 then [] else dir[..|dir| - 1])
    else dir + [component]
  }

  /** Walks the components from `dir`, left to right. */
  function Walk(dir: seq<string>, comps: seq<string>): seq<string>
    decreases |comps|
  {
    if |comps| == 0 then dir else Walk(Step(dir, comps[0]), comps[1..])
  }

  /** `(base / rel).resolve()` lexically: an absolute `rel` restarts from the root. */
  function Resolve(base: seq<string>, rel: string): seq<string>
  {
    Walk(if IsAbsolute(rel) then [] else base, Components(rel))
  }

  /** `str(path)` of an absolute path given by its components. */
  function PathString(parts: seq<string>): string
  {
    "/" + Join(parts, '/')
  }

  /** Component-wise containment: `target.relative_to(base)` succeeds. */
  predicate Within(base: seq<string>, target: seq<string>)
  {
    |base| <= |target| && target[..|base|] == base
  }

  /** Without `..`, walking only descends: the result extends the start directory. */
  lemma {:induction false} WalkDescends(dir: seq<string>, comps: seq<string>)
    requires ".." !in comps
    ensures Walk(dir, comps) == dir + comps
    decreases |comps|
  {
    if |comps| > 0 {
      assert comps[0] != "..";
      assert ".." !in comps[1..];
      WalkDescends(dir + [comps[0]], comps[1..]);
      assert dir + [comps[0]] + comps[1..] == dir + comps;
    }
  }

  /** A relative path without `..` resolves inside its base. */
  lemma ResolveInside(base: seq<string>, rel: string)
    requires !IsAbsolute(rel) && ".." !in Components(rel)
    ensures Resolve(base, rel) == base + Components(rel)
    ensures Within(base, Resolve(base, rel))
  {
    WalkDescends(base, Components(rel));
    assert (base + Components(rel))[..|base|] == base;
  }

  /** Component-wise containment implies the textual prefix test. */
  lemma WithinImpliesTextPrefix(base: seq<string>, target: seq<string>)
    requires Within(base, target)
    ensures StartsWith(PathString(target), PathString(base))
  {
    if |base| == 0 {
    } else if |target| == |base| {
      assert target == base;
    } else {
      var rest := target[|base|..];
      assert target == base + rest;
      JoinAppend(base, rest, '/');
      assert PathString(target) == PathString(base) + ['/'] + Join(rest, '/');
    }
  }

  /** Names a `rglob` can yield below a directory: non-empty, not `.`, no `/`, and at least one of them. */
  predicate ValidParts(parts: seq<string>)
  {
    |parts| >= 1 && forall k :: 0 <= k < |parts| ==> parts[k] != "" && parts[k] != "." && '/' !in parts[k]
  }

  /** Pieces that are all names are kept as they are. */
  lemma {:induction false} KeepNamedAll(pieces: seq<string>)
    requires forall k :: 0 <= k < |pieces| ==> pieces[k] != "" && pieces[k] != "."
    ensures KeepNamed(pieces) == pieces
    decreases |pieces|
  {
    if |pieces| > 0 {
      KeepNamedAll(pieces[1..]);
      assert [pieces[0]] + pieces[1..] == pieces;
    }
  }

  /** `as_posix()` followed by re-parsing gives the same components back. */
  lemma ComponentsOfJoin(parts: seq<string>)
    requires ValidParts(parts)
    ensures Components(Join(parts, '/')) == parts
  {
    SplitJoin(parts, '/');
    KeepNamedAll(parts);
  }
  /** `str(path) + suffix` as a path: the same directory, the final name extended (the root gives `/suffix`). */
  function AppendToName(p: seq<string>, suffix: string): (t: seq<string>)
    ensures |t| == if |p| == 0 then 1 else |p|
    ensures |p| > 0 ==> t[..|p| - 1] == p[..|p| - 1]
    ensures |suffix| > 0 ==> t != p
  {
    if |p| == 0 then [suffix]
    else
      var t := p[..|p| - 1] + [p[|p| - 1] + suffix];
      assert |t[|t| - 1]| == |p[|p| - 1]| + |suffix|;
      t
  }

  /** `x` lies strictly below `y`: `y` is a proper ancestor of `x`. */
  predicate StrictlyBelow(x: seq<string>, y: seq<string>)
  {
    |x| > |y| && x[..|y|] == y
  }

  /** Some stored file lies strictly below `p`, so `p` is a directory. */
  predicate IsDirectory<V>(files: map<seq<string>, V>, p: seq<string>)
  {
    exists k :: k in files && |k| > |p| && k[..|p|] == p
  }

  /** Some proper ancestor of `p` is a regular file, so `p`'s parent directory cannot be created. */
  predicate ParentBlocked<V>(files: map<seq<string>, V>, p: seq<string>)
  {
    exists i :: 0 < i < |p| && p[..i] in files
  }

  /** The two trees agree on every path outside `except`. */
  ghost predicate SameOutside<V>(a: map<seq<string>, V>, b: map<seq<string>, V>, except: set<seq<string>>)
  {
    forall k :: k !in except ==> (k in a <==> k in b) && (k in a && k in b ==> a[k] == b[k])
  }

  /** The two trees agree on every path that is not inside `dir`. */
  ghost predicate SameOutsideDir<V>(a: map<seq<string>, V>, b: map<seq<string>, V>, dir: seq<string>)
  {
    forall k :: !Within(dir, k) ==> (k in a <==> k in b) && (k in a && k in b ==> a[k] == b[k])
  }

  /** `../name` for a plain name climbs once and then descends into `name`. */
  lemma ClimbComponents(name: string)
    requires name != "" && name != "." && '/' !in name
    ensures Components("../" + name) == ["..", name]
  {
    assert "../" + name == ".." + ['/'] + name;
    SplitAtSeparator("..", name, '/');
    SplitPlain(name, '/');
    assert Split("../" + name, '/') == ["..", name];
    KeepNamedAll(["..", name]);
  }
}

=== FILE: process_tracker.dfy ===
/**
 * The client's registry of spawned subprocesses, persisted so that a later start can
 * kill what a crashed run left behind.
 */
module ProcessTracker {
  import opened Strings

  /** One tracked process: `{pid, name, status}`. */
  datatype Tracked = Tracked(pid: int, name: string, status: string)

  type Registry = map<string, Tracked>

  /** `register`: an empty key or a zero pid is ignored; otherwise the key is (re)bound as active. */
  function Register(reg: Registry, key: string, pid: int, processName: string): (r: Registry)
    ensures key == "" || pid == 0 ==> r == reg
    ensures key != "" && pid != 0 ==> key in r && r[key] == Tracked(pid, processName, "active")
    ensures forall k :: k != key ==> (k in r <==> k in reg) && (k in r && k in reg ==> r[k] == reg[k])
  {
    if key == "" || pid == 0 then reg
    else reg[key := Tracked(pid, processName, "active")]
  }

  /** `unregister`: forgets the key, if it was tracked. */
  function Unregister(reg: Registry, key: string): (r: Registry)
    ensures key !in r
    ensures key !in reg ==> r == reg
    ensures forall k :: k != key ==> (k in r <==> k in reg) && (k in r && k in reg ==> r[k] == reg[k])
  {
    if key in reg then reg - {key} else reg
  }

  /**
   * `_is_orphan`: the pid is alive (and inspectable) and its process name contains the
   * expected name, ignoring case. `live` maps each inspectable live pid to its process name.
   */
  predicate IsOrphan(live: map<int, string>, pid: int, expectedName: string)
  {
    pid in live && Contains(Lower(live[pid]), Lower(expectedName))
  }

  /** The pids a cleanup kills: exactly those of entries judged orphans. */
  ghost predicate KillsExactly(reg: Registry, live: map<int, string>, killed: set<int>)
  {
    forall p :: p in killed <==> exists k :: k in reg && reg[k].pid == p && IsOrphan(live, p, reg[k].name)
  }

  /** `cleanup_orphans`: kills the process tree of every orphan, then forgets every entry. */
  method CleanupOrphans(reg: Registry, live: map<int, string>) returns (after: Registry, killed: set<int>)
    ensures KillsExactly(reg, live, killed)
    ensures after == map[]
    ensures reg == map[] ==> killed == {}
  {
    killed := {};
    var todo := reg.Keys;
    while todo != {}
      invariant todo <= reg.Keys
      invariant reg == map[] ==> killed == {}
      invariant forall p :: p in killed <==>
        exists k :: k in reg && k !in todo && reg[k].pid == p && IsOrphan(live, p, reg[k].name)
      decreases |todo|
    {
      var k :| k in todo;
      var info := reg[k];
      if IsOrphan(live, info.pid, info.name) {
        killed := killed + {info.pid};
      }
      todo := todo - {k};
    }
    after := map[];
  }

  /** Cleanup kills a live process only when it runs the expected program. */
  lemma CleanupKillsOnlyMatches(reg: Registry, live: map<int, string>, killed: set<int>, p: int)
    requires KillsExactly(reg, live, killed) && p in killed
    ensures p in live
    ensures exists k :: k in reg && reg[k].pid == p && Contains(Lower(live[p]), Lower(reg[k].name))
  {
  }

  /** A registration is undone by unregistering the same key when it was not tracked before. */
  lemma RegisterUnregister(reg: Registry, key: string, pid: int, processName: string)
    requires key !in reg
    ensures Unregister(Register(reg, key, pid, processName), key) == reg
  {
  }
}

=== FILE: session_manager.dfy ===
/**
 * The client's side of the session protocol: the timing defaults, the claim with its
 * 409-resume rule, and how each reply of the session endpoints is classified. Every HTTP
 * exchange is an input: the reply, or the kind of exception the request raised.
 */
module SessionManager {
  import opened Wrappers
  import opened JsonData

  /** The timing used before the server has granted any. */
  const DEFAULT_HEARTBEAT_INTERVAL: int := 5
  const DEFAULT_LOCK_TIMEOUT: int := 15

  /** How much of a non-JSON error body is kept. */
  const ERROR_TEXT_LIMIT: nat := 100

  /** The statuses `heartbeat_session` reports for a lost connection and for any other exception. */
  const CONNECTION_LOST: int := 503
  const INTERNAL_FAILURE: int := 500

  /** `SessionInfo`: the token and timing the server granted with the claim. */
  datatype SessionInfo = SessionInfo(token: string, heartbeatInterval: int, lockTimeout: int)

  /** A response body: a JSON document, or text that does not parse as JSON. */
  datatype Body = JsonBody(doc: Json) | TextBody(text: string)

  /** An exception from `requests`: a `ConnectionError`, or anything else (a read timeout, say). */
  datatype Failure = ConnectionFailure | OtherFailure

  /** The outcome of one request. */
  datatype Reply = Raised(failure: Failure) | Response(status: int, body: Body)

  /** An exception that leaves the call instead of a return value. */
  datatype Escape = Escape

  /** `heartbeat_interval`: the granted interval, or 5 seconds before any grant. */
  function HeartbeatInterval(info: Option<SessionInfo>): (r: int)
    ensures info.None? ==> r == DEFAULT_HEARTBEAT_INTERVAL
    ensures info.Some? ==> r == info.value.heartbeatInterval
  {
    if info.Some? then info.value.heartbeatInterval else DEFAULT_HEARTBEAT_INTERVAL
  }

  /** `lock_timeout`: the granted timeout, or 15 seconds before any grant. */
  function LockTimeout(info: Option<SessionInfo>): (r: int)
    ensures info.None? ==> r == DEFAULT_LOCK_TIMEOUT
    ensures info.Some? ==> r == info.value.lockTimeout
  {
    if info.Some? then info.value.lockTimeout else DEFAULT_LOCK_TIMEOUT
  }

  /** What `_get_error_msg` yields: the `detail` value, the whole document, or the start of the text. */
  datatype Message = Detail(value: Json) | Printed(doc: Json) | Text(text: string)

  /**
   * `_get_error_msg`. A JSON document that is not an object has no `.get`, and the
   * `AttributeError` is not caught: `None` stands for it.
   */
  function ErrorMsg(body: Body): (r: Option<Message>)
    ensures r.None? <==> body.JsonBody? && !body.doc.JObj?
    ensures body.JsonBody? && body.doc.JObj? && "detail" in body.doc.fields ==>
      r == Some(Detail(body.doc.fields["detail"]))
    ensures body.JsonBody? && body.doc.JObj? && "detail" !in body.doc.fields ==> r == Some(Printed(body.doc))
    ensures body.TextBody? ==>
      && r.Some? && r.value.Text?
      && |r.value.text| == (if |body.text| <= ERROR_TEXT_LIMIT then |body.text| else ERROR_TEXT_LIMIT)
      && r.value.text <= body.text
  {
    match body
    case JsonBody(doc) =>
      if !doc.JObj? then None
      else if "detail" in doc.fields then Some(Detail(doc.fields["detail"]))
      else Some(Printed(doc))
    case TextBody(text) =>
      Some(Text(if |text| <= ERROR_TEXT_LIMIT then text else text[..ERROR_TEXT_LIMIT]))
  }

  /** A 200 whose body parses as JSON: what every session endpoint treats as a good answer. */
  predicate GoodJson(reply: Reply)
  {
    reply.Response? && reply.status == 200 && reply.body.JsonBody?
  }

  /**
   * `heartbeat_session`: the document and 200 for a good answer; for another status, that
   * status; 503 for a lost connection; 500 for any other exception, including a 200 whose
   * body is not JSON and an error body whose message cannot be read.
   */
  function HeartbeatSession(reply: Reply): (r: (Option<Json>, int))
    ensures r.0.Some? <==> r.1 == 200
    ensures r.1 == 200 <==> GoodJson(reply)
    ensures GoodJson(reply) ==> r.0 == Some(reply.body.doc)
    ensures reply == Raised(ConnectionFailure) ==> r == (None, CONNECTION_LOST)
    ensures reply == Raised(OtherFailure) ==> r == (None, INTERNAL_FAILURE)
    ensures reply.Response? && reply.status != 200 ==>
      r == (None, if ErrorMsg(reply.body).Some? then reply.status else INTERNAL_FAILURE)
  {
    match reply
    case Raised(ConnectionFailure) => (None, CONNECTION_LOST)
    case Raised(OtherFailure) => (None, INTERNAL_FAILURE)
    case Response(status, body) =>
      if status == 200 then
        (if body.JsonBody? then (Some(body.doc), 200) else (None, INTERNAL_FAILURE))
      else if ErrorMsg(body).Some? then (None, status)
      else (None, INTERNAL_FAILURE)
  }

  /** `check_connection`: a 200 whose body parses as JSON; every failure is false. */
  function CheckConnection(reply: Reply): (r: bool)
    ensures r <==> reply.Response? && reply.status == 200 && reply.body.JsonBody?
  {
    match reply
    case Raised(_) => false
    case Response(status, body) => status == 200 && body.JsonBody?
  }

  /** `get_session`: the document of a good answer; `None` for every failure. */
  function GetSession(reply: Reply): (r: Option<Json>)
    ensures r.Some? <==> reply.Response? && reply.status == 200 && reply.body.JsonBody?
    ensures r.Some? ==> r.value == reply.body.doc
  {
    match reply
    case Raised(_) => None
    case Response(status, body) => if status == 200 && body.JsonBody? then Some(body.doc) else None
  }

  /** A heartbeat succeeds, a ping succeeds and a session read succeeds on exactly the same replies. */
  lemma ClassifiersAgree(reply: Reply)
    ensures HeartbeatSession(reply).1 == 200 <==> CheckConnection(reply)
    ensures GetSession(reply).Some? <==> CheckConnection(reply)
    ensures CheckConnection(reply) ==> HeartbeatSession(reply).0 == GetSession(reply)
  {
  }

  /**
   * `stop_session`: true for 204; false for another readable status and for a lost
   * connection. Any other exception, and an error body that is JSON but not an object,
   * escape.
   */
  function StopSession(reply: Reply): (r: Result<bool, Escape>)
    ensures r == Ok(true) <==> reply.Response? && reply.status == 204
    ensures reply == Raised(ConnectionFailure) ==> r == Ok(false)
    ensures r.Err? <==>
      reply == Raised(OtherFailure) || (reply.Response? && reply.status != 204 && ErrorMsg(reply.body).None?)
  {
    match reply
    case Raised(ConnectionFailure) => Ok(false)
    case Raised(OtherFailure) => Err(Escape)
    case Response(status, body) =>
      if status == 204 then Ok(true)
      else if ErrorMsg(body).Some? then Ok(false)
      else Err(Escape)
  }

  /**
   * The heartbeat and the stop read an error reply through the same helper: for a status
   * they do not treat as success, the stop escapes exactly when the heartbeat reports an
   * internal failure, and a text body is always a readable error to both.
   */
  lemma ErrorRepliesAgree(status: int, body: Body)
    requires status != 200 && status != 204 && status != INTERNAL_FAILURE
    ensures StopSession(Response(status, body)).Err? <==> HeartbeatSession(Response(status, body)).1 == INTERNAL_FAILURE
    ensures StopSession(Response(status, body)).Err? <==> body.JsonBody? && !body.doc.JObj?
    ensures body.TextBody? ==>
      StopSession(Response(status, body)) == Ok(false) && HeartbeatSession(Response(status, body)) == (None, status)
  {
  }

  /** `SessionInfo(**resp.json())`: an object with a string `token` and integer timings, anything else failing validation. */
  function ParseInfo(body: Body): (r: Option<SessionInfo>)
    ensures r.Some? ==>
      && body.JsonBody? && body.doc.JObj?
      && Index(body.doc, "token") == Some(JStr(r.value.token))
      && Index(body.doc, "heartbeat_interval") == Some(JInt(r.value.heartbeatInterval))
      && Index(body.doc, "lock_timeout") == Some(JInt(r.value.lockTimeout))
    ensures r.Some? <==>
      && body.JsonBody?
      && Index(body.doc, "token").Some? && Index(body.doc, "token").value.JStr?
      && Index(body.doc, "heartbeat_interval").Some? && Index(body.doc, "heartbeat_interval").value.JInt?
      && Index(body.doc, "lock_timeout").Some? && Index(body.doc, "lock_timeout").value.JInt?
  {
    if !body.JsonBody? then None
    else
      match (Index(body.doc, "token"), Index(body.doc, "heartbeat_interval"), Index(body.doc, "lock_timeout"))
      case (Some(JStr(token)), Some(JInt(interval)), Some(JInt(timeout))) => Some(SessionInfo(token, interval, timeout))
      case _ => None
  }

  /** After a claim: whether it holds the session, the session info, and the token written to the token file. */
  datatype ClaimOutcome = ClaimOutcome(claimed: bool, info: Option<SessionInfo>, savedToken: Option<string>)

  /**
   * `claim_session`. A 409 resumes the session only when the ping answers and a heartbeat
   * with the stored token gets 200. A 200 or 201 stores the granted info and saves its
   * token; a body that does not validate escapes. A lost connection and any other status
   * give false. `connected` and `heartbeatStatus` are the answers of the ping and the
   * heartbeat, asked only on a 409.
   */
  function ClaimSession(info: Option<SessionInfo>, reply: Reply, connected: bool, heartbeatStatus: int)
    : (r: Result<ClaimOutcome, Escape>)
    ensures r.Err? <==>
      reply == Raised(OtherFailure)
      || (reply.Response? && reply.status in {200, 201} && ParseInfo(reply.body).None?)
    ensures r.Ok? ==>
      (r.value.claimed <==>
        (reply.Response? && reply.status == 409 && connected && heartbeatStatus == 200)
        || (reply.Response? && reply.status in {200, 201}))
    ensures r.Ok? && reply.Response? && reply.status in {200, 201} ==>
      && r.value.info == ParseInfo(reply.body)
      && r.value.savedToken == Some(ParseInfo(reply.body).value.token)
    ensures r.Ok? && !(reply.Response? && reply.status in {200, 201}) ==>
      r.value.info == info && r.value.savedToken.None?
  {
    match reply
    case Raised(ConnectionFailure) => Ok(ClaimOutcome(false, info, None))
    case Raised(OtherFailure) => Err(Escape)
    case Response(status, body) =>
      if status == 409 then Ok(ClaimOutcome(connected && heartbeatStatus == 200, info, None))
      else if status == 200 || status == 201 then
        match ParseInfo(body)
        case Some(granted) => Ok(ClaimOutcome(true, Some(granted), Some(granted.token)))
        case None => Err(Escape)
      else Ok(ClaimOutcome(false, info, None))
  }

  /** After a granted claim the heartbeat runs on the granted timing and authenticates with the saved token. */
  lemma GrantedClaimSetsTiming(info: Option<SessionInfo>, status: int, body: Body, connected: bool, heartbeatStatus: int)
    requires status in {200, 201} && ParseInfo(body).Some?
    ensures var r := ClaimSession(info, Response(status, body), connected, heartbeatStatus);
      && r.Ok? && r.value.claimed
      && HeartbeatInterval(r.value.info) == ParseInfo(body).value.heartbeatInterval
      && LockTimeout(r.value.info) == ParseInfo(body).value.lockTimeout
      && r.value.savedToken == Some(r.value.info.value.token)
  {
  }

  /** A conflict is never turned into a claim without the server accepting a heartbeat for the existing session. */
  lemma ConflictNeedsHeartbeat(info: Option<SessionInfo>, body: Body, connected: bool, heartbeatStatus: int)
    ensures var r := ClaimSession(info, Response(409, body), connected, heartbeatStatus);
      r.Ok? && (r.value.claimed <==> connected && heartbeatStatus == 200) && r.value.info == info
  {
  }
}

=== FILE: state_machine.dfy ===
/**
 * The client's host election: one transition of the state machine per handler run,
 * driven by what the handler observed (the connection check, the session document, the
 * sync result, the claim, and the health of the hosting services), and the runs of
 * several transitions that show how a client can come to host.
 */
module StateMachine {
  import opened Wrappers
  import opened JsonData
  import SyncService

  datatype State = Init | Discovery | Participant | PreHostSync | ClaimHost | Hosting | Error

  /** The machine: the current state and the manifest cached between the final sync and hosting. */
  datatype Machine = Machine(state: State, cached: Option<map<string, string>>)

  /**
   * What one handler run observes. `raised` is an exception from anything the handler
   * awaits that this model does not look into (tunnels, sleeping, starting services);
   * `session` is what `get_session` returned; `sync` is the outcome of `sync_from_server`;
   * `startCommand` says a start command was remembered; `restartRaised` that restarting
   * the game server raised.
   */
  datatype Observations = Observations(
    raised: bool,
    connected: bool,
    session: Option<Json>,
    ownHostId: string,
    sync: Result<SyncService.SyncReport, SyncService.SyncError>,
    claimed: bool,
    heartbeatAlive: bool,
    hostTunnelUp: bool,
    gameRunning: bool,
    startCommand: bool,
    restartRaised: bool)

  /** The fresh machine: INIT with nothing cached. */
  const START: Machine := Machine(Init, None)

  /** The session is locked by a host other than this client. */
  predicate LockedByOther(fields: map<string, Json>, ownHostId: string)
  {
    Truthy(Get(fields, "is_locked")) && Get(fields, "host_id") != JStr(ownHostId)
  }

  /**
   * `_handle_discovery`. A failed read and a JSON `null` body are both `None` to the
   * handler and lead to the pre-host sync. Any other document that is not a dict has no
   * `.get`; `None` is the exception that follows.
   */
  function HandleDiscovery(o: Observations): (r: Option<State>)
    ensures !o.connected ==> r == Some(Discovery)
    ensures o.connected && (o.session.None? || o.session == Some(JNull)) ==> r == Some(PreHostSync)
    ensures o.connected && o.session.Some? && o.session.value.JObj? ==>
      r == Some(if LockedByOther(o.session.value.fields, o.ownHostId) then Participant else PreHostSync)
    ensures r != Some(Hosting) && r != Some(ClaimHost)
  {
    if !o.connected then Some(Discovery)
    else
      match o.session
      case None => Some(PreHostSync)
      case Some(doc) =>
        if doc == JNull then Some(PreHostSync)
        else if !doc.JObj? then None
        else if LockedByOther(doc.fields, o.ownHostId) then Some(Participant)
        else Some(PreHostSync)
  }

  /** `_handle_participant`: follow the host while the session stays locked. */
  function HandleParticipant(o: Observations): (r: Option<State>)
    ensures o.sync.Err? ==> r.None?
    ensures o.sync.Ok? && (o.session.None? || !Truthy(o.session.value)) ==> r == Some(Discovery)
    ensures o.sync.Ok? && o.session.Some? && Truthy(o.session.value) && o.session.value.JObj? ==>
      r == Some(if Truthy(Get(o.session.value.fields, "is_locked")) then Participant else Discovery)
    ensures r.Some? ==> r.value in {Participant, Discovery}
  {
    if o.sync.Err? then None
    else
      match o.session
      case None => Some(Discovery)
      case Some(doc) =>
        if !Truthy(doc) then Some(Discovery)
        else if !doc.JObj? then None
        else if Truthy(Get(doc.fields, "is_locked")) then Some(Participant)
        else Some(Discovery)
  }

  /** `_handle_hosting`'s health checks, after the services were started. */
  function HostingVerdict(o: Observations): (r: State)
    ensures r in {Hosting, Discovery}
    ensures !o.heartbeatAlive || !o.hostTunnelUp ==> r == Discovery
    ensures o.heartbeatAlive && o.hostTunnelUp && o.gameRunning ==> r == Hosting
    ensures o.heartbeatAlive && o.hostTunnelUp && !o.gameRunning ==>
      (r == Hosting <==> o.startCommand && !o.restartRaised)
  {
    if !o.heartbeatAlive then Discovery
    else if !o.hostTunnelUp then Discovery
    else if !o.gameRunning then (if o.startCommand && !o.restartRaised then Hosting else Discovery)
    else Hosting
  }

  /** The cache after hosting started: a non-empty manifest is dropped, an empty one is kept. */
  function ClearCache(cached: Option<map<string, string>>): (r: Option<map<string, string>>)
    ensures r.Some? ==> cached == r && |r.value| == 0
    ensures cached.Some? && |cached.value| == 0 ==> r == cached
  {
    if cached.Some? && |cached.value| > 0 then None else cached
  }

  /** One handler run; `None` when the handler raised. ERROR has no handler and leaves everything as it is. */
  function Handle(m: Machine, o: Observations): (r: Option<Machine>)
  {
    if o.raised then None
    else
      match m.state
      case Init => Some(m.(state := Discovery))
      case Discovery =>
        (match HandleDiscovery(o) case None => None case Some(s) => Some(m.(state := s)))
      case Participant =>
        (match HandleParticipant(o) case None => None case Some(s) => Some(m.(state := s)))
      case PreHostSync =>
        (match o.sync
         case Err(_) => None
         case Ok(report) =>
           if report.success then Some(Machine(ClaimHost, report.known)) else Some(m))
      case ClaimHost => Some(m.(state := if o.claimed then Hosting else Discovery))
      case Hosting => Some(Machine(HostingVerdict(o), ClearCache(m.cached)))
      case Error => Some(m)
  }

  /** `run`'s loop body: the handler's next state, or no change at all when the handler raised. */
  function Step(m: Machine, o: Observations): (r: Machine)
    ensures o.raised ==> r == m
    ensures m.state == Init && !o.raised ==> r.state == Discovery
    ensures m.state == Discovery ==> r.state in {Discovery, PreHostSync, Participant}
    ensures m.state == Discovery && !o.raised && !o.connected ==> r.state == Discovery
    ensures m.state == Discovery && !o.raised && o.connected && (o.session.None? || o.session == Some(JNull)) ==>
      r.state == PreHostSync
    ensures m.state == Discovery && !o.raised && o.connected && o.session.Some? && o.session.value.JObj? ==>
      (r.state == Participant <==> LockedByOther(o.session.value.fields, o.ownHostId))
    ensures m.state == Participant ==> r.state in {Participant, Discovery}
    ensures m.state == PreHostSync ==> r.state in {PreHostSync, ClaimHost}
    ensures m.state == PreHostSync && r.state == ClaimHost ==>
      !o.raised && o.sync.Ok? && o.sync.value.success && r.cached == o.sync.value.known
    ensures m.state == PreHostSync && !o.raised && o.sync.Ok? && o.sync.value.success ==> r.state == ClaimHost
    ensures m.state == ClaimHost ==> r.state in {ClaimHost, Hosting, Discovery}
    ensures m.state == ClaimHost && !o.raised ==> (r.state == Hosting <==> o.claimed)
    ensures m.state == Hosting ==> r.state in {Hosting, Discovery}
    ensures m.state == Error ==> r == m
    ensures r.state == Hosting ==> m.state in {ClaimHost, Hosting}
    ensures r.state == ClaimHost ==> m.state in {PreHostSync, ClaimHost}
    ensures r.cached != m.cached ==> !o.raised && m.state in {PreHostSync, Hosting}
  {
    match Handle(m, o)
    case None => m
    case Some(m') => m'
  }

  /** The machines a run passes through: the start, then one per handler run. */
  function Run(m: Machine, obs: seq<Observations>): (r: seq<Machine>)
    ensures |r| == |obs| + 1 && r[0] == m
    ensures forall i :: 0 <= i < |obs| ==> r[i + 1] == Step(r[i], obs[i])
    decreases |obs|
  {
    if |obs| == 0 then [m]
    else
      var prefix := Run(m, obs[..|obs| - 1]);
      var r := prefix + [Step(prefix[|prefix| - 1], obs[|obs| - 1])];
      assert forall i :: 0 <= i < |obs| - 1 ==> obs[..|obs| - 1][i] == obs[i];
      r
  }

  /** A run that starts outside `s` and is in `s` at position `k` entered `s` at some step before `k`. */
  lemma {:induction false} EnteredAt(run: seq<Machine>, k: nat, s: State) returns (j: nat)
    requires k < |run| && run[0].state != s && run[k].state == s
    ensures j < k && run[j].state != s && run[j + 1].state == s
    decreases k
  {
    if run[k - 1].state != s {
      j := k - 1;
    } else {
      j := EnteredAt(run, k - 1, s);
    }
  }

  /**
   * A client that starts fresh and is hosting at step `k` got there by a successful claim
   * at some step `j`, and that claim followed a pre-host sync at step `i` that reported
   * success and cached the known hashes.
   */
  lemma {:induction false} HostingOnlyAfterSyncedClaim(obs: seq<Observations>, k: nat)
    requires k <= |obs| && Run(START, obs)[k].state == Hosting
    ensures exists i, j ::
      && 0 <= i < j < k
      && Run(START, obs)[i].state == PreHostSync
      && obs[i].sync.Ok? && obs[i].sync.value.success
      && Run(START, obs)[i + 1] == Machine(ClaimHost, obs[i].sync.value.known)
      && Run(START, obs)[j].state == ClaimHost && obs[j].claimed
      && Run(START, obs)[j + 1].state == Hosting
  {
    var run := Run(START, obs);
    var j := EnteredAt(run, k, Hosting);
    assert run[j + 1] == Step(run[j], obs[j]);
    assert run[j].state == ClaimHost;
    var i := EnteredAt(run, j, ClaimHost);
    assert run[i + 1] == Step(run[i], obs[i]);
    assert run[i].state == PreHostSync;
  }
}

=== FILE: strings.dfy ===
/** The Python string operations the core relies on, over `string` = `seq<char>`. */
module Strings {

  /** `s.startswith(prefix)`. */
  predicate StartsWith(s: string, prefix: string)
  {
    |prefix| <= |s| && s[..|prefix|] == prefix
  }

  /** `s.endswith(suffix)`. */
  predicate EndsWith(s: string, suffix: string)
  {
    |suffix| <= |s| && s[|s| - |suffix|..] == suffix
  }

  /** `sub in s`: scans the start positions of `s` from left to right. */
  predicate Contains(s: string, sub: string)
    decreases |s|
  {
    StartsWith(s, sub) || (|s| > 0 && Contains(s[1..], sub))
  }

  /** `sub` occurs in `s` at position `i`. */
  ghost predicate OccursAt(s: string, sub: string, i: int)
  {
    0 <= i && i + |sub| <= |s| && s[i..i + |sub|] == sub
  }

  /** An occurrence at any position is found by the left-to-right scan. */
  lemma {:induction false} OccursImpliesContains(s: string, sub: string, i: int)
    requires OccursAt(s, sub, i)
    ensures Contains(s, sub)
    decreases i
  {
    if i == 0 {
      assert s[..|sub|] == sub;
    } else {
      assert s[1..][i - 1..i - 1 + |sub|] == s[i..i + |sub|];
      OccursImpliesContains(s[1..], sub, i - 1);
    }
  }

  /** The scan only succeeds at a real occurrence. */
  lemma {:induction false} ContainsImpliesOccurs(s: string, sub: string)
    requires Contains(s, sub)
    ensures exists i :: OccursAt(s, sub, i)
    decreases |s|
  {
    if StartsWith(s, sub) {
      assert OccursAt(s, sub, 0);
    } else {
      ContainsImpliesOccurs(s[1..], sub);
      var i :| OccursAt(s[1..], sub, i);
      assert s[i + 1..i + 1 + |sub|] == s[1..][i..i + |sub|];
      assert OccursAt(s, sub, i + 1);
    }
  }

  /** The scanning definition of `in` agrees with "some position holds an occurrence". */
  lemma ContainsIff(s: string, sub: string)
    ensures Contains(s, sub) <==> exists i :: OccursAt(s, sub, i)
  {
    if Contains(s, sub) {
      ContainsImpliesOccurs(s, sub);
    }
    if exists i :: OccursAt(s, sub, i) {
      var i :| OccursAt(s, sub, i);
      OccursImpliesContains(s, sub, i);
    }
  }

  /** A string contains itself plus any context around it. */
  lemma ContainsInfix(pre: string, sub: string, post: string)
    ensures Contains(pre + sub + post, sub)
  {
    var s := pre + sub + post;
    assert s[|pre|..|pre| + |sub|] == sub;
    OccursImpliesContains(s, sub, |pre|);
  }

  /** ASCII lower-casing of one character (`str.lower` restricted to ASCII). */
  function LowerChar(c: char): char
  {
    if 'A' <= c <= 'Z' then (c as int + 32) as char else c
  }

  /** `s.lower()` for ASCII text. */
  function Lower(s: string): (r: string)
    ensures |r| == |s|
    ensures forall i :: 0 <= i < |s| ==> r[i] == LowerChar(s[i])
  {
    seq(|s|, i requires 0 <= i < |s| => LowerChar(s[i]))
  }

  /** Lower-casing twice is lower-casing once, so case-insensitive tests are stable. */
  lemma LowerIdempotent(s: string)
    ensures Lower(Lower(s)) == Lower(s)
  {
  }

  /** `s.split(sep)`: always at least one piece, and no piece holds the separator. */
  function Split(s: string, sep: char): (r: seq<string>)
    ensures |r| >= 1
    ensures forall k :: 0 <= k < |r| ==> sep !in r[k]
    decreases |s|
  {
    if |s| == 0 then [""]
    else if s[0] == sep then [""] + Split(s[1..], sep)
    else
      var rest := Split(s[1..], sep);
      [[s[0]] + rest[0]] + rest[1..]
  }

  /** `sep.join(parts)`. */
  function Join(parts: seq<string>, sep: char): string
    decreases |parts|
  {
    if |parts| == 0 then ""
    else if |parts| == 1 then parts[0]
    else parts[0] + [sep] + Join(parts[1..], sep)
  }

  /** Joining the pieces of a split gives back the original string. */
  lemma {:induction false} JoinSplit(s: string, sep: char)
    ensures Join(Split(s, sep), sep) == s
    decreases |s|
  {
    if |s| == 0 {
    } else if s[0] == sep {
      JoinSplit(s[1..], sep);
      var rest := Split(s[1..], sep);
      assert Split(s, sep) == [""] + rest;
      assert ([""] + rest)[1..] == rest;
      assert s == [sep] + s[1..];
    } else {
      JoinSplit(s[1..], sep);
      var rest := Split(s[1..], sep);
      var r := [[s[0]] + rest[0]] + rest[1..];
      assert Split(s, sep) == r;
      if |rest| == 1 {
        assert Join(rest, sep) == rest[0];
      } else {
        assert r[1..] == rest[1..];
        assert Join(rest, sep) == rest[0] + [sep] + Join(rest[1..], sep);
      }
      assert s == [s[0]] + s[1..];
    }
  }

  /** Joining a concatenation puts one separator between the two joined halves. */
  lemma {:induction false} JoinAppend(a: seq<string>, b: seq<string>, sep: char)
    requires |a| > 0 && |b| > 0
    ensures Join(a + b, sep) == Join(a, sep) + [sep] + Join(b, sep)
    decreases |a|
  {
    if |a| == 1 {
      assert (a + b)[1..] == b;
    } else {
      assert (a + b)[1..] == a[1..] + b;
      JoinAppend(a[1..], b, sep);
    }
  }

  /** A string without the separator splits into itself. */
  lemma {:induction false} SplitPlain(x: string, sep: char)
    requires sep !in x
    ensures Split(x, sep) == [x]
    decreases |x|
  {
    if |x| > 0 {
      SplitPlain(x[1..], sep);
      assert [x[0]] + x[1..] == x;
    }
  }

  /** Splitting at the first separator: the piece before it, then the split of the rest. */
  lemma {:induction false} SplitAtSeparator(x: string, y: string, sep: char)
    requires sep !in x
    ensures Split(x + [sep] + y, sep) == [x] + Split(y, sep)
    decreases |x|
  {
    var s := x + [sep] + y;
    if |x| == 0 {
      assert s[1..] == y;
    } else {
      assert s[1..] == x[1..] + [sep] + y;
      SplitAtSeparator(x[1..], y, sep);
      assert [x[0]] + x[1..] == x;
    }
  }

  /** Splitting a join of separator-free pieces gives the pieces back. */
  lemma {:induction false} SplitJoin(parts: seq<string>, sep: char)
    requires |parts| >= 1
    requires forall k :: 0 <= k < |parts| ==> sep !in parts[k]
    ensures Split(Join(parts, sep), sep) == parts
    decreases |parts|
  {
    if |parts| == 1 {
      SplitPlain(parts[0], sep);
    } else {
      SplitJoin(parts[1..], sep);
      SplitAtSeparator(parts[0], Join(parts[1..], sep), sep);
      assert [parts[0]] + parts[1..] == parts;
    }
  }
}

=== FILE: sync_service.dfy ===
/**
 * The client's synchronisation with the Coordinator: the pre-host download of missing or
 * stale world files, the "fully synced" check, the upload skip rule, the event filter and
 * per-path debounce of the change watcher, and the files the initial and final scans
 * offer for upload. HTTP replies, the file watcher and the asyncio scheduler are inputs.
 */
module SyncService {
  import opened Wrappers
  import opened Bytes
  import opened Strings
  import opened Paths
  import opened Glob
  import FileService

  /** The suffix `download_file` gives its temporary file. */
  const TEMP_SUFFIX: string := ".tmp"

  /** The status of an accepted upload. */
  const CREATED: int := 201

  /** One manifest entry as the server lists it. */
  datatype ServerEntry = ServerEntry(path: string, hash: Digest)

  /**
   * A fetched manifest: its `files` list, or `None` when the request failed, the status
   * was not 200, or the body was an empty object (each is falsy to `if not manifest`).
   */
  type ManifestReply = Option<seq<ServerEntry>>

  /** `watch_dir / relative_path`, as the file system resolves it. */
  function LocalPath(watchDir: seq<string>, rel: string): seq<string>
  {
    Resolve(watchDir, rel)
  }

  /** The path names the watch directory, one of its ancestors, or a directory below: hashing it raises. */
  predicate DirectoryAt(local: Files, watchDir: seq<string>, p: seq<string>)
  {
    Within(p, watchDir) || IsDirectory(local, p)
  }

  /** `local_path.exists()`. */
  predicate Exists(local: Files, watchDir: seq<string>, p: seq<string>)
  {
    p in local || DirectoryAt(local, watchDir, p)
  }

  /** The entry needs downloading: nothing is at its path, or the file there hashes differently. */
  predicate Needed(local: Files, watchDir: seq<string>, e: ServerEntry, hash: Content -> Digest)
  {
    var t := LocalPath(watchDir, e.path);
    t !in local || hash(local[t]) != e.hash
  }

  /** The exception that escapes the comparison: a manifest path names a directory, which cannot be hashed. */
  datatype SyncError = HashedDirectory(path: string)

  /**
   * The comparison pass of `sync_from_server`: the server paths that are missing locally
   * or differ, in manifest order. Local files the manifest does not list play no part.
   */
  function DownloadList(entries: seq<ServerEntry>, watchDir: seq<string>, local: Files, hash: Content -> Digest)
    : (r: Result<seq<string>, SyncError>)
    ensures r.Err? <==> exists e :: e in entries && DirectoryAt(local, watchDir, LocalPath(watchDir, e.path))
    ensures r.Err? ==> exists e :: e in entries && e.path == r.error.path
    ensures r.Ok? ==> |r.value| <= |entries|
    ensures r.Ok? ==>
      forall p :: p in r.value <==> exists e :: e in entries && e.path == p && Needed(local, watchDir, e, hash)
    decreases |entries|
  {
    if |entries| == 0 then Ok([])
    else
      var e := entries[0];
      assert forall x :: x in entries <==> x == e || x in entries[1..];
      if DirectoryAt(local, watchDir, LocalPath(watchDir, e.path)) then Err(HashedDirectory(e.path))
      else
        match DownloadList(entries[1..], watchDir, local, hash)
        case Err(x) => Err(x)
        case Ok(rest) => Ok(if Needed(local, watchDir, e, hash) then [e.path] + rest else rest)
  }

  /** `{f["path"]: f["hash"] for f in server_files}`: one key per listed path, later listings overriding earlier ones. */
  function KnownHashes(entries: seq<ServerEntry>): (r: map<string, Digest>)
    ensures forall e :: e in entries ==> e.path in r
    ensures forall p :: p in r ==> exists e :: e in entries && e.path == p
    decreases |entries|
  {
    if |entries| == 0 then map[]
    else
      var n := |entries| - 1;
      assert forall x :: x in entries <==> x == entries[n] || x in entries[..n];
      KnownHashes(entries[..n])[entries[n].path := entries[n].hash]
  }

  /** No later entry lists the same path as entry `i`. */
  predicate LastListing(entries: seq<ServerEntry>, i: int)
    requires 0 <= i < |entries|
  {
    forall j :: i < j < |entries| ==> entries[j].path != entries[i].path
  }

  /** The last listing of an entry in a list is still its last listing once later entries are dropped. */
  lemma LastListingFront(entries: seq<ServerEntry>, i: int, n: int)
    requires 0 <= i < n <= |entries| && LastListing(entries, i)
    ensures LastListing(entries[..n], i)
  {
    forall j | i < j < n
      ensures entries[..n][j].path != entries[..n][i].path
    {
      assert entries[..n][j] == entries[j];
    }
  }

  /** Each path maps to the hash of its last listing. */
  lemma {:induction false} KnownHashesLast(entries: seq<ServerEntry>, i: int)
    requires 0 <= i < |entries| && LastListing(entries, i)
    ensures KnownHashes(entries)[entries[i].path] == entries[i].hash
    decreases |entries|
  {
    var n := |entries| - 1;
    if i < n {
      LastListingFront(entries, i, n);
      KnownHashesLast(entries[..n], i);
      assert entries[..n][i] == entries[i];
    }
  }

  /**
   * `Path.with_suffix(suffix)` of a non-root path: the final name's suffix is replaced,
   * or `suffix` is appended when the name has none.
   */
  function WithSuffix(p: seq<string>, suffix: string): (t: seq<string>)
    requires |p| > 0
    ensures |t| == |p| && t[..|p| - 1] == p[..|p| - 1]
    ensures EndsWith(Name(t), suffix)
    ensures Suffix(Name(p)) == suffix ==> t == p
  {
    var name := p[|p| - 1];
    var current := Suffix(name);
    var t := p[..|p| - 1] + [name[..|name| - |current|] + suffix];
    assert Name(t) == name[..|name| - |current|] + suffix;
    assert current == suffix ==> t == p by {
      if current == suffix {
        assert name[..|name| - |current|] + current == name;
      }
    }
    t
  }

  /** The target and, for a non-root target, its temporary sibling: what one download may change. */
  function TargetAndTemp(t: seq<string>): set<seq<string>>
  {
    if |t| == 0 then {} else {t, WithSuffix(t, TEMP_SUFFIX)}
  }

  /**
   * `download_file` once the reply is in (`body` is `None` for a non-200 status or a
   * failed request): the parent directories are created (a regular file in the way
   * raises), the body is written to the `.tmp` sibling, which then replaces the target.
   * A failing replace leaves the temporary file behind. Returns the files and success.
   */
  function WriteDownload(local: Files, watchDir: seq<string>, target: seq<string>, body: Option<Content>)
    : (r: (Files, bool))
    ensures r.1 <==>
      && body.Some? && |target| > 0 && !ParentBlocked(local, target)
      && !DirectoryAt(local, watchDir, WithSuffix(target, TEMP_SUFFIX)) && !DirectoryAt(local, watchDir, target)
    ensures r.1 ==> target in r.0 && r.0[target] == body.value
    ensures SameOutside(local, r.0, TargetAndTemp(target))
  {
    if body.None? || |target| == 0 || ParentBlocked(local, target) then (local, false)
    else
      var temp := WithSuffix(target, TEMP_SUFFIX);
      if DirectoryAt(local, watchDir, temp) then (local, false)
      else if DirectoryAt(local, watchDir, target) then (local[temp := body.value], false)
      else ((local - {temp})[target := body.value], true)
  }

  /** Every path the downloads of `paths` may change. */
  function Touched(watchDir: seq<string>, paths: seq<string>): set<seq<string>>
    decreases |paths|
  {
    if |paths| == 0 then {}
    else TargetAndTemp(LocalPath(watchDir, paths[0])) + Touched(watchDir, paths[1..])
  }

  /** Neither download's target or temporary file is a proper ancestor of one the other writes. */
  predicate Apart(t: seq<string>, u: seq<string>)
  {
    forall x, y :: x in TargetAndTemp(t) && y in TargetAndTemp(u) ==> !StrictlyBelow(x, y) && !StrictlyBelow(y, x)
  }

  /** No two listed downloads stand in each other's way. */
  predicate Independent(watchDir: seq<string>, paths: seq<string>)
  {
    forall i, j :: 0 <= i < |paths| && 0 <= j < |paths| && i != j ==>
      Apart(LocalPath(watchDir, paths[i]), LocalPath(watchDir, paths[j]))
  }

  /** A download to `t` would find its parent creatable and no directory at the target or its temporary file. */
  predicate Clear(local: Files, watchDir: seq<string>, t: seq<string>)
  {
    && |t| > 0 && !ParentBlocked(local, t)
    && !DirectoryAt(local, watchDir, WithSuffix(t, TEMP_SUFFIX)) && !DirectoryAt(local, watchDir, t)
  }

  /** A download to `t` leaves a download to an apart path `u` as clear as it was. */
  lemma ClearSurvives(local: Files, watchDir: seq<string>, t: seq<string>, body: Option<Content>, u: seq<string>)
    requires Clear(local, watchDir, u) && Apart(t, u)
    ensures Clear(WriteDownload(local, watchDir, t, body).0, watchDir, u)
  {
    var written := WriteDownload(local, watchDir, t, body).0;
    assert forall k :: k in written && k !in local ==> k in TargetAndTemp(t);
    if ParentBlocked(written, u) {
      var i :| 0 < i < |u| && u[..i] in written;
      assert u[..i] !in local;
      assert u in TargetAndTemp(u) && StrictlyBelow(u, u[..i]);
      assert false;
    }
    forall v | v in TargetAndTemp(u)
      ensures !IsDirectory(written, v)
    {
      if IsDirectory(written, v) {
        var k :| k in written && |k| > |v| && k[..|v|] == v;
        assert k !in local;
        assert StrictlyBelow(k, v);
        assert false;
      }
    }
    assert WithSuffix(u, TEMP_SUFFIX) in TargetAndTemp(u);
  }

  /** The local path of `p` holds the body its fetch returned. */
  predicate Landed(watchDir: seq<string>, p: string, fetch: string -> Option<Content>, files: Files)
  {
    var t := LocalPath(watchDir, p);
    fetch(p).Some? && t in files && files[t] == fetch(p).value
  }

  /** Every download that no later download in the list can overwrite or remove has landed. */
  predicate LastDownloadsLanded(paths: seq<string>, watchDir: seq<string>, fetch: string -> Option<Content>, files: Files)
  {
    forall i :: 0 <= i < |paths| && LocalPath(watchDir, paths[i]) !in Touched(watchDir, paths[i + 1..]) ==>
      Landed(watchDir, paths[i], fetch, files)
  }

  /** A changed path is the local path of a download, or a file whose name ends in `.tmp`. */
  lemma {:induction false} TouchedShape(watchDir: seq<string>, paths: seq<string>, k: seq<string>)
    requires k in Touched(watchDir, paths)
    ensures (exists p :: p in paths && k == LocalPath(watchDir, p)) || EndsWith(Name(k), TEMP_SUFFIX)
    decreases |paths|
  {
    var t := LocalPath(watchDir, paths[0]);
    if k !in TargetAndTemp(t) {
      TouchedShape(watchDir, paths[1..], k);
      if exists p :: p in paths[1..] && k == LocalPath(watchDir, p) {
        var p :| p in paths[1..] && k == LocalPath(watchDir, p);
        assert p in paths;
      }
    } else if k != t {
      assert k == WithSuffix(t, TEMP_SUFFIX);
    }
  }

  /**
   * The download pass: every listed path is fetched and written in turn; a failure is
   * counted and the pass goes on. `fetch(p)` is the body of a 200 reply, if any.
   */
  method DownloadAll(paths: seq<string>, watchDir: seq<string>, local: Files, fetch: string -> Option<Content>)
    returns (downloaded: nat, after: Files)
    ensures downloaded <= |paths|
    ensures downloaded == |paths| ==> forall p :: p in paths ==> fetch(p).Some?
    ensures downloaded == |paths| ==> LastDownloadsLanded(paths, watchDir, fetch, after)
    ensures AllClear(local, watchDir, paths, fetch) && Independent(watchDir, paths) ==> downloaded == |paths|
    ensures SameOutside(local, after, Touched(watchDir, paths))
    decreases |paths|
  {
    if |paths| == 0 {
      return 0, local;
    }
    var t := LocalPath(watchDir, paths[0]);
    var written := WriteDownload(local, watchDir, t, fetch(paths[0]));
    var rest;
    rest, after := DownloadAll(paths[1..], watchDir, written.0, fetch);
    downloaded := if written.1 then rest + 1 else rest;
    assert forall p :: p in paths ==> p == paths[0] || p in paths[1..];
    if downloaded == |paths| {
      LandedStep(paths, watchDir, fetch, written.0, after);
    }
    if AllClear(local, watchDir, paths, fetch) && Independent(watchDir, paths) {
      ClearStep(paths, watchDir, fetch, local);
    }
  }

  /** Every listed fetch succeeds and every listed download is clear in `local`. */
  predicate AllClear(local: Files, watchDir: seq<string>, paths: seq<string>, fetch: string -> Option<Content>)
  {
    forall p :: p in paths ==> fetch(p).Some? && Clear(local, watchDir, LocalPath(watchDir, p))
  }

  /** The first download landing, then the rest's last downloads landing, lands the whole list's last downloads. */
  lemma LandedStep(paths: seq<string>, watchDir: seq<string>, fetch: string -> Option<Content>, written: Files, after: Files)
    requires |paths| > 0 && Landed(watchDir, paths[0], fetch, written)
    requires LastDownloadsLanded(paths[1..], watchDir, fetch, after)
    requires SameOutside(written, after, Touched(watchDir, paths[1..]))
    ensures LastDownloadsLanded(paths, watchDir, fetch, after)
  {
    var tail := paths[1..];
    forall i | 0 <= i < |paths| && LocalPath(watchDir, paths[i]) !in Touched(watchDir, paths[i + 1..])
      ensures Landed(watchDir, paths[i], fetch, after)
    {
      if i > 0 {
        assert tail[i - 1] == paths[i];
        assert tail[i - 1 + 1..] == paths[i + 1..];
      }
    }
  }

  /** When the whole list is clear and independent, the first download succeeds and leaves the rest clear and independent. */
  lemma ClearStep(paths: seq<string>, watchDir: seq<string>, fetch: string -> Option<Content>, local: Files)
    requires |paths| > 0 && AllClear(local, watchDir, paths, fetch) && Independent(watchDir, paths)
    ensures WriteDownload(local, watchDir, LocalPath(watchDir, paths[0]), fetch(paths[0])).1
    ensures var written := WriteDownload(local, watchDir, LocalPath(watchDir, paths[0]), fetch(paths[0])).0;
      AllClear(written, watchDir, paths[1..], fetch) && Independent(watchDir, paths[1..])
  {
    assert paths[0] in paths;
    var written := WriteDownload(local, watchDir, LocalPath(watchDir, paths[0]), fetch(paths[0])).0;
    ClearTail(paths, watchDir, fetch, local, written);
    IndependentTail(watchDir, paths);
  }

  /** Every later download stays clear after the first one. */
  lemma ClearTail(paths: seq<string>, watchDir: seq<string>, fetch: string -> Option<Content>, local: Files, written: Files)
    requires |paths| > 0 && AllClear(local, watchDir, paths, fetch) && Independent(watchDir, paths)
    requires written == WriteDownload(local, watchDir, LocalPath(watchDir, paths[0]), fetch(paths[0])).0
    ensures AllClear(written, watchDir, paths[1..], fetch)
  {
    var tail := paths[1..];
    forall p | p in tail
      ensures fetch(p).Some? && Clear(written, watchDir, LocalPath(watchDir, p))
    {
      var j :| 0 <= j < |tail| && tail[j] == p;
      assert paths[j + 1] == p && p in paths;
      assert Apart(LocalPath(watchDir, paths[0]), LocalPath(watchDir, paths[j + 1]));
      ClearSurvives(local, watchDir, LocalPath(watchDir, paths[0]), fetch(paths[0]), LocalPath(watchDir, p));
    }
  }

  /** Dropping the first path keeps the list independent. */
  lemma IndependentTail(watchDir: seq<string>, paths: seq<string>)
    requires |paths| > 0 && Independent(watchDir, paths)
    ensures Independent(watchDir, paths[1..])
  {
    var tail := paths[1..];
    forall i, j | 0 <= i < |tail| && 0 <= j < |tail| && i != j
      ensures Apart(LocalPath(watchDir, tail[i]), LocalPath(watchDir, tail[j]))
    {
      assert tail[i] == paths[i + 1] && tail[j] == paths[j + 1];
    }
  }

  /** The outcome of `sync_from_server`: success, files downloaded, files that differed, and the server's path-to-hash map. */
  datatype SyncReport = SyncReport(success: bool, downloaded: nat, total: nat, known: Option<map<string, Digest>>)

  /**
   * `PreSyncManager.sync_from_server`. `cached` is the manager's synced flag before the
   * call; the flag after it is returned too. A comparison that hashes a directory raises.
   */
  method SyncFromServer(manifest: ManifestReply, watchDir: seq<string>, local: Files, hash: Content -> Digest,
                        fetch: string -> Option<Content>, cached: bool)
    returns (r: Result<SyncReport, SyncError>, after: Files, cached': bool)
    ensures manifest.None? ==> r == Ok(SyncReport(false, 0, 0, None)) && after == local
    ensures manifest.Some? ==> (r.Err? <==> DownloadList(manifest.value, watchDir, local, hash).Err?)
    ensures r.Err? ==> after == local
    ensures manifest.Some? && DownloadList(manifest.value, watchDir, local, hash) == Ok([]) ==>
      r == Ok(SyncReport(true, 0, 0, Some(KnownHashes(manifest.value)))) && after == local
    ensures manifest.Some? && r.Ok? ==>
      var list := DownloadList(manifest.value, watchDir, local, hash).value;
      && r.value.total == |list|
      && r.value.downloaded <= r.value.total
      && (r.value.success <==> r.value.downloaded == r.value.total)
      && (r.value.success ==> forall p :: p in list ==> fetch(p).Some?)
      && (r.value.success ==> LastDownloadsLanded(list, watchDir, fetch, after))
      && (AllClear(local, watchDir, list, fetch) && Independent(watchDir, list) ==> r.value.success)
      && r.value.known == Some(KnownHashes(manifest.value))
      && SameOutside(local, after, Touched(watchDir, list))
    ensures cached' <==> cached || (r.Ok? && r.value.success)
  {
    if manifest.None? {
      return Ok(SyncReport(false, 0, 0, None)), local, cached;
    }
    var entries := manifest.value;
    match DownloadList(entries, watchDir, local, hash) {
      case Err(e) =>
        return Err(e), local, cached;
      case Ok(list) =>
        if |list| == 0 {
          return Ok(SyncReport(true, 0, 0, Some(KnownHashes(entries)))), local, true;
        }
        var downloaded;
        downloaded, after := DownloadAll(list, watchDir, local, fetch);
        var success := downloaded == |list|;
        r := Ok(SyncReport(success, downloaded, |list|, Some(KnownHashes(entries))));
        cached' := cached || success;
    }
  }

  /** A local file that no manifest entry names, and whose name does not end in `.tmp`, survives the sync unchanged. */
  lemma SyncKeepsLocalExtras(entries: seq<ServerEntry>, watchDir: seq<string>, local: Files, hash: Content -> Digest,
                             after: Files, k: seq<string>)
    requires DownloadList(entries, watchDir, local, hash).Ok?
    requires SameOutside(local, after, Touched(watchDir, DownloadList(entries, watchDir, local, hash).value))
    requires forall e :: e in entries ==> LocalPath(watchDir, e.path) != k
    requires !EndsWith(Name(k), TEMP_SUFFIX)
    ensures k in after <==> k in local
    ensures k in local ==> after[k] == local[k]
  {
    var list := DownloadList(entries, watchDir, local, hash).value;
    if k in Touched(watchDir, list) {
      TouchedShape(watchDir, list, k);
      assert false;
    }
  }

  /**
   * The comparison of `is_fully_synced`, entry by entry: a missing path answers false,
   * a directory raises, a different hash answers false.
   */
  function AllMatch(entries: seq<ServerEntry>, watchDir: seq<string>, local: Files, hash: Content -> Digest)
    : (r: Result<bool, SyncError>)
    ensures r == Ok(true) <==>
      forall e :: e in entries ==>
        !DirectoryAt(local, watchDir, LocalPath(watchDir, e.path)) && !Needed(local, watchDir, e, hash)
    ensures r.Err? ==> exists e :: e in entries && DirectoryAt(local, watchDir, LocalPath(watchDir, e.path))
    decreases |entries|
  {
    if |entries| == 0 then Ok(true)
    else
      var e := entries[0];
      assert forall x :: x in entries <==> x == e || x in entries[1..];
      var t := LocalPath(watchDir, e.path);
      if !Exists(local, watchDir, t) then Ok(false)
      else if DirectoryAt(local, watchDir, t) then Err(HashedDirectory(e.path))
      else if hash(local[t]) != e.hash then Ok(false)
      else AllMatch(entries[1..], watchDir, local, hash)
  }

  /**
   * `is_fully_synced`: the cached flag, else a fresh comparison against the manifest.
   * Returns the answer and the manager's synced flag after the call: a comparison that
   * answers true sets it.
   */
  function IsFullySynced(cached: bool, manifest: ManifestReply, watchDir: seq<string>, local: Files,
                         hash: Content -> Digest): (r: (Result<bool, SyncError>, bool))
    ensures cached ==> r.0 == Ok(true)
    ensures !cached && manifest.None? ==> r.0 == Ok(false)
    ensures !cached && manifest.Some? ==> r.0 == AllMatch(manifest.value, watchDir, local, hash)
    ensures r.1 <==> cached || r.0 == Ok(true)
  {
    if cached then (Ok(true), true)
    else if manifest.None? then (Ok(false), false)
    else
      var answer := AllMatch(manifest.value, watchDir, local, hash);
      (answer, answer == Ok(true))
  }

  /** The check and the comparison agree entry by entry: every entry matches iff none needs downloading. */
  lemma {:induction false} AllMatchIffNothingNeeded(entries: seq<ServerEntry>, watchDir: seq<string>, local: Files,
                                                   hash: Content -> Digest)
    ensures AllMatch(entries, watchDir, local, hash) == Ok(true) <==> DownloadList(entries, watchDir, local, hash) == Ok([])
    decreases |entries|
  {
    if |entries| > 0 {
      AllMatchIffNothingNeeded(entries[1..], watchDir, local, hash);
    }
  }

  /** The manager is fully synced exactly when the comparison of `sync_from_server` would download nothing. */
  lemma FullySyncedIffNothingToDownload(entries: seq<ServerEntry>, watchDir: seq<string>, local: Files,
                                        hash: Content -> Digest)
    ensures IsFullySynced(false, Some(entries), watchDir, local, hash).0 == Ok(true)
        <==> DownloadList(entries, watchDir, local, hash) == Ok([])
  {
    AllMatchIffNothingNeeded(entries, watchDir, local, hash);
  }

  /**
   * Once a check answers true, every later check answers true, whatever the manifest
   * and the local files have become: the flag it set is never cleared.
   */
  lemma SyncedStaysSynced(cached: bool, manifest: ManifestReply, local: Files, later: ManifestReply, changed: Files,
                          watchDir: seq<string>, hash: Content -> Digest)
    requires IsFullySynced(cached, manifest, watchDir, local, hash).0 == Ok(true)
    ensures var flag := IsFullySynced(cached, manifest, watchDir, local, hash).1;
      IsFullySynced(flag, later, watchDir, changed, hash) == (Ok(true), true)
  {
  }

  /** `_get_relative_path`: the POSIX path below the watch directory (`.` for the directory itself), else the bare name. */
  function RelativePath(watchDir: seq<string>, file: seq<string>): string
  {
    if !Within(watchDir, file) then Name(file)
    else if |file| == |watchDir| then "."
    else Join(file[|watchDir|..], '/')
  }

  /** A file below the watch directory gets a relative path that resolves back to it, on either side. */
  lemma RelativePathRoundTrip(watchDir: seq<string>, file: seq<string>)
    requires Within(watchDir, file) && ValidParts(file[|watchDir|..]) && ".." !in file[|watchDir|..]
    ensures Components(RelativePath(watchDir, file)) == file[|watchDir|..]
    ensures LocalPath(watchDir, RelativePath(watchDir, file)) == file
  {
    var rest := file[|watchDir|..];
    var rel := Join(rest, '/');
    ComponentsOfJoin(rest);
    assert !IsAbsolute(rel) by {
      if |rest| > 1 {
        assert rel == rest[0] + ['/'] + Join(rest[1..], '/');
      }
      assert rel[0] == rest[0][0];
    }
    ResolveInside(watchDir, rel);
    assert watchDir + rest == file;
  }

  /** A regular file: stored, with nothing below it. */
  predicate IsFile(local: Files, p: seq<string>)
  {
    p in local && !IsDirectory(local, p)
  }

  /** The skip rule of `upload_file`: a known server hash, non-empty, equal to the file's own. */
  predicate AlreadyOnServer(content: Content, knownHash: Option<Digest>, hash: Content -> Digest)
  {
    knownHash.Some? && knownHash.value != "" && hash(content) == knownHash.value
  }

  /** The request `upload_file` sends: the relative path in the URL and the `X-File-Hash` header. */
  datatype UploadRequest = UploadRequest(path: string, digest: Digest)

  /**
   * `Uploader.upload_file`: nothing is sent for a missing path, a directory, or a file the
   * server already holds; otherwise the file goes up with its digest, and the answer is
   * true only for a 201. `status` is the reply's status, or `None` when the request raised.
   */
  function UploadFile(watchDir: seq<string>, file: seq<string>, local: Files, knownHash: Option<Digest>,
                      hash: Content -> Digest, status: Option<int>): (r: (Option<UploadRequest>, bool))
    ensures r.0.Some? <==> IsFile(local, file) && !AlreadyOnServer(local[file], knownHash, hash)
    ensures r.0.Some? ==> r.0.value == UploadRequest(RelativePath(watchDir, file), hash(local[file]))
    ensures r.1 <==> r.0.Some? && status == Some(CREATED)
  {
    if !IsFile(local, file) then (None, false)
    else
      var digest := hash(local[file]);
      if AlreadyOnServer(local[file], knownHash, hash) then (None, false)
      else (Some(UploadRequest(RelativePath(watchDir, file), digest)), status == Some(CREATED))
  }

  /** The digest an upload carries is that of the bytes it streams, so the server's integrity check passes. */
  lemma SentDigestPassesIntegrity(watchDir: seq<string>, file: seq<string>, local: Files, knownHash: Option<Digest>,
                                  hash: Content -> Digest, status: Option<int>,
                                  fs: Files, root: seq<string>, chunks: seq<Content>)
    requires UploadFile(watchDir, file, local, knownHash, hash, status).0.Some?
    requires Concat(chunks) == local[file]
    ensures var req := UploadFile(watchDir, file, local, knownHash, hash, status).0.value;
      FileService.SaveFile(fs, root, req.path, chunks, req.digest, hash).error != Some(FileService.IntegrityMismatch)
  {
  }

  /** The filters the watcher applies: the paths being reverted, and the configured ignored patterns and restricted names. */
  datatype Filters = Filters(context: set<seq<string>>, ignored: seq<string>, restricted: seq<string>)

  /** `_is_ignored`: the file name matches one of the ignored patterns. */
  function IsIgnored(patterns: seq<string>, name: string): (r: bool)
    ensures r <==> exists i :: 0 <= i < |patterns| && Match(patterns[i], name)
    decreases |patterns|
  {
    if |patterns| == 0 then false
    else
      assert forall i :: 1 <= i < |patterns| ==> patterns[i] == patterns[1..][i - 1];
      Match(patterns[0], name) || IsIgnored(patterns[1..], name)
  }

  /** A scheduled upload task: its path, and whether it has been cancelled. */
  datatype Upload = Upload(path: seq<string>, cancelled: bool)

  /**
   * The change watcher: the event queue, `processing_tasks` (the task registered for each
   * path), the upload tasks whose `finally` has not yet run, and the next task id.
   */
  datatype Watcher = Watcher(queue: seq<seq<string>>, pending: map<seq<string>, nat>, tasks: map<nat, Upload>, next: nat)

  /** `DiffManager.enqueue`: a path being reverted or with an ignored name is dropped; any other is queued. */
  function Enqueue(w: Watcher, f: Filters, path: seq<string>): (r: Watcher)
    ensures path in f.context || IsIgnored(f.ignored, Name(path)) ==> r == w
    ensures !(path in f.context || IsIgnored(f.ignored, Name(path))) ==> r == w.(queue := w.queue + [path])
  {
    if path in f.context || IsIgnored(f.ignored, Name(path)) then w
    else w.(queue := w.queue + [path])
  }

  /** What the consumer does with one event: revert a restricted file, or schedule an upload (cancelling the previous one). */
  datatype Action = Revert(path: seq<string>) | Schedule(path: seq<string>, id: nat, cancelled: Option<nat>)

  /**
   * One turn of `start_consumer`, on the event at the head of the queue: a restricted
   * name is handed to the revert and never uploaded; any other path has its registered
   * task cancelled and a new delayed upload registered in its place.
   */
  function Consume(w: Watcher, f: Filters): (r: (Watcher, Action))
    requires |w.queue| > 0
    ensures r.0.queue == w.queue[1..]
    ensures Name(w.queue[0]) in f.restricted ==> r == (w.(queue := w.queue[1..]), Revert(w.queue[0]))
    ensures Name(w.queue[0]) !in f.restricted ==>
      var path := w.queue[0];
      && r.1 == Schedule(path, w.next, if path in w.pending then Some(w.pending[path]) else None)
      && r.0.pending == w.pending[path := w.next]
      && r.0.next == w.next + 1
      && w.next in r.0.tasks && r.0.tasks[w.next] == Upload(path, false)
      && (forall id :: id in w.tasks && id != w.next && (path !in w.pending || id != w.pending[path]) ==>
            id in r.0.tasks && r.0.tasks[id] == w.tasks[id])
  {
    var path := w.queue[0];
    var rest := w.queue[1..];
    if Name(path) in f.restricted then (w.(queue := rest), Revert(path))
    else
      var tasks :=
        if path in w.pending && w.pending[path] in w.tasks
        then w.tasks[w.pending[path] := w.tasks[w.pending[path]].(cancelled := true)]
        else w.tasks;
      var cancelled := if path in w.pending then Some(w.pending[path]) else None;
      (Watcher(rest, w.pending[path := w.next], tasks[w.next := Upload(path, false)], w.next + 1),
       Schedule(path, w.next, cancelled))
  }

  /**
   * The `finally` of `_process_upload_delayed` as written: when task `id` ends (its upload
   * done or its sleep cancelled), whatever task is registered for its path is forgotten.
   */
  function FinishAsWritten(w: Watcher, id: nat): Watcher
    requires id in w.tasks
  {
    var path := w.tasks[id].path;
    w.(pending := if path in w.pending then w.pending - {path} else w.pending, tasks := w.tasks - {id})
  }

  /** The `finally` as intended: the registration is forgotten only when it is this task's own. */
  function Finish(w: Watcher, id: nat): (r: Watcher)
    requires id in w.tasks
    ensures id !in r.tasks && r.tasks == w.tasks - {id}
    ensures var path := w.tasks[id].path;
      && (path in w.pending && w.pending[path] == id ==> r.pending == w.pending - {path})
      && (path !in w.pending || w.pending[path] != id ==> r.pending == w.pending)
  {
    var path := w.tasks[id].path;
    w.(pending := if path in w.pending && w.pending[path] == id then w.pending - {path} else w.pending,
       tasks := w.tasks - {id})
  }

  /** An upload task still running that nothing has cancelled. */
  predicate Active(w: Watcher, id: nat)
  {
    id in w.tasks && !w.tasks[id].cancelled
  }

  /** At most one active upload per path. */
  predicate AtMostOneActive(w: Watcher)
  {
    forall a, b :: a in w.tasks && b in w.tasks && Active(w, a) && Active(w, b) && w.tasks[a].path == w.tasks[b].path ==> a == b
  }

  /**
   * The bookkeeping the debounce relies on: every registered task is active and for its
   * own path, every active task is the one registered for its path, and ids are fresh.
   */
  predicate Tracked(w: Watcher)
  {
    && (forall p :: p in w.pending ==> Active(w, w.pending[p]) && w.tasks[w.pending[p]].path == p)
    && (forall id :: id in w.tasks && Active(w, id) ==> w.tasks[id].path in w.pending && w.pending[w.tasks[id].path] == id)
    && (forall id :: id in w.tasks ==> id < w.next)
  }

  /** A tracked watcher has at most one active upload per path, and awaits every active upload. */
  lemma TrackedAtMostOne(w: Watcher)
    requires Tracked(w)
    ensures AtMostOneActive(w)
    ensures forall id :: Active(w, id) ==> id in w.pending.Values
  {
    forall id | Active(w, id)
      ensures id in w.pending.Values
    {
      assert w.pending[w.tasks[id].path] == id;
    }
  }

  /** The watcher starts with nothing queued, registered or running. */
  lemma InitialTracked()
    ensures Tracked(Watcher([], map[], map[], 0))
  {
  }

  /** Enqueueing, consuming and the intended `finally` keep the bookkeeping. */
  lemma StepsKeepTracked(w: Watcher, f: Filters, path: seq<string>, id: nat)
    requires Tracked(w)
    ensures Tracked(Enqueue(w, f, path))
    ensures |w.queue| > 0 ==> Tracked(Consume(w, f).0)
    ensures id in w.tasks ==> Tracked(Finish(w, id))
  {
    if |w.queue| > 0 && Name(w.queue[0]) !in f.restricted {
      var w' := Consume(w, f).0;
      var p := w.queue[0];
      forall q | q in w'.pending
        ensures Active(w', w'.pending[q]) && w'.tasks[w'.pending[q]].path == q
      {
        if q != p {
          assert w.pending[q] != w.next;
          assert w.pending[q] in w.tasks;
          assert p in w.pending ==> w.pending[p] != w.pending[q];
        }
      }
      forall x | Active(w', x)
        ensures w'.tasks[x].path in w'.pending && w'.pending[w'.tasks[x].path] == x
      {
        if x != w.next {
          assert x in w.tasks;
        }
      }
    }
  }

  /**
   * With one path changed three times, the cancelled first task's `finally` runs after the
   * second task is registered and unregisters it; the third event then finds nothing to
   * cancel, so two uploads of the path run at once and one of them is never awaited. The
   * intended `finally` keeps the second task registered and the third event cancels it.
   */
  lemma StaleFinallyLosesTrack()
    ensures var p := ["w", "level.dat"];
      var f := Filters({}, [], []);
      var w2 := Consume(Consume(Watcher([p, p, p], map[], map[], 0), f).0, f).0;
      var written := Consume(FinishAsWritten(w2, 0), f).0;
      var intended := Consume(Finish(w2, 0), f).0;
      && Active(written, 1) && Active(written, 2) && written.tasks[1].path == written.tasks[2].path
      && 1 !in written.pending.Values
      && !AtMostOneActive(written)
      && !Active(intended, 1) && AtMostOneActive(intended)
  {
    var p := ["w", "level.dat"];
    var f := Filters({}, [], []);
    var w0 := Watcher([p, p, p], map[], map[], 0);
    InitialTracked();
    assert Tracked(w0);
    StepsKeepTracked(w0, f, p, 0);
    var w1 := Consume(w0, f).0;
    StepsKeepTracked(w1, f, p, 0);
    var w2 := Consume(w1, f).0;
    assert w2.tasks[0] == Upload(p, true);
    StepsKeepTracked(w2, f, p, 0);
    var intended := Consume(Finish(w2, 0), f).0;
    StepsKeepTracked(Finish(w2, 0), f, p, 0);
    TrackedAtMostOne(intended);
    var written := Consume(FinishAsWritten(w2, 0), f).0;
    assert written.pending == map[p := 2];
  }

  /**
   * `found` is what `watch_dir.rglob("*")` yields: every path strictly below the watch
   * directory, so every file there, and nothing outside it.
   */
  predicate Listing(found: seq<seq<string>>, local: Files, watchDir: seq<string>)
  {
    && (forall x :: x in local && IsFile(local, x) && StrictlyBelow(x, watchDir) ==> x in found)
    && (forall x :: x in found ==> StrictlyBelow(x, watchDir))
  }

  /** A file below the watch directory that the client neither ignores nor restricts by name. */
  predicate Uploadable(local: Files, watchDir: seq<string>, f: Filters, x: seq<string>)
  {
    IsFile(local, x) && StrictlyBelow(x, watchDir) && !IsIgnored(f.ignored, Name(x)) && Name(x) !in f.restricted
  }

  /** Over a full listing, the scan candidates are exactly the uploadable files. */
  lemma CandidatesOfListing(found: seq<seq<string>>, local: Files, watchDir: seq<string>, f: Filters)
    requires Listing(found, local, watchDir)
    ensures forall x :: x in ScanCandidates(found, local, f) <==> Uploadable(local, watchDir, f, x)
  {
  }

  /** The files a full scan offers for upload, in scan order: regular files whose names are neither ignored nor restricted. */
  function ScanCandidates(found: seq<seq<string>>, local: Files, f: Filters): (r: seq<seq<string>>)
    ensures |r| <= |found|
    ensures forall x :: x in r <==>
      x in found && IsFile(local, x) && !IsIgnored(f.ignored, Name(x)) && Name(x) !in f.restricted
    decreases |found|
  {
    if |found| == 0 then []
    else
      var x := found[0];
      assert forall y :: y in found <==> y == x || y in found[1..];
      var rest := ScanCandidates(found[1..], local, f);
      if IsFile(local, x) && !IsIgnored(f.ignored, Name(x)) && Name(x) !in f.restricted then [x] + rest else rest
  }

  /** `known.get(rel)` of the server's path-to-hash map, when there is one. */
  function KnownHashFor(known: Option<map<string, Digest>>, rel: string): Option<Digest>
  {
    if known.Some? && rel in known.value then Some(known.value[rel]) else None
  }

  /** The map `initial_scan` compares against: the one it was given, else the freshly fetched manifest's. */
  function InitialKnown(given: Option<map<string, Digest>>, fetched: ManifestReply): Option<map<string, Digest>>
  {
    if given.Some? then given
    else if fetched.Some? then Some(KnownHashes(fetched.value))
    else None
  }

  /** The map `final_sync` compares against: the fetched manifest's, or empty. */
  function FinalKnown(fetched: ManifestReply): map<string, Digest>
  {
    if fetched.Some? then KnownHashes(fetched.value) else map[]
  }

  /** The requests of `rs` the server accepted. */
  function Accepted(rs: seq<UploadRequest>, status: string -> Option<int>): (r: seq<UploadRequest>)
    ensures |r| <= |rs|
    ensures forall q :: q in r <==> q in rs && status(q.path) == Some(CREATED)
    decreases |rs|
  {
    if |rs| == 0 then []
    else
      assert forall y :: y in rs <==> y == rs[0] || y in rs[1..];
      (if status(rs[0].path) == Some(CREATED) then [rs[0]] else []) + Accepted(rs[1..], status)
  }

  /**
   * The upload loop of `initial_scan` and `final_sync` over the scan candidates: each is
   * offered to `upload_file` with the server's hash for its relative path. Returns the
   * requests sent, and the counts of files uploaded and skipped.
   */
  method UploadEach(cands: seq<seq<string>>, watchDir: seq<string>, local: Files, known: Option<map<string, Digest>>,
                    hash: Content -> Digest, status: string -> Option<int>)
    returns (sent: seq<UploadRequest>, uploaded: nat, skipped: nat)
    ensures uploaded + skipped == |cands|
    ensures |sent| <= |cands|
    ensures uploaded == |Accepted(sent, status)|
    ensures forall q :: q in sent ==>
      exists x :: x in cands && IsFile(local, x)
        && !AlreadyOnServer(local[x], KnownHashFor(known, RelativePath(watchDir, x)), hash)
        && q == UploadRequest(RelativePath(watchDir, x), hash(local[x]))
    ensures forall x ::
      (x in cands && IsFile(local, x) && !AlreadyOnServer(local[x], KnownHashFor(known, RelativePath(watchDir, x)), hash))
      ==> UploadRequest(RelativePath(watchDir, x), hash(local[x])) in sent
    decreases |cands|
  {
    if |cands| == 0 {
      return [], 0, 0;
    }
    var x := cands[0];
    var rel := RelativePath(watchDir, x);
    var one := UploadFile(watchDir, x, local, KnownHashFor(known, rel), hash, status(rel));
    var rest, up, sk := UploadEach(cands[1..], watchDir, local, known, hash, status);
    assert forall y :: y in cands <==> y == x || y in cands[1..];
    sent := if one.0.Some? then [one.0.value] + rest else rest;
    assert one.0.Some? ==> Accepted(sent, status) == (if status(rel) == Some(CREATED) then [one.0.value] else []) + Accepted(rest, status);
    if one.1 {
      uploaded, skipped := up + 1, sk;
    } else {
      uploaded, skipped := up, sk + 1;
    }
  }

  /** `final_sync`: every scan candidate is uploaded unless the server already holds the same bytes under its path. */
  method FinalSync(fetched: ManifestReply, found: seq<seq<string>>, watchDir: seq<string>, local: Files, f: Filters,
                   hash: Content -> Digest, status: string -> Option<int>)
    returns (sent: seq<UploadRequest>, uploaded: nat, skipped: nat)
    requires Listing(found, local, watchDir)
    ensures uploaded + skipped == |ScanCandidates(found, local, f)|
    ensures forall q :: q in sent ==>
      exists x :: Uploadable(local, watchDir, f, x) && q == UploadRequest(RelativePath(watchDir, x), hash(local[x]))
    ensures forall x ::
      (Uploadable(local, watchDir, f, x)
       && !AlreadyOnServer(local[x], KnownHashFor(Some(FinalKnown(fetched)), RelativePath(watchDir, x)), hash))
      ==> UploadRequest(RelativePath(watchDir, x), hash(local[x])) in sent
  {
    CandidatesOfListing(found, local, watchDir, f);
    sent, uploaded, skipped := UploadEach(ScanCandidates(found, local, f), watchDir, local, Some(FinalKnown(fetched)),
                                          hash, status);
  }

  /**
   * `initial_scan`: the scan candidates are offered for upload against the map it was
   * given, else against the manifest fetched for it (`fetched` is consulted only when no
   * map was given). Returns the requests sent and the number of files scanned.
   */
  method InitialScan(given: Option<map<string, Digest>>, fetched: ManifestReply, found: seq<seq<string>>,
                     watchDir: seq<string>, local: Files, f: Filters, hash: Content -> Digest,
                     status: string -> Option<int>)
    returns (sent: seq<UploadRequest>, scanned: nat)
    requires Listing(found, local, watchDir)
    ensures scanned == |ScanCandidates(found, local, f)|
    ensures |sent| <= scanned
    ensures forall q :: q in sent ==>
      exists x :: Uploadable(local, watchDir, f, x) && q == UploadRequest(RelativePath(watchDir, x), hash(local[x]))
    ensures forall x ::
      (Uploadable(local, watchDir, f, x)
       && !AlreadyOnServer(local[x], KnownHashFor(InitialKnown(given, fetched), RelativePath(watchDir, x)), hash))
      ==> UploadRequest(RelativePath(watchDir, x), hash(local[x])) in sent
    ensures given.None? && fetched.None? ==>
      forall x :: Uploadable(local, watchDir, f, x) ==> UploadRequest(RelativePath(watchDir, x), hash(local[x])) in sent
  {
    CandidatesOfListing(found, local, watchDir, f);
    var cands := ScanCandidates(found, local, f);
    var uploaded, skipped;
    sent, uploaded, skipped := UploadEach(cands, watchDir, local, InitialKnown(given, fetched), hash, status);
    scanned := |cands|;
  }

  /** Without a given map, the initial scan compares each path against the same hash as the final sync. */
  lemma InitialMatchesFinal(fetched: ManifestReply, rel: string)
    ensures KnownHashFor(InitialKnown(None, fetched), rel) == KnownHashFor(Some(FinalKnown(fetched)), rel)
  {
  }

  /** A file whose bytes match the server's last listing for its path is not uploaded again by the final sync. */
  lemma FinalSyncSkipsSynced(entries: seq<ServerEntry>, i: int, watchDir: seq<string>, file: seq<string>, local: Files,
                             hash: Content -> Digest, status: Option<int>)
    requires 0 <= i < |entries| && LastListing(entries, i)
    requires entries[i].path == RelativePath(watchDir, file) && entries[i].hash != ""
    requires IsFile(local, file) && hash(local[file]) == entries[i].hash
    ensures UploadFile(watchDir, file, local, KnownHashFor(Some(FinalKnown(Some(entries))), RelativePath(watchDir, file)),
                       hash, status) == (None, false)
  {
    KnownHashesLast(entries, i);
  }
}

=== FILE: wrappers.dfy ===
/** Failure-compatible helper datatypes shared by every module of the model. */
module Wrappers {

  /** A value that may be absent: Python's `None` or a present value. */
  datatype Option<+T> = None | Some(value: T) {

    /** The value, or `default` when absent (Python's `x if x is not None else default`). */
    function GetOr(default: T): T {
      match this
      case Some(v) => v
      case None => default
    }
  }

  /** Either a value or the exception the source would raise instead. */
  datatype Result<+T, +E> = Ok(value: T) | Err(error: E)
}
